=== FILE: README.md ===
# GrassMate core, modelled in Dafny

GrassMate is a macOS menu-bar app. It compares a user's GitHub activity with the activity of their "mates". This project models the app's decision and aggregation logic as pure Dafny functions over immutable data, and proves what that logic promises. The logic is:

- the per-day reducers and compare cache of the metrics service;
- the leaderboard order, the top-3 overtake detector and the rank-alert gate;
- the pinned-mate list, the notification queue and the sync-request rule;
- the persisted mate store;
- the GitHub OAuth device flow (RFC 8628), with its poll loop;
- the login screen's countdown;
- the download page's asset picking and release-notes cleaner.

Conventions of the model:

- Times are integer milliseconds. `now` is always a parameter.
- A UTC day key is the day index `ms / DAY_MS`. `getDayKey` is injective on UTC days, so the index stands for the key.
- Every call into code the model cannot see is an input, with an error case where the source handles one. This covers:
  - HTTP replies;
  - `JSON.parse`, `URLSearchParams` and `Number`;
  - `localStorage`, the Tauri check and the local hour of a date.
- JavaScript numbers are `Num = Finite(int) | NaN | PositiveInfinity | NegativeInfinity`.
- Strings are `seq<char>`.

Files, one module each:

| file | module | models |
|---|---|---|
| wrappers.dfy | Wrappers | `Option`, `Result` |
| text.dfy | Text | `trim`, `toLowerCase` (ASCII), `split`/`join` on one character, `String(n)`, `padStart` |
| collections.dfy | Collections | `map`, `filter`-with-map, `find`, `slice`, the keep-first de-duplication of `Set`/`seen` loops |
| js_number.dfy | JsNumber | `Number.isFinite` |
| usernames.dfy | Usernames | `normalizeUsername` |
| clock.dfy | Clock | UTC day and week starts, KST day start, next 18:00 KST |
| github_api.dfy | GithubApi | a REST reply, and which errors are skipped |
| day_buckets.dfy | DayBuckets | `buildGrassGrid`, `buildMateSparkline`, `buildDailyStats`, `calculateStreak` |
| compare_cache.dfy | CompareCache | `cacheKey`, `isFresh`, `fetchCompareTotals` |
| mate_metrics.dfy | MateMetrics | the per-mate reduction of `fetchMateMetrics` |
| my_grass.dfy | MyGrass | `fetchMyGrassMetrics` |
| mates_store.dfy | MatesStore | `sanitizeMate`, `matesStore.list`, `matesStore.save` |
| app_storage.dfy | AppStorage | `parseStoredStringArray`, `areSameOrder`, `loadBooleanSetting` |
| ranking.dfy | Ranking | `getTopThreeUsernames`, `getFirstTopThreeOvertake` |
| rank_alert.dfy | RankAlert | the snapshot gate of `loadRankMetrics` |
| pinned.dfy | Pinned | `loadPinnedMateUsernames`, `handleTogglePinMate` |
| notifications.dfy | Notifications | `pushNotification`, `dismissNotification` |
| sync.dfy | SyncRequest | `onSyncRequest`: the decision and the batch-complete event |
| device_flow.dfy | DeviceFlow | `deviceFlow.ts` |
| auth.dfy | Auth | `AuthContext.tsx`: session operations and the `startLogin` poll loop |
| login_screen.dfy | LoginScreen | the derived values of `LoginScreen.tsx` |
| release_page.dfy | ReleasePage | `website/main.js` |

The poll loop of `startLogin` is a function over a sequence of `Round`s. A round supplies what the environment does in one pass of the loop:

- the clock reading;
- a cancel or logout during the sleep;
- the poll reply;
- a cancel or logout while the poll is pending;
- the viewer lookup;
- the creation time.

Cancellation is checked only at the loop head and after the sleep. A reply already in flight is therefore still handled. `CancelDuringPollStillSignsIn` states this.

## Model

| member | source | states |
|---|---|---|
| Usernames.StripOneAt | src/app/LegacyApp.tsx:89-91 | `replace(/^@/, '')` drops exactly one leading '@' and leaves any other string unchanged |
| Usernames.Normalize | src/app/LegacyApp.tsx:89-91 | the result is, character by character, the lower-cased trimmed input after one leading '@' (if any); so it has no upper-case ASCII letter, is one character shorter exactly when the trimmed input starts with '@', and is empty exactly when the trimmed input is empty or "@" |
| Usernames.NormalizeIdempotentIff | src/services/mates/store.ts:5-7 | normalising twice equals normalising once exactly when the first result is trimmed and does not start with '@' |
| Usernames.NotIdempotentWitness | src/services/mates/store.ts:5-7 | "@@Foo" normalises to "@foo" and then to "foo" |
| Usernames.NormalizeExample | src/app/LegacyApp.tsx:89-91 | "@Foo " and "foo" normalise to the same name |
| Clock.UtcDayStart | src/services/github/metrics.ts:65-67 | the result is a UTC midnight at or before `now`, less than a day before it, on the same day |
| Clock.UtcWeekStart | src/app/LegacyApp.tsx:83-87 | the result is a UTC midnight at or before `now`, less than seven days before it, and a Monday |
| Clock.WeekStartIsMonday | src/app/LegacyApp.tsx:84-86 | stepping back `(getUTCDay() + 6) % 7` days from a UTC midnight lands on a Monday that many days earlier |
| Clock.KstDayStart | src/services/github/metrics.ts:84-86 | the result is the KST midnight at or before `now`, less than a day before it |
| Clock.NextKstSixPm | src/app/LegacyApp.tsx:277-283 | the result lies in (now, now + 24h], is 18:00 KST, and no instant strictly between `now` and it is 18:00 KST |
| Clock.NextSixPmIsFirst | src/app/LegacyApp.tsx:279-282 | today's 18:00 KST if still ahead, else tomorrow's, is within a day, is 18:00 KST, and no earlier instant after `now` is |
| DayBuckets.Window | src/services/github/metrics.ts:88-98 | the window has `n` entries, entry `i` holding the map's value for day `lastDay - (n-1) + i`, missing days read as 0 |
| DayBuckets.GrassGrid | src/services/github/metrics.ts:88-98 | 35 entries, entry `i` the map's count for day today − 34 + i, 0 for a missing day |
| DayBuckets.MateSparkline | src/services/github/metrics.ts:112-122 | 14 entries, entry `i` the map's score for day today − 13 + i, 0 for a missing day |
| DayBuckets.GrassGridLayout | src/services/github/metrics.ts:88-98 | the grid has 35 entries, oldest first; the last is today's count and a day missing from the map reads as 0 |
| DayBuckets.DailyStatsWindow | src/services/github/metrics.ts:124-148 | one record per day of the window, in order, with that day's commits, additions and deletions, and change = additions + deletions |
| DayBuckets.DailyStats | src/services/github/metrics.ts:124-148 | 35 records, record `i` for day today − 34 + i with that day's commits, additions and deletions and their sum as change |
| DayBuckets.GridMatchesDailyStats | src/services/github/metrics.ts:88-148 | grid and daily stats both have 35 entries for the same days, the last record is today, and each grid entry is the commit count of its record |
| DayBuckets.CalculateStreak | src/services/github/metrics.ts:100-110 | every day of the streak ending today has a positive count, the day before it does not, and the streak never exceeds the number of positive days |
| CompareCache.KeyRoundTrip | src/services/github/metrics.ts:166-168 | `repo::before::head` reads back as the triple when repo and before hold no ':' |
| CompareCache.KeyInjective | src/services/github/metrics.ts:166-168 | such triples never share a cache key |
| CompareCache.FreshnessWindow | src/services/github/metrics.ts:170-172 | an entry is fresh when written and one second before seven days; it is stale at exactly seven days and after |
| CompareCache.FetchCompareTotals | src/services/github/metrics.ts:241-285 | a fresh hit returns the cached totals without a request; success stores the summed file totals stamped `now`; 403/404 gives zero skipped totals and leaves the cache unchanged; any other error propagates |
| CompareCache.FetchTouchesOnlyItsKey | src/services/github/metrics.ts:248-273 | every other cache entry is untouched, and skipped totals are zero |
| CompareCache.SecondCallHitsCache | src/services/github/metrics.ts:248-275 | asking again within seven days of a request returns the same totals from the cache with no request, whatever the endpoint would say |
| MateMetrics.PushesSince | src/services/github/metrics.ts:307-310 | exactly the push events created at or after `since` are kept, and nothing else |
| MateMetrics.PushesSinceInOrder | src/services/github/metrics.ts:307-310 | the window filter distributes over concatenation and keeps one event exactly when it is a push created at or after `since`, so kept events stay in event order |
| MateMetrics.CompareEvent | src/services/github/metrics.ts:312-322 | an event without repo, before or head, or with before = head, is skipped with zero totals and no request; only a hard failure rejects |
| MateMetrics.CompareAll | src/services/github/metrics.ts:312-322 | one result per push event, in order; a skipped result has zero totals and comes from an event that is not comparable or answers 403/404; a comparable event whose compare succeeds is not skipped; a rejection comes from a hard-failing event |
| MateMetrics.CompareAllSkipsExactly | src/services/github/metrics.ts:312-322 | with a cache that agrees with the endpoint, a result is skipped exactly when its event is not comparable or its compare answers 403 or 404 |
| MateMetrics.SumTotals | src/services/github/metrics.ts:324-332 | the skipped count is at most the number of results |
| MateMetrics.SumTotalsAdds | src/services/github/metrics.ts:324-332 | the reduction distributes over concatenation: additions, deletions and skip counts add up part by part |
| MateMetrics.SumTotalsSingle | src/services/github/metrics.ts:324-332 | one result contributes its additions and deletions, and 1 to the skip count exactly when skipped |
| MateMetrics.SkippedSumCounts | src/services/github/metrics.ts:324-332 | results skipped exactly for the skipping events give a skip count equal to the number of skipping events |
| MateMetrics.ActivityScore | src/services/github/metrics.ts:337-338 | a push scores its change total, or 1 when that is 0 |
| MateMetrics.DayScoresAreDayTotals | src/services/github/metrics.ts:334-341 | the day-score map holds, for every day, the summed activity of that day's pushes |
| MateMetrics.DayTotalOfPushDay | src/services/github/metrics.ts:334-341 | a day with a push has total activity at least 1 |
| MateMetrics.SparklineFloor | src/services/github/metrics.ts:334-351 | a push inside the 14-day window makes its day's sparkline point at least 1 |
| MateMetrics.LatestPush | src/services/github/metrics.ts:301-305 | `lastActivityAt` is absent exactly when there is no push event, and otherwise the newest push's creation time |
| MateMetrics.MateMetricFor | src/services/github/metrics.ts:295-355 | an events failure propagates; otherwise the metric succeeds exactly when the compare pool over the window's pushes does, and holds the pool's summed additions, deletions and skip count, the sparkline of its day scores, compared + skipped = the window's push events, changeScore = additions + deletions, net = additions − deletions, the newest push time, and the pool's cache |
| MateMetrics.MateSkipsCounted | src/services/github/metrics.ts:312-354 | with a cache that agrees with the endpoint, skippedEvents counts the window pushes that are not comparable or answer 403/404, and comparedEvents counts the rest |
| MateMetrics.FiveEventsTwoForbidden | src/services/github/metrics.ts:312-354 | five comparable pushes of which two compares answer 403 give three compared and two skipped events |
| MateMetrics.FetchMateMetrics | src/services/github/metrics.ts:287-356 | one metric per mate in mate order, each one the mapper computes for that mate from some cache; any mate whose events fail makes the call reject |
| MateMetrics.FetchMateMetricsAppend | src/services/github/metrics.ts:293-357 | the pool threads one cache through the mates: the later mates start from the cache the earlier ones left, the first failure wins, the metrics concatenate in mate order, and the cache to save is the one the last mate left |
| MateMetrics.FetchMateMetricsCons | src/services/github/metrics.ts:293-357 | the first mate's metric comes from the incoming cache and the other mates continue from the cache it returns |
| MateMetrics.FetchMateMetricsSingle | src/services/github/metrics.ts:293-357 | one mate gets the mapper's metric, and the cache to save is the mapper's returned cache |
| MyGrass.TargetRepos | src/services/github/metrics.ts:378-382 | exactly the public repositories pushed at or after `since` are kept |
| MyGrass.TargetReposInOrder | src/services/github/metrics.ts:378-382 | the repository filter distributes over concatenation and keeps one repository exactly when it is a target, so targets stay in listing order |
| MyGrass.CountedOf | src/services/github/metrics.ts:407-411 | a missing addition or deletion count is 0 and a missing author date is the time of the sync; present values are kept |
| MyGrass.CollectRepo | src/services/github/metrics.ts:400-447 | a 403/404 detail is skipped and any other failure rejects; otherwise the result is exactly the counted form of each answered detail, in commit order |
| MyGrass.Collect | src/services/github/metrics.ts:394-448 | the pool rejects exactly when some target repository's listing or detail fails hard |
| MyGrass.CollectCons | src/services/github/metrics.ts:394-448 | one step of the outer pool: the first repository's listing failure, else its inner pool's failure, else the later repositories' failure, else its commits followed by theirs |
| MyGrass.CollectAppend | src/services/github/metrics.ts:394-448 | the outer pool distributes over concatenation of the repository list: the first part's failure wins, and otherwise the counted commits are the first part's followed by the second's |
| MyGrass.CollectSingle | src/services/github/metrics.ts:394-448 | one repository contributes its listing's failure or its inner pool's result |
| MyGrass.Bump | src/services/github/metrics.ts:429-441 | a known repository's stat is updated in place with +1 commit and the commit's lines; a new one is appended; no other stat changes |
| MyGrass.TallyCounts | src/services/github/metrics.ts:413-427 | each day's count is the number of commits on it; day commits count the hours in [6, 18); night commits are the rest; additions and deletions are the sums over all counted commits |
| MyGrass.TallyOf | src/services/github/metrics.ts:413-441 | the commit count is the number of counted commits, split into day and night commits; repository stats have distinct names, are well formed, and are empty exactly when nothing was counted |
| MyGrass.TallyRepoStats | src/services/github/metrics.ts:429-441 | a repository has a stat exactly when it has counted commits, holding their number and summed change |
| MyGrass.TopRepo | src/services/github/metrics.ts:450-454 | none exactly for no stats; otherwise no stat beats it by change then commits, and it is the first such stat |
| MyGrass.FetchMyGrassMetrics | src/services/github/metrics.ts:365-478 | a repository-list failure propagates; the call rejects exactly when collecting the target repositories does; on success the totals, day and night counts, grid, daily stats and top repository are those of the tally of the collected commits, the streak is the run of positive days ending today, changeScore = additions + deletions and topRepo is null exactly when nothing was counted |
| MatesStore.OptionalText | src/services/mates/store.ts:17-28 | a field is kept, trimmed, exactly when it is a string that is not blank |
| MatesStore.SanitizeMate | src/services/mates/store.ts:9-30 | null exactly for a non-string username or one empty after normalisation; otherwise the normalised name and trimmed optional fields |
| MatesStore.SanitizeAll | src/services/mates/store.ts:42-44 | every item `sanitizeMate` accepts is kept and only those; kept usernames are non-empty |
| MatesStore.SanitizeAllAppend | src/services/mates/store.ts:42-44 | sanitising distributes over concatenation, so kept mates stay in storage order |
| MatesStore.SanitizeAllSingle | src/services/mates/store.ts:42-44 | one item is kept exactly when `sanitizeMate` accepts it, as its sanitised form |
| MatesStore.SanitizeAndDedup | src/services/mates/store.ts:42-48 | the result is the first sanitised mate of every username, in the order the usernames first appear, losing none; kept usernames are non-empty and pairwise distinct |
| MatesStore.List | src/services/mates/store.ts:33-54 | a missing key gives []; corrupt JSON or a throwing item removes the key and gives []; otherwise the first sanitised mate of every username in storage order, none lost, and the key is kept |
| MatesStore.Save | src/services/mates/store.ts:57-70 | the written list is the first sanitised mate of every username, in input order, with no empty or repeated username |
| MatesStore.ResanitizeStable | src/services/mates/store.ts:9-30 | a sanitised mate with a stable name sanitises to itself |
| MatesStore.ListAfterSave | src/services/mates/store.ts:33-70 | `list` after `save` returns the saved list when every username is stable under a second normalisation |
| MatesStore.ListAfterSaveNeedsStableNames | src/services/mates/store.ts:5-7 | without that proviso the round trip fails: "@@Foo" is saved as "@foo" and read back as "foo" |
| MatesStore.SaveOfOneMate | src/services/mates/store.ts:57-70 | a single mate is written as that mate under its normalised name |
| AppStorage.ParseStoredStringArray | src/app/LegacyApp.tsx:175-185 | a missing or empty text, a parse failure or a non-array gives []; an array gives its string elements in order |
| AppStorage.StringsOfInOrder | src/app/LegacyApp.tsx:181 | taking the string elements distributes over concatenation: a string is kept, any other element dropped, order kept |
| AppStorage.StringArrayRoundTrip | src/app/LegacyApp.tsx:175-185 | a list written as a JSON array of strings reads back unchanged |
| AppStorage.SameOrder | src/app/LegacyApp.tsx:187-190 | `areSameOrder` holds exactly when the lists are equal |
| AppStorage.LoadBooleanSetting | src/app/LegacyApp.tsx:153-157 | a missing item gives the fallback; any text but "true" gives false |
| AppStorage.BooleanSettingRoundTrip | src/app/components/SettingsWindow.tsx:176-180 | a switch the settings window stores reads back as the value written |
| Ranking.RankLeTotal | src/app/LegacyApp.tsx:212-220 | any two entries are comparable |
| Ranking.RankLeAntisymmetric | src/app/LegacyApp.tsx:212-220 | entries that rank alike both ways are equal, so the comparator leaves no ties |
| Ranking.RankLeTransitive | src/app/LegacyApp.tsx:212-220 | the order is transitive |
| Ranking.SortRank | src/app/LegacyApp.tsx:205-223 | the result is a permutation of the entries, sorted by change, then additions (both descending), then username |
| Ranking.SortedUnique | src/app/LegacyApp.tsx:212-220 | two sorted permutations of the same entries are equal, so any correct sort gives this order |
| Ranking.TopThree | src/app/LegacyApp.tsx:205-223 | min(3, n) usernames |
| Ranking.TopThreeIsBest | src/app/LegacyApp.tsx:205-223 | the top three are the first names of any sorted arrangement, and each ranks no later than every entry left out |
| Ranking.TopThreeFromRows | src/app/LegacyApp.tsx:206-211 | every top name is the normalised username of some row |
| Ranking.SortRankExample | src/app/LegacyApp.tsx:212-220 | ties on change are broken by additions, then by name |
| Ranking.IndexOf | src/app/LegacyApp.tsx:231 | `indexOf` is −1 exactly for an absent name, and otherwise the first position |
| Ranking.ScanPositional | src/app/LegacyApp.tsx:229-236 | the scan finds a positional overtake exactly when one exists from rank `i` on, and it finds the first |
| Ranking.FirstMissing | src/app/LegacyApp.tsx:238-239 | `find(!includes)` is none exactly when every name is in the other list; otherwise a name missing from the other list with every earlier name present in it |
| Ranking.FirstTopThreeOvertake | src/app/LegacyApp.tsx:225-247 | a reported mover is in the current list, the overtaken is in the previous list and non-empty, and they differ |
| Ranking.PositionalFirst | src/app/LegacyApp.tsx:229-236 | the first positional overtake from the top is reported, ahead of the fallback |
| Ranking.FallbackPairs | src/app/LegacyApp.tsx:238-244 | without a positional overtake, an overtake is reported exactly when there is both a newcomer and a dropout, and it pairs the first newcomer with the first dropout |
| Ranking.SameListNoOvertake | src/app/LegacyApp.tsx:225-247 | an unchanged list reports nothing |
| Ranking.SwapExample | src/app/LegacyApp.tsx:225-247 | a swap at the top reports the climber as mover |
| Ranking.NewcomerExample | src/app/LegacyApp.tsx:225-247 | ["a", "b", "c"] becoming ["a", "d", "c"] reports "d" overtaking "b" |
| RankAlert.SnapshotKey | src/app/LegacyApp.tsx:149-151 | the key is the fixed prefix followed by the range |
| RankAlert.SnapshotKeyInjective | src/app/LegacyApp.tsx:149-151 | distinct ranges have distinct keys |
| RankAlert.RankAlertGate | src/app/LegacyApp.tsx:732-753 | the snapshot is always written and the key marked; an alert fires exactly when the key was already initialised, the alert is on, both lists have three names in a different order, and an overtake is found |
| RankAlert.NoAlertWithoutChange | src/app/LegacyApp.tsx:732-753 | a second pass with the same top three, reading the snapshot back, raises no alert |
| RankAlert.SwapAlertsOnSecondPass | src/app/LegacyApp.tsx:732-753 | the first pass only initialises; a swap on the next pass alerts |
| Pinned.LoadPinned | src/app/LegacyApp.tsx:192-203 | the first occurrences, in order, of at most two distinct non-empty normalised stored names, with every name before the last kept one also kept; fewer than two means every such name is kept; rewritten exactly when they differ from what was stored |
| Pinned.FirstNamesKept | src/app/LegacyApp.tsx:194-196 | the first two distinct names are first occurrences, in order, and prefix-closed; fewer than two means every name is kept |
| Pinned.LoadAfterWrite | src/app/LegacyApp.tsx:192-203 | a list of normalised names the app wrote loads unchanged and is not rewritten |
| Pinned.LoadRewritesIrregular | src/app/LegacyApp.tsx:192-203 | a stored list with a repeat, a blank or more than two names is always rewritten |
| Pinned.Without | src/app/LegacyApp.tsx:1410 | exactly the other names stay, in order, still distinct |
| Pinned.AppendOnce | src/app/LegacyApp.tsx:1419-1423 | the updater appends the name only when absent and below the cap |
| Pinned.TogglePin | src/app/LegacyApp.tsx:1404-1426 | a pinned name is unpinned; a full list is refused with a notice; otherwise the name is appended |
| Pinned.ToggleKeepsWellFormed | src/app/LegacyApp.tsx:1404-1426 | a toggle keeps at most two distinct names and changes no other name's membership |
| Pinned.ToggleTwiceRestores | src/app/LegacyApp.tsx:1404-1426 | pinning then toggling again restores the list |
| Notifications.LastN | src/app/LegacyApp.tsx:395 | `slice(-3)` keeps the last min(3, n) elements |
| Notifications.Push | src/app/LegacyApp.tsx:390-395 | the notice gets the next id and is newest; the oldest is dropped when three are shown; validity is kept |
| Notifications.Dismiss | src/app/LegacyApp.tsx:386-388 | exactly the notices with the id are removed; validity is kept |
| Notifications.IdsStrictlyIncrease | src/app/LegacyApp.tsx:390-393 | successive pushes hand out strictly increasing ids |
| Notifications.PushThenDismiss | src/app/LegacyApp.tsx:386-395 | dismissing the notice just pushed onto a queue with room restores its items |
| SyncRequest.OtherRanges | src/app/LegacyApp.tsx:1016 | exactly the ranges other than the current one |
| SyncRequest.DecideSync | src/app/LegacyApp.tsx:975-1028 | auto/manual syncs all three; otherwise Follow iff the Follow tab, My iff the Rank tab or (not My and streak alert), Rank iff the Rank tab or rank alert; the Rank tab feeds My's result to Rank; only manual prefetches |
| SyncRequest.QuietOnMyTab | src/app/LegacyApp.tsx:983-988 | a request that is neither automatic nor manual, on the My tab with the rank alert off, syncs nothing and prefetches nothing |
| SyncRequest.ManualPrefetchesOtherRanges | src/app/LegacyApp.tsx:1015-1027 | a manual sync prefetches exactly the two ranges not shown |
| SyncRequest.Tasks | src/app/LegacyApp.tsx:990-1027 | the batch holds one load per planned sync and two per prefetched range |
| SyncRequest.FirstRejection | src/app/LegacyApp.tsx:1030 | `Promise.all` rejects with the first rejection in settlement order, and resolves only if all resolve |
| SyncRequest.BatchComplete | src/app/LegacyApp.tsx:1030-1049 | an event exactly when the request has an id; no error exactly when every load resolved; otherwise the first rejection's message |
| DeviceFlow.ResolveOAuthUrls | src/services/github/deviceFlow.ts:16-24 | GitHub's URL is last; the list is that URL alone exactly under Tauri, and the proxy URL comes first otherwise |
| DeviceFlow.OnlyProxyUrlIsProxied | src/services/github/deviceFlow.ts:16-24 | only the first URL carries the proxy prefix |
| DeviceFlow.ResolveClientId | src/services/github/deviceFlow.ts:48-55 | a non-blank stored id, trimmed; the built-in id otherwise; never empty |
| DeviceFlow.TokenFormFields | src/services/github/deviceFlow.ts:171-177 | the token request carries the client id, the device code and the grant type of section 3.4 of RFC 8628 |
| DeviceFlow.FindHeader | src/services/github/deviceFlow.ts:61-67 | "" when no name matches; the value of the first match otherwise |
| DeviceFlow.GetHeader | src/services/github/deviceFlow.ts:57-68 | "" for absent headers; otherwise the first header whose lower-cased name equals the lower-cased name |
| DeviceFlow.GetHeaderIgnoresCase | src/services/github/deviceFlow.ts:60-62 | the case of the requested name does not matter |
| DeviceFlow.JsonReplyIsNotHtml | src/services/github/deviceFlow.ts:70-79 | a JSON body without an HTML content type is not taken for an HTML page |
| DeviceFlow.ParseNumberField | src/services/github/deviceFlow.ts:81-85 | a number as is, a string through `Number`, anything else not finite |
| DeviceFlow.FromEntries | src/services/github/deviceFlow.ts:39-44 | every entry name becomes a field, and nothing else |
| DeviceFlow.FromEntriesLastWins | src/services/github/deviceFlow.ts:44 | a repeated name takes its last value |
| DeviceFlow.ParseOAuthBody | src/services/github/deviceFlow.ts:26-46 | a blank body fails; JSON is read as its object or as null; a non-JSON body without '=' fails; a non-JSON body with '=' succeeds exactly when it has form entries, read as their fields; the only failure is the parse failure |
| DeviceFlow.PostReturnsFirstAnswer | src/services/github/deviceFlow.ts:94-109 | the first URL whose reply is not a passed-over proxy reply supplies the result |
| DeviceFlow.PostExhausted | src/services/github/deviceFlow.ts:111-119 | with no answer, the error cites the last thrown `Error`, else the last skipped status, else nothing |
| DeviceFlow.DirectReplyIsReturned | src/services/github/deviceFlow.ts:94-109 | GitHub's own reply is returned whatever its status once the proxy is passed over or absent |
| DeviceFlow.StringOf | src/services/github/deviceFlow.ts:143-146 | a field reads as a string exactly when it is one |
| DeviceFlow.RequestDeviceCode | src/services/github/deviceFlow.ts:122-167 | a transport error propagates; non-2xx fails with status and body excerpt; a parse failure or null body fails; `error_description` wins over `error`; otherwise it succeeds exactly when both codes and the URI are non-empty strings and both numbers are finite, and then holds those values |
| DeviceFlow.PollAccessToken | src/services/github/deviceFlow.ts:169-201 | non-2xx fails; a body that does not parse passes its parse error on and a null body fails as reading a field of null; for an object body, the reply is accepted exactly when its access token or its error is truthy, and otherwise fails as unparsable; only string fields are copied |
| DeviceFlow.PollRejectsEmptyReply | src/services/github/deviceFlow.ts:196-198 | a reply with neither token nor error is rejected |
| Auth.ResetSignedOut | src/context/AuthContext.tsx:49-55 | signed out with no token, user, device-flow info or error |
| Auth.CancelLogin | src/context/AuthContext.tsx:57-61 | the cancel flag is raised, the info dropped and the state signed out; nothing else changes |
| Auth.Logout | src/context/AuthContext.tsx:63-67 | cancel, clear the store, reset |
| Auth.ToStoredAuth | src/context/AuthContext.tsx:30-39 | the token, user and time are copied; the scopes are the trimmed non-blank comma-separated parts of the scope text, each non-empty and comma-free |
| Auth.Scopes | src/context/AuthContext.tsx:33 | every scope is non-empty, trimmed and comma-free |
| Auth.ScopesAreTrimmedParts | src/context/AuthContext.tsx:33 | no scopes for an absent scope text; the trimmed text, if non-blank, for a comma-free one; the scopes of each side, in order, around a comma |
| Auth.ScopesRoundTrip | src/context/AuthContext.tsx:30-39 | scopes joined with ',' and split again are the same scopes |
| Auth.HandlePoll | src/context/AuthContext.tsx:112-148 | polling goes on exactly for pending or slow_down, slow_down adding 5 s; a token with a viewer stores the record, signs in, clears the info and stops; access_denied resets; expired_token, a failed viewer lookup, a failed request and unknown errors set the error state with their message and stop |
| Auth.PollLoop | src/context/AuthContext.tsx:107-154 | the interval only grows, in steps of 5; a cancelled session stops at once; reaching the deadline sets the waiting-expired error; an interrupt in the sleep stops before polling |
| Auth.StartLogin | src/context/AuthContext.tsx:88-160 | a device-code failure records its message in the error state; an expiry time outside the `Date` range ends in the error state with the `RangeError` message, before any device-flow info is shown; the interval starts at max(1, interval); the device-flow info is shown while waiting |
| Auth.StartFailed | src/context/AuthContext.tsx:155-158 | the `catch` ends in the error state with the thrown message; without an interruption it keeps the token, user, device-flow info and stored record; a logout during the request clears them |
| Auth.StartLoginIsLoop | src/context/AuthContext.tsx:94-107 | with a valid expiry date, `startLogin` is the poll loop from the waiting session at `Math.max(1, interval)`; with an invalid one, it is the `catch` with the `RangeError` message |
| Auth.StartLoginInterval | src/context/AuthContext.tsx:104-133 | while the loop only waits, the interval is max(1, interval) plus 5 per slow_down; a cancel during the code request, or an expiry time outside the `Date` range, leaves it at the start value |
| Auth.LoopInterval | src/context/AuthContext.tsx:107-133 | while every round waits, the loop ends with the start interval plus 5 per slow_down, or unchanged from a cancelled session |
| Auth.IntervalCountsSlowDowns | src/context/AuthContext.tsx:126-133 | while the loop waits, the interval grows by exactly 5 per slow_down |
| Auth.CancelDuringPollStillSignsIn | src/context/AuthContext.tsx:107-124 | a cancel while the poll is pending does not stop its token from signing in |
| Auth.CancelDuringSleepSkipsPoll | src/context/AuthContext.tsx:108-110 | a cancel during the sleep returns before polling |
| Auth.RefreshUser | src/context/AuthContext.tsx:69-86 | without a token nothing changes; a failure sets the error state; success signs in and re-saves the stored auth |
| Auth.RefreshKeepsScopes | src/context/AuthContext.tsx:78-80 | refreshing the user keeps the stored scopes |
| LoginScreen.RemainingSeconds | src/app/screens/LoginScreen.tsx:5-7 | the whole seconds left, rounded down, never negative; zero exactly when under one second is left |
| LoginScreen.RemainingNeverGrows | src/app/screens/LoginScreen.tsx:5-7 | the countdown never goes up as time passes |
| LoginScreen.MinutesSecondsIsDivision | src/app/screens/LoginScreen.tsx:10-11 | the split is `floor(s / 60)` and `s % 60` |
| LoginScreen.TwoDigits | src/app/screens/LoginScreen.tsx:12 | at least two digits, exactly two below 100 |
| LoginScreen.TwoDigitsIsPadded | src/app/screens/LoginScreen.tsx:12 | the field is `String(n).padStart(2, '0')` |
| LoginScreen.TwoDigitsValue | src/app/screens/LoginScreen.tsx:12 | the field reads back as `n` |
| LoginScreen.FormatRemaining | src/app/screens/LoginScreen.tsx:9-13 | digits around a colon three characters from the end, exactly `MM:SS` below 6000 seconds |
| LoginScreen.FormatRemainingRoundTrip | src/app/screens/LoginScreen.tsx:9-13 | reading the text back gives 60 × minutes + seconds = s with seconds below 60 |
| LoginScreen.ProgressPercent | src/app/screens/LoginScreen.tsx:58-61 | within [0, 100]; 0 when not waiting or the total is 0; the share of the total left otherwise |
| LoginScreen.ProgressFullThenEmpty | src/app/screens/LoginScreen.tsx:58-61 | full at the start of the countdown, empty at its end |
| LoginScreen.StatusText | src/app/screens/LoginScreen.tsx:63-67 | the error in the error state; otherwise the waiting text exactly while waiting, else "" |
| LoginScreen.StatusShownIff | src/app/screens/LoginScreen.tsx:63-67 | the status line shows exactly for an error with a message or while waiting |
| LoginScreen.WaitingAfterDeviceCode | src/app/screens/LoginScreen.tsx:32-36 | right after the device code the screen waits, counting down from the code's lifetime |
| ReleasePage.PickDmgAsset | website/main.js:44-46 | the first asset whose lower-cased name ends with ".dmg", none exactly when there is none |
| ReleasePage.PickChecksumAsset | website/main.js:48-53 | the first asset whose lower-cased name mentions "sha256" or "checksum" |
| ReleasePage.DmgFoundIgnoringCase | website/main.js:44-46 | an installer whose extension reads ".dmg" in any mix of letter cases is found, ahead of later assets |
| ReleasePage.TidyLine | website/main.js:59 | the line less its carriage returns and then less only trailing white space; no '\r' and no trailing white space remain |
| ReleasePage.NoCarriageReturnUnchanged | website/main.js:59 | a line without carriage returns is left as it is |
| ReleasePage.RemoveCarriageReturnsAppend | website/main.js:59 | removing carriage returns distributes over concatenation, keeping the other characters in order |
| ReleasePage.DropRepeatedBlanks | website/main.js:60 | no two adjacent blank lines, a line kept when not a repeated blank |
| ReleasePage.DropIsIndexFilter | website/main.js:60 | the filter keeps exactly the lines, in order, that are not a blank line after a blank one |
| ReleasePage.DropAppend | website/main.js:60 | the filter works piece by piece, the second piece starting from the last line of the first |
| ReleasePage.DropKeepsText | website/main.js:60 | only blank lines are dropped; the text lines stay in order |
| ReleasePage.DropOnlyRepeats | website/main.js:60 | around any line, the result is the filtered lines before it, then the line unless it is blank after a blank, then the filtered lines after it |
| ReleasePage.NoteLines | website/main.js:57-60 | every kept line is clean and newline-free, and no two adjacent lines are blank |
| ReleasePage.NotesKeepText | website/main.js:57-60 | the non-blank lines of the notes are exactly the non-blank tidied lines of the body, in order |
| ReleasePage.CleanReleaseNotes | website/main.js:55-65 | the placeholder for a missing or blank body; up to 16 lines joined with '\n'; otherwise 16 lines, "\n...\n" and the link to the full notes |
| ReleasePage.ShortNotesSplitBack | website/main.js:62-63 | short notes split back into exactly the kept lines |
| ReleasePage.ShownLinesAreClean | website/main.js:57-64 | every shown line is tidy and no two shown lines are both blank |
| ReleasePage.FormatBytes | website/main.js:37 | "-" exactly for a non-finite or non-positive size |

## Left out

- React rendering, JSX and the `useState`/`useEffect`/`useCallback` wiring: presentation, with no logic beyond the functions modelled.
- The auth provider's start-up effect (`src/context/AuthContext.tsx:162-176`): it only copies a stored record into state.
- I/O and foreign calls are inputs, not modelled. This covers `fetch`/`githubRequest`, the native HTTP bridge, `localStorage`, `JSON.parse`, `URLSearchParams`, `Number(string)`, the Tauri check and the OAuth proxy.
- `loadCache`/`saveCache`: JSON persistence of the compare cache; the cache is a map passed in and returned.
- `fetchMyKstDailyCommitCheck`: a network probe outside the reducers.
- Timers and concurrency: `setTimeout`, `setInterval` and the event bus. `mapWithConcurrency` is modelled as a sequential map. Its result order is the input order, and the model uses that order.
- MyGrass.FetchMyGrassMetrics: repository stats are appended in commit order of the sequential pool. The concurrent pool can insert them in another order, which changes only ties in the top-repo choice.
- MateMetrics.FetchMateMetrics: the final sort of the metrics by `changeScore` is left out, since no modelled consumer depends on it.
- Ranking.SortRank: `localeCompare` is modelled as the code-point order of strings, because the locale collation is not visible.
- Text.ToLower: lower-cases ASCII letters only. Lower-casing of other scripts is not modelled.
- JsNumber: a JavaScript number is an integer, NaN or an infinity. Fractions do not occur in the modelled checks.
- LoginScreen.RemainingSeconds: takes the expiry as integer milliseconds rather than an ISO string, so the NaN of an unparsable date is not modelled.
- LoginScreen.ProgressPercent: uses exact reals, not floating point.
- ReleasePage.FormatBytes: models only the guard. The unit arithmetic is floating point and is a parameter.
- DeviceFlow.Message: the `TypeError` that reading a field of a JSON `null` body throws carries a fixed placeholder text. The engine's own wording is not visible.
- Auth.StartLogin: a cancel during the device-code request leaves the device-flow state in place, as the code does. The loop then ends at once.
- Auth.StartLogin: the expiry time is exact integer arithmetic, not floating point, so rounding right at the `Date` range bound of ±8.64e15 ms is not modelled. The `RangeError` text is V8's wording; other engines word it differently.
- Notifications.Push: the operating-system notice `new Notification(title, { body })` shown when permission is granted (src/app/LegacyApp.tsx:402-404) is a browser side effect with no result, so it is not modelled.
- RankAlert.RankAlertGate: models the gate when at least one mate is followed. With no mates `loadRankMetrics` returns before the gate (src/app/LegacyApp.tsx:678-700), so no snapshot is written.
- MateMetrics.MateSkipsCounted: exact skip counting assumes that every fresh cache entry an event would hit came from a successful compare of the same triple, and that repository names and SHAs hold no ':'. A stale or foreign cache entry can hide a 403/404 skip, as in the code.
- The date and locale formatting of the download page, the settings window and the tray: display only.

=== FILE: app_storage.dfy ===
/** The small readers the app shell applies to values kept in local storage.
    Storage itself is an input: a missing item is `None`. `JSON.parse` is an
    opaque parser handed in as a function, with a case for text it rejects. */
module AppStorage {
  import opened Wrappers
  import Collections

  /** One element of a parsed JSON array: a string, or anything else. */
  datatype JsonItem = JsonString(s: string) | JsonOther

  /** What `JSON.parse` makes of a stored text. */
  datatype Parsed = Corrupt | NotArray | JsonArray(items: seq<JsonItem>)

  function StringItem(item: JsonItem): (r: Option<string>)
    ensures r.Some? <==> item.JsonString?
  {
    if item.JsonString? then Some(item.s) else None
  }

  function AsJsonString(s: string): JsonItem {
    JsonString(s)
  }

  /** `parseStoredStringArray`: a missing or empty text, a text the parser
      rejects and a value that is not an array all read as the empty list;
      otherwise the string elements of the array, in order. */
  function ParseStoredStringArray(raw: Option<string>, parse: string -> Parsed): (r: seq<string>)
    ensures raw.None? || raw == Some("") ==> r == []
    ensures raw.Some? && raw.value != "" && !parse(raw.value).JsonArray? ==> r == []
    ensures raw.Some? && raw.value != "" && parse(raw.value).JsonArray? ==>
      |r| <= |parse(raw.value).items|
      && (forall j :: 0 <= j < |r| ==> JsonString(r[j]) in parse(raw.value).items)
      && r == StringsOf(parse(raw.value).items)
  {
    if raw.None? || raw.value == "" then []
    else match parse(raw.value)
      case JsonArray(items) =>
        Collections.FilterMapPreserves(items, StringItem, (s: string) => JsonString(s) in items);
        Collections.FilterMap(items, StringItem)
      case _ => []
  }

  /** The string elements of an array, in order. */
  function StringsOf(items: seq<JsonItem>): seq<string> {
    Collections.FilterMap(items, StringItem)
  }

  /** `StringsOf` keeps a string element, drops any other, and keeps the
      order of the array: it distributes over concatenation. */
  lemma StringsOfInOrder(a: seq<JsonItem>, b: seq<JsonItem>, s: string)
    ensures StringsOf(a + b) == StringsOf(a) + StringsOf(b)
    ensures StringsOf([]) == []
    ensures StringsOf([JsonString(s)]) == [s]
    ensures StringsOf([JsonOther]) == []
  {
    Collections.FilterMapAppend(a, b, StringItem);
    Collections.FilterMapSingle(JsonString(s), StringItem);
    Collections.FilterMapSingle(JsonOther, StringItem);
  }

  /** A list written as a JSON array of strings reads back unchanged. A
      serialised array is never the empty text. */
  lemma StringArrayRoundTrip(xs: seq<string>, text: string, parse: string -> Parsed)
    requires text != "" && parse(text) == JsonArray(Collections.Map(xs, AsJsonString))
    ensures ParseStoredStringArray(Some(text), parse) == xs
  {
    Collections.FilterMapOfInverse(xs, StringItem, AsJsonString);
  }

  /** `areSameOrder`: equal lengths and equal elements position by position. */
  function SameOrder(left: seq<string>, right: seq<string>): (b: bool)
    ensures b <==> left == right
  {
    |left| == |right| && forall i :: 0 <= i < |left| ==> left[i] == right[i]
  }

  /** `String(b)`, the text the settings window stores for a switch. */
  function BooleanText(b: bool): string {
    if b then "true" else "false"
  }

  /** `loadBooleanSetting`: the fallback for a missing item, otherwise
      whether the text is exactly "true". */
  function LoadBooleanSetting(raw: Option<string>, fallback: bool): (b: bool)
    ensures raw.None? ==> b == fallback
    ensures raw.Some? && raw.value != "true" ==> !b
  {
    if raw.None? then fallback else raw.value == "true"
  }

  /** A stored switch reads back as the value written; an unset rank alert
      reads as on and an unset streak alert as off. */
  lemma BooleanSettingRoundTrip(b: bool, fallback: bool)
    ensures LoadBooleanSetting(Some(BooleanText(b)), fallback) == b
    ensures LoadBooleanSetting(None, true) && !LoadBooleanSetting(None, false)
  {
  }
}

=== FILE: auth.dfy ===
/** The session of the auth provider: sign-in through the device flow, the
    poll loop that waits for the user's approval, cancellation, sign-out
    and the refresh of the signed-in user. The clock, the awaited requests
    and the user's interruptions at each `await` are inputs. */
module Auth {
  import opened Wrappers
  import opened Text
  import opened DeviceFlow
  import Collections

  datatype AuthState = SignedOut | DeviceFlowState | SignedIn | ErrorState

  datatype GithubUser = GithubUser(id: int, login: string, avatarUrl: string)

  /** What the auth store keeps. */
  datatype StoredAuth = StoredAuth(accessToken: string, tokenScopes: seq<string>,
                                   tokenCreatedAt: string, githubUserId: int,
                                   githubLogin: string, avatarUrl: string)

  /** What the login screen shows while waiting; `expiresAt` in ms. */
  datatype DeviceFlowInfo = DeviceFlowInfo(userCode: string, verificationUri: string,
                                           expiresAt: int, intervalSeconds: int)

  /** The provider's state, its cancel flag, and the auth store's item. */
  datatype Session = Session(state: AuthState, token: Option<string>, user: Option<GithubUser>,
                             info: Option<DeviceFlowInfo>, error: Option<string>,
                             cancelled: bool, stored: Option<StoredAuth>)

  const EXPIRED_TOKEN_MESSAGE: string := "인증 시간이 만료되었습니다. 다시 시도해 주세요."
  const WAIT_EXPIRED_MESSAGE: string := "인증 대기 시간이 만료되었습니다. 다시 시도해 주세요."
  const AUTH_FAILED_MESSAGE: string := "GitHub 인증에 실패했습니다."
  const LOGIN_FAILED_MESSAGE: string := "GitHub 로그인 시작에 실패했습니다."
  const REFRESH_FAILED_MESSAGE: string := "Failed to refresh GitHub user."
  /** The message of the `RangeError` that `toISOString` throws on a date
      outside the time range (V8's wording). */
  const INVALID_TIME_MESSAGE: string := "Invalid time value"
  /** The largest time value in ms, section 21.4.1.1 of ECMA-262: a `Date`
      further than this from the epoch is invalid. */
  const MAX_TIME_MS: int := 8_640_000_000_000_000
  /** What `slow_down` adds to the interval, section 3.5 of RFC 8628. */
  const SLOW_DOWN_STEP: int := 5

  /** `resetSignedOut`: no token, user, device-flow info or error, signed out. */
  function ResetSignedOut(s: Session): (r: Session)
    ensures r.state == SignedOut && r.token.None? && r.user.None? && r.info.None? && r.error.None?
    ensures r.cancelled == s.cancelled && r.stored == s.stored
  {
    s.(state := SignedOut, token := None, user := None, info := None, error := None)
  }

  /** `cancelLogin`: raise the cancel flag, drop the device-flow info, sign out
      the state while keeping token, user and error. */
  function CancelLogin(s: Session): (r: Session)
    ensures r.cancelled && r.info.None? && r.state == SignedOut
    ensures r.token == s.token && r.user == s.user && r.error == s.error && r.stored == s.stored
  {
    s.(cancelled := true, info := None, state := SignedOut)
  }

  /** `logout`: raise the cancel flag, clear the store, reset. */
  function Logout(s: Session): (r: Session)
    ensures r.cancelled && r.stored.None?
    ensures r == ResetSignedOut(s).(cancelled := true, stored := None)
  {
    ResetSignedOut(s.(cancelled := true, stored := None))
  }

  /** A trimmed part of the scope list, or nothing for a blank one. */
  function ScopePart(part: string): (r: Option<string>)
    ensures r.Some? <==> Trim(part) != ""
    ensures r.Some? ==> r.value == Trim(part)
  {
    if Trim(part) == "" then None else Some(Trim(part))
  }

  /** A scope the store can hold: non-empty, trimmed, no comma. */
  predicate ScopeName(s: string) {
    s != "" && IsTrimmed(s) && ',' !in s
  }

  /** The scopes of a token: the comma-separated parts of `scope`, trimmed,
      without the blank ones. */
  function Scopes(scope: Option<string>): (r: seq<string>)
    ensures forall i :: 0 <= i < |r| ==> ScopeName(r[i])
  {
    var parts := Split(scope.GetOr(""), ',');
    forall i | 0 <= i < |parts| && ScopePart(parts[i]).Some?
      ensures ScopeName(ScopePart(parts[i]).value)
    {
      TrimKeepsChars(parts[i]);
    }
    Collections.FilterMapPreserves(parts, ScopePart, ScopeName);
    Collections.FilterMap(parts, ScopePart)
  }

  /** The scopes are the trimmed non-blank parts between commas, in order:
      none for an absent scope, at most the trimmed text for a comma-free
      one, and the scopes of each side for a text with a comma. */
  lemma {:induction false} ScopesAreTrimmedParts(a: string, b: string)
    ensures Scopes(None) == []
    ensures ',' !in a ==> Scopes(Some(a)) == if Trim(a) == "" then [] else [Trim(a)]
    ensures Scopes(Some(a + "," + b)) == Scopes(Some(a)) + Scopes(Some(b))
  {
    assert Split("", ',') == [""];
    Collections.FilterMapSingle("", ScopePart);
    if ',' !in a {
      assert Split(a, ',') == [a];
      Collections.FilterMapSingle(a, ScopePart);
    }
    assert a + "," + b == a + [','] + b;
    SplitAppend(a, ',', b);
    Collections.FilterMapAppend(Split(a, ','), Split(b, ','), ScopePart);
  }

  lemma TrimKeepsChars(s: string)
    ensures forall c :: c in Trim(s) ==> c in s
  {
    var e := TrimEnd(s);
    var r := TrimStart(e);
    forall c | c in r ensures c in s {
      var i :| 0 <= i < |r| && r[i] == c;
      assert r[i] == e[|e| - |r| + i] == s[|e| - |r| + i];
    }
  }

  /** `toStoredAuth`. `createdAt` is the clock's ISO time. */
  function ToStoredAuth(token: string, scope: Option<string>, user: GithubUser,
                        createdAt: string): (a: StoredAuth)
    ensures a.accessToken == token && a.tokenCreatedAt == createdAt
    ensures a.githubUserId == user.id && a.githubLogin == user.login && a.avatarUrl == user.avatarUrl
    ensures a.tokenScopes == Scopes(scope)
    ensures forall i :: 0 <= i < |a.tokenScopes| ==> ScopeName(a.tokenScopes[i])
  {
    StoredAuth(token, Scopes(scope), createdAt, user.id, user.login, user.avatarUrl)
  }

  function Same(s: string): string {
    s
  }

  /** Scopes joined with ',' and split again are the same scopes. */
  lemma {:induction false} ScopesRoundTrip(scopes: seq<string>)
    requires forall i :: 0 <= i < |scopes| ==> ScopeName(scopes[i])
    ensures Scopes(Some(Join(scopes, ","))) == scopes
  {
    if scopes == [] {
      assert Split("", ',') == [""];
    } else {
      var joined := Join(scopes, [',']);
      assert Join(scopes, ",") == joined;
      assert Split(joined, ',') == scopes by {
        Text.SplitJoin(scopes, ',');
      }
      assert Collections.FilterMap(scopes, ScopePart) == scopes by {
        NamesAreTheirOwnParts(scopes);
        Collections.FilterMapOfInverse(scopes, ScopePart, Same);
        assert Collections.Map(scopes, Same) == scopes;
      }
    }
  }

  lemma NamesAreTheirOwnParts(scopes: seq<string>)
    requires forall i :: 0 <= i < |scopes| ==> ScopeName(scopes[i])
    ensures forall i :: 0 <= i < |scopes| ==> ScopePart(Same(scopes[i])) == Some(scopes[i])
  {
    forall i | 0 <= i < |scopes| ensures ScopePart(Same(scopes[i])) == Some(scopes[i]) {
      TrimOfTrimmed(scopes[i]);
    }
  }

  /** The message the catch of `startLogin` and `refreshUser` records. */
  function ThrownMessage(t: Thrown, fallback: string): string {
    if t.ThrownError? then t.message else fallback
  }

  /** What the user does while an `await` is pending. */
  datatype Interrupt = NoInterrupt | Cancel | LogOut

  function Interrupted(s: Session, i: Interrupt): (r: Session)
    ensures i.NoInterrupt? ==> r == s
    ensures !i.NoInterrupt? ==> r.cancelled && r.state == SignedOut && r.info.None?
  {
    match i
    case NoInterrupt => s
    case Cancel => CancelLogin(s)
    case LogOut => Logout(s)
  }

  /** After a poll: wait again with this interval, or leave the loop. */
  datatype Next = KeepPolling(interval: int) | Stop

  datatype Polled = Polled(session: Session, next: Next)

  predicate HasError(t: TokenResponse, code: string) {
    t.error == Some(code)
  }

  /** An error code the loop handles by name. */
  predicate KnownCode(t: TokenResponse) {
    || HasError(t, "authorization_pending") || HasError(t, "slow_down")
    || HasError(t, "access_denied") || HasError(t, "expired_token")
  }

  /** One poll's reply handled, lines after `pollAccessToken` in the loop,
      including the catch for a rejected poll or user lookup. */
  function HandlePoll(s: Session, interval: int, reply: Result<TokenResponse, FlowError>,
                      viewer: Result<GithubUser, Thrown>, createdAt: string): (r: Polled)
    ensures r.next.KeepPolling? <==>
      reply.Ok? && !Truthy(reply.value.accessToken)
      && (HasError(reply.value, "authorization_pending") || HasError(reply.value, "slow_down"))
    ensures r.next.KeepPolling? ==> r.session == s
    ensures r.next.KeepPolling? && HasError(reply.value, "slow_down") ==>
      r.next.interval == interval + SLOW_DOWN_STEP
    ensures r.next.KeepPolling? && HasError(reply.value, "authorization_pending") ==>
      r.next.interval == interval
    ensures r.session.state == SignedIn && s.state != SignedIn <==>
      reply.Ok? && Truthy(reply.value.accessToken) && viewer.Ok? && s.state != SignedIn
    ensures reply.Ok? && Truthy(reply.value.accessToken) && viewer.Ok? ==>
      var token := reply.value.accessToken.value;
      r.session == s.(stored := Some(ToStoredAuth(token, reply.value.scope, viewer.value, createdAt)),
                      token := Some(token), user := Some(viewer.value), info := None,
                      state := SignedIn)
    ensures reply.Ok? && !Truthy(reply.value.accessToken) && HasError(reply.value, "access_denied") ==>
      r.session == ResetSignedOut(s)
    ensures reply.Ok? && !Truthy(reply.value.accessToken) && HasError(reply.value, "expired_token") ==>
      r.session == s.(error := Some(EXPIRED_TOKEN_MESSAGE), state := ErrorState)
    ensures r.session.state == ErrorState && s.state != ErrorState ==> r.next == Stop && r.session.error.Some?
    ensures reply.Err? ==>
      r == Polled(s.(error := Some(Message(reply.error)), state := ErrorState), Stop)
    ensures reply.Ok? && Truthy(reply.value.accessToken) && viewer.Err? ==>
      r == Polled(s.(error := Some(ThrownMessage(viewer.error, LOGIN_FAILED_MESSAGE)), state := ErrorState), Stop)
    ensures reply.Ok? && !Truthy(reply.value.accessToken) && !KnownCode(reply.value) ==>
      r == Polled(s.(error := Some(reply.value.errorDescription.GetOr(AUTH_FAILED_MESSAGE)), state := ErrorState), Stop)
  {
    if reply.Err? then
      Polled(s.(error := Some(Message(reply.error)), state := ErrorState), Stop)
    else
      var t := reply.value;
      if Truthy(t.accessToken) then
        match viewer
        case Err(e) => Polled(s.(error := Some(ThrownMessage(e, LOGIN_FAILED_MESSAGE)), state := ErrorState), Stop)
        case Ok(user) =>
          var stored := ToStoredAuth(t.accessToken.value, t.scope, user, createdAt);
          Polled(s.(stored := Some(stored), token := Some(stored.accessToken), user := Some(user),
                    info := None, state := SignedIn), Stop)
      else if HasError(t, "authorization_pending") then Polled(s, KeepPolling(interval))
      else if HasError(t, "slow_down") then Polled(s, KeepPolling(interval + SLOW_DOWN_STEP))
      else if HasError(t, "access_denied") then Polled(ResetSignedOut(s), Stop)
      else if HasError(t, "expired_token") then
        Polled(s.(error := Some(EXPIRED_TOKEN_MESSAGE), state := ErrorState), Stop)
      else
        Polled(s.(error := Some(t.errorDescription.GetOr(AUTH_FAILED_MESSAGE)), state := ErrorState), Stop)
  }

  /** One pass of the poll loop as the environment plays it: the clock at the
      loop head, what the user did during the sleep, the poll's reply, what
      the user did while the poll (and the user lookup) was pending, the
      user lookup's outcome and the clock's ISO time for the stored auth. */
  datatype Round = Round(now: int, duringSleep: Interrupt, reply: Result<TokenResponse, FlowError>,
                         duringPoll: Interrupt, viewer: Result<GithubUser, Thrown>,
                         createdAt: string)

  /** Where the loop stands: the session, the interval, and whether the loop
      has returned (`false`: the rounds given ran out while polling). */
  datatype Polling = Polling(session: Session, interval: int, done: bool)

  /** The `while` loop of `startLogin`. */
  function PollLoop(s: Session, interval: int, deadline: int, rounds: seq<Round>): (r: Polling)
    ensures r.interval >= interval && (r.interval - interval) % SLOW_DOWN_STEP == 0
    ensures !r.done ==> r.session == s
    ensures s.cancelled ==> r == Polling(s, interval, true)
    ensures !s.cancelled && rounds != [] && rounds[0].now >= deadline ==>
      r == Polling(s.(error := Some(WAIT_EXPIRED_MESSAGE), state := ErrorState), interval, true)
    ensures !s.cancelled && rounds != [] && rounds[0].now < deadline && !rounds[0].duringSleep.NoInterrupt? ==>
      r == Polling(Interrupted(s, rounds[0].duringSleep), interval, true)
    decreases |rounds|
  {
    if s.cancelled then Polling(s, interval, true)
    else if rounds == [] then Polling(s, interval, false)
    else
      var round := rounds[0];
      if round.now >= deadline then
        Polling(s.(error := Some(WAIT_EXPIRED_MESSAGE), state := ErrorState), interval, true)
      else
        var slept := Interrupted(s, round.duringSleep);
        if slept.cancelled then Polling(slept, interval, true)
        else
          var polled := HandlePoll(Interrupted(slept, round.duringPoll), interval, round.reply,
                                   round.viewer, round.createdAt);
          match polled.next
          case Stop => Polling(polled.session, interval, true)
          case KeepPolling(next) =>
            var rest := PollLoop(polled.session, next, deadline, rounds[1..]);
            if polled.session == s then rest
            else
              assert polled.session.cancelled;
              Polling(rest.session, rest.interval, true)
  }

  /** `startLogin`: the device code request and the loop. `now` is the clock
      when the code arrived, `duringRequest` what the user did while it was
      pending. An expiry time outside the `Date` range makes `toISOString`
      throw before the code is shown; the `catch` records its message. */
  function StartLogin(s: Session, device: Result<DeviceCode, FlowError>, duringRequest: Interrupt,
                      now: int, rounds: seq<Round>): (r: Polling)
    ensures device.Err? ==>
      r.done && r.session.state == ErrorState && r.session.error == Some(Message(device.error))
    ensures device.Ok? ==> r.interval >= 1 && r.interval >= device.value.interval
    ensures device.Ok? && !InTimeRange(now + device.value.expiresIn * 1000) ==>
      r.done && r.session.state == ErrorState && r.session.error == Some(INVALID_TIME_MESSAGE)
      && (duringRequest.NoInterrupt? ==> r.session.info == s.info)
    ensures device.Ok? && duringRequest.NoInterrupt? && !r.done ==>
      r.session.state == DeviceFlowState && r.session.error.None?
      && r.session.info == Some(DeviceFlowInfo(device.value.userCode, device.value.verificationUri,
                                               now + device.value.expiresIn * 1000, device.value.interval))
  {
    match device
    case Err(e) =>
      Polling(StartFailed(s, duringRequest, Message(e)), 0, true)
    case Ok(d) =>
      var deadline := now + d.expiresIn * 1000;
      if !InTimeRange(deadline) then
        Polling(StartFailed(s, duringRequest, INVALID_TIME_MESSAGE), StartInterval(d), true)
      else
        PollLoop(WaitingFor(s, d, duringRequest, now), StartInterval(d), deadline, rounds)
  }

  /** Whether `new Date(t)` is a valid date, so `toISOString` does not throw. */
  predicate InTimeRange(t: int) {
    -MAX_TIME_MS <= t <= MAX_TIME_MS
  }

  /** The `catch` of `startLogin`: whatever the request left, the error state
      with the thrown message. */
  function StartFailed(s: Session, duringRequest: Interrupt, message: string): (f: Session)
    ensures f.state == ErrorState && f.error == Some(message)
    ensures f.cancelled <==> !duringRequest.NoInterrupt?
    ensures duringRequest.NoInterrupt? ==>
      f.token == s.token && f.user == s.user && f.info == s.info && f.stored == s.stored
    ensures duringRequest.LogOut? ==> f.token.None? && f.user.None? && f.stored.None?
  {
    var started := Interrupted(s.(cancelled := false, error := None), duringRequest);
    started.(error := Some(message), state := ErrorState)
  }

  /** The session once the device code arrived: the code's details shown,
      waiting for approval, unless the user interrupted the request. */
  function WaitingFor(s: Session, d: DeviceCode, duringRequest: Interrupt, now: int): (w: Session)
    ensures w.cancelled <==> !duringRequest.NoInterrupt?
  {
    var started := Interrupted(s.(cancelled := false, error := None), duringRequest);
    var info := DeviceFlowInfo(d.userCode, d.verificationUri, now + d.expiresIn * 1000, d.interval);
    started.(info := Some(info), state := DeviceFlowState)
  }

  /** `Math.max(1, device.interval)`. */
  function StartInterval(d: DeviceCode): (i: int)
    ensures i >= 1 && i >= d.interval
    ensures i == 1 || i == d.interval
  {
    if d.interval > 1 then d.interval else 1
  }

  /** A round the loop only waits through: before the deadline, no
      interruption, and a pending or slow-down reply. */
  predicate Waits(round: Round, deadline: int) {
    && round.now < deadline
    && round.duringSleep.NoInterrupt? && round.duringPoll.NoInterrupt?
    && round.reply.Ok? && !Truthy(round.reply.value.accessToken)
    && (HasError(round.reply.value, "authorization_pending") || HasError(round.reply.value, "slow_down"))
  }

  function SlowDowns(rounds: seq<Round>): nat {
    if rounds == [] then 0
    else
      var here := if rounds[0].reply.Ok? && HasError(rounds[0].reply.value, "slow_down") then 1 else 0;
      here + SlowDowns(rounds[1..])
  }

  /** While the loop waits, the interval grows by exactly five seconds per
      `slow_down` and the session does not change. */
  lemma {:induction false} IntervalCountsSlowDowns(s: Session, interval: int, deadline: int,
                                                    rounds: seq<Round>)
    requires !s.cancelled
    requires forall k :: 0 <= k < |rounds| ==> Waits(rounds[k], deadline)
    ensures PollLoop(s, interval, deadline, rounds)
         == Polling(s, interval + SLOW_DOWN_STEP * SlowDowns(rounds), false)
    decreases |rounds|
  {
    if rounds != [] {
      assert Waits(rounds[0], deadline);
      forall k | 0 <= k < |rounds[1..]| ensures Waits(rounds[1..][k], deadline) {
        assert rounds[1..][k] == rounds[k + 1];
      }
      var step := if HasError(rounds[0].reply.value, "slow_down") then SLOW_DOWN_STEP else 0;
      IntervalCountsSlowDowns(s, interval + step, deadline, rounds[1..]);
    }
  }

  /** The loop starts from `Math.max(1, interval)` of the device code: while
      it only waits, the interval is that plus five seconds per `slow_down`;
      a cancel during the code request, or an expiry time that is no valid
      date, leaves it at the start value. */
  lemma {:induction false} StartLoginInterval(s: Session, d: DeviceCode, duringRequest: Interrupt, now: int,
                           rounds: seq<Round>)
    requires forall k :: 0 <= k < |rounds| ==> Waits(rounds[k], now + d.expiresIn * 1000)
    ensures var start := if d.interval > 1 then d.interval else 1;
      StartLogin(s, Ok(d), duringRequest, now, rounds).interval
        == start + (if duringRequest.NoInterrupt? && InTimeRange(now + d.expiresIn * 1000)
                    then SLOW_DOWN_STEP * SlowDowns(rounds) else 0)
  {
    StartLoginIsLoop(s, d, duringRequest, now, rounds);
    if InTimeRange(now + d.expiresIn * 1000) {
      LoopInterval(WaitingFor(s, d, duringRequest, now), StartInterval(d), now + d.expiresIn * 1000, rounds);
    }
  }

  /** The interval the loop ends with when every round only waits. */
  lemma {:induction false} LoopInterval(w: Session, interval: int, deadline: int, rounds: seq<Round>)
    requires forall k :: 0 <= k < |rounds| ==> Waits(rounds[k], deadline)
    ensures PollLoop(w, interval, deadline, rounds).interval
         == interval + (if w.cancelled then 0 else SLOW_DOWN_STEP * SlowDowns(rounds))
  {
    if !w.cancelled {
      IntervalCountsSlowDowns(w, interval, deadline, rounds);
    }
  }

  /** With a device code, `startLogin` is the loop from the waiting session,
      unless the expiry time is no valid date. */
  lemma StartLoginIsLoop(s: Session, d: DeviceCode, duringRequest: Interrupt, now: int, rounds: seq<Round>)
    ensures InTimeRange(now + d.expiresIn * 1000) ==>
      StartLogin(s, Ok(d), duringRequest, now, rounds)
        == PollLoop(WaitingFor(s, d, duringRequest, now), StartInterval(d), now + d.expiresIn * 1000, rounds)
    ensures !InTimeRange(now + d.expiresIn * 1000) ==>
      StartLogin(s, Ok(d), duringRequest, now, rounds)
        == Polling(StartFailed(s, duringRequest, INVALID_TIME_MESSAGE), StartInterval(d), true)
  {
  }

  /** A cancel while the poll is pending does not stop its reply from being
      handled: an access token arriving then still signs the user in. */
  lemma CancelDuringPollStillSignsIn(s: Session, interval: int, deadline: int, round: Round,
                                     rest: seq<Round>)
    requires !s.cancelled && round.now < deadline && round.duringSleep.NoInterrupt?
    requires round.duringPoll == Cancel
    requires round.reply.Ok? && Truthy(round.reply.value.accessToken) && round.viewer.Ok?
    ensures var r := PollLoop(s, interval, deadline, [round] + rest);
      r.done && r.session.state == SignedIn && r.session.cancelled
      && r.session.token == round.reply.value.accessToken
  {
    assert ([round] + rest)[0] == round;
  }

  /** A cancel during the sleep returns before polling: the reply of that
      round is never looked at. */
  lemma CancelDuringSleepSkipsPoll(s: Session, interval: int, deadline: int, round: Round,
                                   rest: seq<Round>)
    requires !s.cancelled && round.now < deadline && round.duringSleep == Cancel
    ensures PollLoop(s, interval, deadline, [round] + rest) == Polling(CancelLogin(s), interval, true)
  {
    assert ([round] + rest)[0] == round;
  }

  /** `refreshUser`: with a token, look the user up and store it with the
      scopes already stored; on failure record the error. */
  function RefreshUser(s: Session, viewer: Result<GithubUser, Thrown>, createdAt: string): (r: Session)
    ensures !Truthy(s.token) ==> r == s
    ensures Truthy(s.token) && viewer.Err? ==>
      r == s.(error := Some(ThrownMessage(viewer.error, REFRESH_FAILED_MESSAGE)), state := ErrorState)
    ensures Truthy(s.token) && viewer.Ok? ==>
      r.state == SignedIn && r.user == Some(viewer.value) && r.error.None? && r.stored.Some?
      && r.stored.value.accessToken == s.token.value
  {
    if !Truthy(s.token) then s
    else match viewer
      case Err(e) => s.(error := Some(ThrownMessage(e, REFRESH_FAILED_MESSAGE)), state := ErrorState)
      case Ok(user) =>
        var scope := if s.stored.Some? then Join(s.stored.value.tokenScopes, ",") else "";
        s.(user := Some(user), state := SignedIn, error := None,
           stored := Some(ToStoredAuth(s.token.value, Some(scope), user, createdAt)))
  }

  /** Refreshing the user keeps the scopes that sign-in stored. */
  lemma RefreshKeepsScopes(s: Session, user: GithubUser, createdAt: string)
    requires Truthy(s.token) && s.stored.Some?
    requires forall i :: 0 <= i < |s.stored.value.tokenScopes| ==> ScopeName(s.stored.value.tokenScopes[i])
    ensures RefreshUser(s, Ok(user), createdAt).stored.value.tokenScopes == s.stored.value.tokenScopes
  {
    ScopesRoundTrip(s.stored.value.tokenScopes);
  }
}

=== FILE: clock.dfy ===
/** Millisecond clock arithmetic: UTC day and week boundaries and the daily
    18:00 KST (UTC+9) schedule. Times are integer milliseconds since the
    Unix epoch; `now` is always a parameter. */
module Clock {

  const SECOND_MS: int := 1000
  const HOUR_MS: int := 60 * 60 * 1000
  const DAY_MS: int := 24 * HOUR_MS
  const KST_OFFSET_MS: int := 9 * HOUR_MS
  const SIX_PM_MS: int := 18 * HOUR_MS

  /** The UTC day a timestamp falls on, as a day index. It stands for the
      `YYYY-MM-DD` key of `getDayKey`, which is injective on UTC days. */
  function DayKey(ms: int): int {
    ms / DAY_MS
  }

  /** `getUtcDayStartMs`: the UTC midnight at or before `now`. */
  function UtcDayStart(now: int): (r: int)
    ensures r % DAY_MS == 0
    ensures r <= now < r + DAY_MS
    ensures DayKey(r) == DayKey(now)
  {
    (now / DAY_MS) * DAY_MS
  }

  /** `getUTCDay` of a timestamp: 0 is Sunday; day 0 (1970-01-01) was a Thursday. */
  function UtcWeekday(ms: int): (r: int)
    ensures 0 <= r < 7
  {
    (DayKey(ms) + 4) % 7
  }

  /** `getUtcWeekStartMs`: the most recent Monday 00:00 UTC at or before `now`. */
  function UtcWeekStart(now: int): (r: int)
    ensures r % DAY_MS == 0
    ensures r <= now < r + 7 * DAY_MS
    ensures UtcWeekday(r) == 1
  {
    var dayStart := UtcDayStart(now);
    var offset := (UtcWeekday(dayStart) + 6) % 7;
    WeekStartIsMonday(dayStart, offset);
    dayStart - offset * DAY_MS
  }

  lemma WeekStartIsMonday(dayStart: int, offset: int)
    requires dayStart % DAY_MS == 0
    requires offset == (UtcWeekday(dayStart) + 6) % 7
    ensures (dayStart - offset * DAY_MS) / DAY_MS == dayStart / DAY_MS - offset
    ensures UtcWeekday(dayStart - offset * DAY_MS) == 1
  {
    var d := dayStart / DAY_MS;
    assert dayStart == d * DAY_MS;
    assert dayStart - offset * DAY_MS == (d - offset) * DAY_MS;
    DivExact(d - offset);
    var w := (d + 4) % 7;
    if w == 0 {
      assert offset == 6;
      assert (d - 6 + 4) % 7 == 1;
    } else {
      assert offset == w - 1;
      assert (d - (w - 1) + 4) % 7 == 1;
    }
  }

  lemma DivExact(k: int)
    ensures (k * DAY_MS) / DAY_MS == k && (k * DAY_MS) % DAY_MS == 0
  {
  }

  /** Within one day-long window starting at a multiple of a day, `%` is an offset. */
  lemma ModWithinDay(y: int, q: int)
    requires q * DAY_MS <= y < q * DAY_MS + DAY_MS
    ensures y % DAY_MS == y - q * DAY_MS
    ensures y / DAY_MS == q
  {
  }

  /** The time of day on the KST wall clock, in milliseconds since KST midnight. */
  function KstTimeOfDay(t: int): int {
    (t + KST_OFFSET_MS) % DAY_MS
  }

  /** `getKstDayStartMs`: the instant of the most recent KST midnight. */
  function KstDayStart(now: int): (r: int)
    ensures r <= now < r + DAY_MS
    ensures KstTimeOfDay(r) == 0
  {
    var q := (now + KST_OFFSET_MS) / DAY_MS;
    DivExact(q);
    q * DAY_MS - KST_OFFSET_MS
  }

  /** `getNextKstSixPmMs`: the first 18:00 KST strictly after `now`. */
  function NextKstSixPm(now: int): (r: int)
    ensures now < r <= now + DAY_MS
    ensures KstTimeOfDay(r) == SIX_PM_MS
    ensures forall t :: now < t < r ==> KstTimeOfDay(t) != SIX_PM_MS
  {
    var dayStart := KstDayStart(now);
    var sixPm := dayStart + SIX_PM_MS;
    NextSixPmIsFirst(now, if now < sixPm then sixPm else sixPm + DAY_MS);
    if now < sixPm then sixPm else sixPm + DAY_MS
  }

  lemma NextSixPmIsFirst(now: int, r: int)
    requires var sixPm := KstDayStart(now) + SIX_PM_MS;
      r == if now < sixPm then sixPm else sixPm + DAY_MS
    ensures now < r <= now + DAY_MS
    ensures KstTimeOfDay(r) == SIX_PM_MS
    ensures forall t :: now < t < r ==> KstTimeOfDay(t) != SIX_PM_MS
  {
    var q := (now + KST_OFFSET_MS) / DAY_MS;
    assert KstDayStart(now) == q * DAY_MS - KST_OFFSET_MS;
    ModWithinDay(now + KST_OFFSET_MS, q);
    if now < KstDayStart(now) + SIX_PM_MS {
      ModWithinDay(r + KST_OFFSET_MS, q);
      forall t | now < t < r ensures KstTimeOfDay(t) != SIX_PM_MS {
        ModWithinDay(t + KST_OFFSET_MS, q);
      }
    } else {
      ModWithinDay(r + KST_OFFSET_MS, q + 1);
      forall t | now < t < r ensures KstTimeOfDay(t) != SIX_PM_MS {
        if t + KST_OFFSET_MS < (q + 1) * DAY_MS {
          ModWithinDay(t + KST_OFFSET_MS, q);
        } else {
          ModWithinDay(t + KST_OFFSET_MS, q + 1);
        }
      }
    }
  }
}

=== FILE: collections.dfy ===
/** Sequence helpers shared by the mate list and the pinned list: keeping
    the first element of each key, in input order. */
module Collections {
  import opened Wrappers

  predicate HasKey<T, K(==)>(xs: seq<T>, key: T -> K, k: K) {
    exists j :: 0 <= j < |xs| && key(xs[j]) == k
  }

  /** Index of the first element of `xs` whose key is `k`. */
  function FirstIndexOfKey<T, K(==)>(xs: seq<T>, key: T -> K, k: K): (i: nat)
    requires HasKey(xs, key, k)
    ensures i < |xs| && key(xs[i]) == k
    ensures forall j :: 0 <= j < i ==> key(xs[j]) != k
  {
    if key(xs[0]) == k then 0
    else
      assert HasKey(xs[1..], key, k) by {
        var j :| 0 <= j < |xs| && key(xs[j]) == k;
        assert j != 0 && key(xs[1..][j - 1]) == k;
      }
      1 + FirstIndexOfKey(xs[1..], key, k)
  }

  /** The loop of the source: walk `xs` in order, keep an element when its
      key is not in `seen`, then add the key to `seen`. */
  function KeepFirstFrom<T, K(==)>(xs: seq<T>, key: T -> K, seen: set<K>): (r: seq<T>)
    ensures |r| <= |xs|
    ensures forall i :: 0 <= i < |r| ==> r[i] in xs && key(r[i]) !in seen
    ensures forall i, j :: 0 <= i < j < |r| ==> key(r[i]) != key(r[j])
  {
    if xs == [] then []
    else if key(xs[0]) in seen then KeepFirstFrom(xs[1..], key, seen)
    else [xs[0]] + KeepFirstFrom(xs[1..], key, seen + {key(xs[0])})
  }

  /** Keeps the first element of each key; the kept keys are pairwise
      distinct. */
  function KeepFirstBy<T, K(==)>(xs: seq<T>, key: T -> K): (r: seq<T>)
    ensures |r| <= |xs|
    ensures forall i :: 0 <= i < |r| ==> r[i] in xs
    ensures forall i, j :: 0 <= i < j < |r| ==> key(r[i]) != key(r[j])
  {
    KeepFirstFrom(xs, key, {})
  }

  /** Whatever holds of every input element holds of every kept one. */
  lemma KeepFirstByPreserves<T, K>(xs: seq<T>, key: T -> K, p: T -> bool)
    requires forall i :: 0 <= i < |xs| ==> p(xs[i])
    ensures forall i :: 0 <= i < |KeepFirstBy(xs, key)| ==> p(KeepFirstBy(xs, key)[i])
  {
    var r := KeepFirstBy(xs, key);
    forall i | 0 <= i < |r| ensures p(r[i]) {
      assert r[i] in xs;
    }
  }

  /** No key is lost: every key of the input that was not already seen is
      the key of a kept element. */
  lemma {:induction false} KeepFirstFromComplete<T, K>(xs: seq<T>, key: T -> K, seen: set<K>, j: int)
    requires 0 <= j < |xs| && key(xs[j]) !in seen
    ensures HasKey(KeepFirstFrom(xs, key, seen), key, key(xs[j]))
  {
    var r := KeepFirstFrom(xs, key, seen);
    if key(xs[0]) in seen {
      KeepFirstFromComplete(xs[1..], key, seen, j - 1);
      assert xs[1..][j - 1] == xs[j];
    } else if key(xs[j]) == key(xs[0]) {
      assert key(r[0]) == key(xs[j]);
    } else {
      KeepFirstFromComplete(xs[1..], key, seen + {key(xs[0])}, j - 1);
      assert xs[1..][j - 1] == xs[j];
      var rest := KeepFirstFrom(xs[1..], key, seen + {key(xs[0])});
      var i :| 0 <= i < |rest| && key(rest[i]) == key(xs[j]);
      assert r[i + 1] == rest[i];
    }
  }

  /** Every element of `r` is the first element of `xs` with its key. */
  predicate KeptFirst<T(==), K(==)>(xs: seq<T>, key: T -> K, r: seq<T>) {
    forall i :: 0 <= i < |r| ==>
      HasKey(xs, key, key(r[i])) && r[i] == xs[FirstIndexOfKey(xs, key, key(r[i]))]
  }

  /** The elements of `r` appear in the order of their first occurrence in `xs`. */
  predicate KeptInOrder<T, K(==)>(xs: seq<T>, key: T -> K, r: seq<T>) {
    forall i, j :: 0 <= i < j < |r| ==>
      HasKey(xs, key, key(r[i])) && HasKey(xs, key, key(r[j])) &&
      FirstIndexOfKey(xs, key, key(r[i])) < FirstIndexOfKey(xs, key, key(r[j]))
  }

  /** A key that is not the head's: its first index in `xs` is one past
      its first index in the tail. */
  lemma FirstIndexInTail<T, K>(xs: seq<T>, key: T -> K, k: K)
    requires xs != [] && key(xs[0]) != k && HasKey(xs[1..], key, k)
    ensures HasKey(xs, key, k)
    ensures FirstIndexOfKey(xs, key, k) == 1 + FirstIndexOfKey(xs[1..], key, k)
  {
    var f := FirstIndexOfKey(xs[1..], key, k);
    assert key(xs[f + 1]) == k;
  }

  /** Each kept element is the first element of the input with its key. */
  lemma {:induction false} KeepFirstFromKeepsFirst<T, K>(xs: seq<T>, key: T -> K, seen: set<K>)
    ensures KeptFirst(xs, key, KeepFirstFrom(xs, key, seen))
  {
    var r := KeepFirstFrom(xs, key, seen);
    if xs != [] {
      var seen' := if key(xs[0]) in seen then seen else seen + {key(xs[0])};
      var rest := KeepFirstFrom(xs[1..], key, seen');
      KeepFirstFromKeepsFirst(xs[1..], key, seen');
      assert r == rest || r == [xs[0]] + rest;
      forall i | 0 <= i < |r|
        ensures HasKey(xs, key, key(r[i])) && r[i] == xs[FirstIndexOfKey(xs, key, key(r[i]))]
      {
        if r == [xs[0]] + rest && i == 0 {
          assert key(xs[0]) == key(r[0]);
        } else {
          var i' := if r == rest then i else i - 1;
          assert r[i] == rest[i'];
          assert HasKey(xs[1..], key, key(rest[i']));
          FirstIndexInTail(xs, key, key(rest[i']));
        }
      }
    }
  }

  /** Kept elements keep the order of their first occurrences. */
  lemma {:induction false} KeepFirstFromInOrder<T, K>(xs: seq<T>, key: T -> K, seen: set<K>)
    ensures KeptInOrder(xs, key, KeepFirstFrom(xs, key, seen))
  {
    if xs != [] {
      var seen' := if key(xs[0]) in seen then seen else seen + {key(xs[0])};
      var rest := KeepFirstFrom(xs[1..], key, seen');
      KeepFirstFromInOrder(xs[1..], key, seen');
      assert forall i :: 0 <= i < |rest| ==> key(rest[i]) != key(xs[0]);
      forall i | 0 <= i < |rest| ensures HasKey(xs[1..], key, key(rest[i])) {
        var j :| 0 <= j < |xs[1..]| && xs[1..][j] == rest[i];
      }
      if key(xs[0]) in seen {
        InOrderTail(xs, key, rest);
      } else {
        InOrderCons(xs, key, rest);
      }
    }
  }

  /** An in-order list of the tail, none of whose keys is the head's, is
      in order with respect to the whole input. */
  lemma InOrderTail<T, K>(xs: seq<T>, key: T -> K, rest: seq<T>)
    requires xs != [] && KeptInOrder(xs[1..], key, rest)
    requires forall i :: 0 <= i < |rest| ==> key(rest[i]) != key(xs[0])
    requires forall i :: 0 <= i < |rest| ==> HasKey(xs[1..], key, key(rest[i]))
    ensures KeptInOrder(xs, key, rest)
    ensures forall i :: 0 <= i < |rest| ==>
      HasKey(xs, key, key(rest[i])) && FirstIndexOfKey(xs, key, key(rest[i])) > 0
  {
    forall i | 0 <= i < |rest|
      ensures HasKey(xs, key, key(rest[i]))
      ensures FirstIndexOfKey(xs, key, key(rest[i])) == 1 + FirstIndexOfKey(xs[1..], key, key(rest[i]))
    {
      FirstIndexInTail(xs, key, key(rest[i]));
    }
    forall i, j | 0 <= i < j < |rest|
      ensures FirstIndexOfKey(xs, key, key(rest[i])) < FirstIndexOfKey(xs, key, key(rest[j]))
    {
      assert FirstIndexOfKey(xs[1..], key, key(rest[i])) < FirstIndexOfKey(xs[1..], key, key(rest[j]));
    }
  }

  /** Putting the head in front of such a list keeps it in order. */
  lemma InOrderCons<T, K>(xs: seq<T>, key: T -> K, rest: seq<T>)
    requires xs != [] && KeptInOrder(xs[1..], key, rest)
    requires forall i :: 0 <= i < |rest| ==> key(rest[i]) != key(xs[0])
    requires forall i :: 0 <= i < |rest| ==> HasKey(xs[1..], key, key(rest[i]))
    ensures KeptInOrder(xs, key, [xs[0]] + rest)
  {
    InOrderTail(xs, key, rest);
    var r := [xs[0]] + rest;
    assert HasKey(xs, key, key(xs[0]));
    assert FirstIndexOfKey(xs, key, key(xs[0])) == 0;
    forall i, j | 0 <= i < j < |r|
      ensures HasKey(xs, key, key(r[i])) && HasKey(xs, key, key(r[j]))
      ensures FirstIndexOfKey(xs, key, key(r[i])) < FirstIndexOfKey(xs, key, key(r[j]))
    {
      assert r[j] == rest[j - 1];
      if i > 0 {
        assert r[i] == rest[i - 1];
      }
    }
  }

  /** Every key of the input is the key of some element of `r`. */
  predicate KeepsEveryKey<T, K(==)>(xs: seq<T>, key: T -> K, r: seq<T>) {
    forall j :: 0 <= j < |xs| ==> HasKey(r, key, key(xs[j]))
  }

  /** Whenever `r` holds a key, it holds the key of every element of `xs`
      before that key's first occurrence. */
  predicate PrefixClosed<T, K(==)>(xs: seq<T>, key: T -> K, r: seq<T>) {
    forall k, j ::
      (0 <= k < |r| && 0 <= j < |xs| && HasKey(xs, key, key(r[k])) && j < FirstIndexOfKey(xs, key, key(r[k])))
      ==> HasKey(r, key, key(xs[j]))
  }

  /** `KeepFirstBy` keeps exactly the first element of each key, in the
      order of first occurrence, and loses no key. */
  lemma KeepFirstBySpec<T, K>(xs: seq<T>, key: T -> K)
    ensures var r := KeepFirstBy(xs, key);
      KeptFirst(xs, key, r) && KeptInOrder(xs, key, r) && KeepsEveryKey(xs, key, r)
  {
    KeepFirstFromKeepsFirst(xs, key, {});
    KeepFirstFromInOrder(xs, key, {});
    forall j | 0 <= j < |xs| ensures HasKey(KeepFirstBy(xs, key), key, key(xs[j])) {
      KeepFirstFromComplete(xs, key, {}, j);
    }
  }

  /** The first `n` elements of an in-order list that keeps every key
      are first occurrences, in order, and prefix-closed. */
  lemma TakeOfKeptFirst<T, K>(xs: seq<T>, key: T -> K, u: seq<T>, n: nat)
    requires KeptFirst(xs, key, u) && KeptInOrder(xs, key, u) && KeepsEveryKey(xs, key, u)
    ensures var r := Take(u, n);
      KeptFirst(xs, key, r) && KeptInOrder(xs, key, r) && PrefixClosed(xs, key, r)
  {
    var r := Take(u, n);
    assert forall k :: 0 <= k < |r| ==> r[k] == u[k];
    forall k, j | 0 <= k < |r| && 0 <= j < |xs| && HasKey(xs, key, key(r[k]))
      && j < FirstIndexOfKey(xs, key, key(r[k]))
      ensures HasKey(r, key, key(xs[j]))
    {
      var p :| 0 <= p < |u| && key(u[p]) == key(xs[j]);
      var fp := FirstIndexOfKey(xs, key, key(u[p]));
      assert fp <= j;
      assert p < k;
      assert r[p] == u[p];
    }
  }

  /** Keeping first occurrences of an input whose keys are already
      distinct changes nothing. */
  lemma {:induction false} KeepFirstFromOfDistinct<T, K>(xs: seq<T>, key: T -> K, seen: set<K>)
    requires forall i, j :: 0 <= i < j < |xs| ==> key(xs[i]) != key(xs[j])
    requires forall i :: 0 <= i < |xs| ==> key(xs[i]) !in seen
    ensures KeepFirstFrom(xs, key, seen) == xs
  {
    if xs != [] {
      var seen' := seen + {key(xs[0])};
      forall i | 0 <= i < |xs[1..]| ensures key(xs[1..][i]) !in seen' {
        assert xs[1..][i] == xs[i + 1];
      }
      KeepFirstFromOfDistinct(xs[1..], key, seen');
      assert [xs[0]] + xs[1..] == xs;
    }
  }

  function Map<A, B>(xs: seq<A>, f: A -> B): (r: seq<B>)
    ensures |r| == |xs|
    ensures forall i :: 0 <= i < |xs| ==> r[i] == f(xs[i])
  {
    if xs == [] then [] else [f(xs[0])] + Map(xs[1..], f)
  }

  /** Applies `f` to each element in order and keeps the present results. */
  function FilterMap<A, B>(xs: seq<A>, f: A -> Option<B>): (r: seq<B>)
    ensures |r| <= |xs|
    ensures forall i :: 0 <= i < |xs| && f(xs[i]).Some? ==> f(xs[i]).value in r
    ensures forall y :: y in r ==> exists i :: 0 <= i < |xs| && f(xs[i]) == Some(y)
  {
    if xs == [] then []
    else
      var rest := FilterMap(xs[1..], f);
      assert forall i :: 1 <= i < |xs| ==> xs[i] == xs[1..][i - 1];
      assert forall y :: y in rest ==> exists i :: 1 <= i < |xs| && f(xs[i]) == Some(y) by {
        forall y | y in rest ensures exists i :: 1 <= i < |xs| && f(xs[i]) == Some(y) {
          var i :| 0 <= i < |xs[1..]| && f(xs[1..][i]) == Some(y);
          assert f(xs[i + 1]) == Some(y);
        }
      }
      if f(xs[0]).Some? then [f(xs[0]).value] + rest else rest
  }

  /** `FilterMap` distributes over concatenation: it keeps the results of
      each part in order, the first part's before the second's. */
  lemma {:induction false} FilterMapAppend<A, B>(xs: seq<A>, ys: seq<A>, f: A -> Option<B>)
    ensures FilterMap(xs + ys, f) == FilterMap(xs, f) + FilterMap(ys, f)
  {
    if xs == [] {
      assert xs + ys == ys;
    } else {
      assert (xs + ys)[0] == xs[0];
      assert (xs + ys)[1..] == xs[1..] + ys;
      FilterMapAppend(xs[1..], ys, f);
    }
  }

  /** A relation that holds between `y` and the first of `xs`, and
      pairwise between `ys` and the rest, holds pairwise between `[y] + ys`
      and `xs`. */
  lemma ConsPairs<A, B>(xs: seq<A>, y: B, ys: seq<B>, p: (B, A) -> bool)
    requires xs != [] && |ys| == |xs| - 1
    requires p(y, xs[0])
    requires forall i :: 0 <= i < |ys| ==> p(ys[i], xs[1..][i])
    ensures forall i :: 0 <= i < |xs| ==> p(([y] + ys)[i], xs[i])
  {
    forall i | 0 <= i < |xs| ensures p(([y] + ys)[i], xs[i]) {
      if i > 0 {
        assert ([y] + ys)[i] == ys[i - 1] && xs[i] == xs[1..][i - 1];
      }
    }
  }

  /** `FilterMap` of one element: its result, if present. */
  lemma FilterMapSingle<A, B>(x: A, f: A -> Option<B>)
    ensures FilterMap([x], f) == if f(x).Some? then [f(x).value] else []
  {
    assert [x][1..] == [];
  }

  /** Every kept result of `FilterMap` satisfies what every present result
      of `f` satisfies. */
  lemma {:induction false} FilterMapPreserves<A, B>(xs: seq<A>, f: A -> Option<B>, p: B -> bool)
    requires forall i :: 0 <= i < |xs| && f(xs[i]).Some? ==> p(f(xs[i]).value)
    ensures forall j :: 0 <= j < |FilterMap(xs, f)| ==> p(FilterMap(xs, f)[j])
  {
    if xs != [] {
      assert forall i :: 0 <= i < |xs[1..]| ==> xs[1..][i] == xs[i + 1];
      FilterMapPreserves(xs[1..], f, p);
      var rest := FilterMap(xs[1..], f);
      if f(xs[0]).Some? {
        var r := [f(xs[0]).value] + rest;
        forall j | 0 <= j < |r| ensures p(r[j]) {
          if j > 0 { assert r[j] == rest[j - 1]; }
        }
      }
    }
  }

  /** When `f` maps each `g(y)` back to `y`, filtering the image of `ys`
      returns `ys`. */
  lemma {:induction false} FilterMapOfInverse<A, B>(ys: seq<B>, f: A -> Option<B>, g: B -> A)
    requires forall i :: 0 <= i < |ys| ==> f(g(ys[i])) == Some(ys[i])
    ensures FilterMap(Map(ys, g), f) == ys
  {
    if ys != [] {
      var xs := Map(ys, g);
      assert xs[1..] == Map(ys[1..], g) by {
        assert xs == [g(ys[0])] + Map(ys[1..], g);
      }
      FilterMapOfInverse(ys[1..], f, g);
      assert f(xs[0]) == Some(ys[0]);
      assert FilterMap(xs, f) == [ys[0]] + ys[1..];
    }
  }

  lemma AppendAssociative<T>(p: seq<T>, q: seq<T>, r: seq<T>)
    ensures p + (q + r) == (p + q) + r
  {
  }

  /** `s.slice(0, n)`: the first `n` elements, or all of them. */
  function Take<T>(s: seq<T>, n: nat): (r: seq<T>)
    ensures |r| == if |s| < n then |s| else n
    ensures r == s[..|r|]
  {
    if |s| < n then s else s[..n]
  }

  /** No element occurs twice. */
  predicate Distinct<T(==)>(s: seq<T>) {
    forall i, j :: 0 <= i < j < |s| ==> s[i] != s[j]
  }

  /** `xs.find(p)`: the first element satisfying `p`, if any. */
  function Find<T>(xs: seq<T>, p: T -> bool): (r: Option<T>)
    ensures r.None? <==> forall i :: 0 <= i < |xs| ==> !p(xs[i])
    ensures r.Some? ==> exists i :: (0 <= i < |xs| && xs[i] == r.value && p(xs[i])
      && forall j :: 0 <= j < i ==> !p(xs[j]))
  {
    if xs == [] then None
    else if p(xs[0]) then Some(xs[0])
    else
      assert forall i :: 0 <= i < |xs[1..]| ==> xs[1..][i] == xs[i + 1];
      var r := Find(xs[1..], p);
      assert r.Some? ==> exists i :: (1 <= i < |xs| && xs[i] == r.value && p(xs[i])
        && forall j :: 0 <= j < i ==> !p(xs[j])) by {
        if r.Some? {
          var i :| 0 <= i < |xs[1..]| && xs[1..][i] == r.value && p(xs[1..][i])
            && forall j :: 0 <= j < i ==> !p(xs[1..][j]);
          assert xs[i + 1] == r.value;
          assert forall j :: 1 <= j < i + 1 ==> !p(xs[j]) by {
            forall j | 1 <= j < i + 1 ensures !p(xs[j]) { assert xs[j] == xs[1..][j - 1]; }
          }
        }
      }
      r
  }
}

=== FILE: compare_cache.dfy ===
/** The persistent compare cache and `fetchCompareTotals`: diff totals of a
    (repository, before, head) triple, kept for seven days. */
module CompareCache {
  import opened Wrappers
  import opened Clock
  import opened GithubApi
  import Text

  const CACHE_TTL_MS: int := 7 * DAY_MS

  /** A cached comparison; `updatedAt` is the write time in milliseconds. */
  datatype Entry = Entry(additions: nat, deletions: nat, updatedAt: int)

  type Cache = map<string, Entry>

  /** `cacheKey`: `repo::before::head`. */
  function Key(repo: string, before: string, head: string): string {
    repo + "::" + before + "::" + head
  }

  /** The text before the first ':' and the text after the "::" it starts,
      when the first ':' is doubled. */
  function CutAtDoubleColon(s: string): Option<(string, string)> {
    if ':' !in s then None
    else
      var i := Text.IndexOfChar(s, ':');
      if i + 1 >= |s| || s[i + 1] != ':' then None
      else Some((s[..i], s[i + 2..]))
  }

  /** Reads a key back into its three parts: the text before the first
      "::", the text between it and the next "::", and the rest. */
  function SplitKey(key: string): Option<(string, string, string)> {
    match CutAtDoubleColon(key)
    case None => None
    case Some((repo, rest)) =>
      match CutAtDoubleColon(rest)
      case None => None
      case Some((before, head)) => Some((repo, before, head))
  }

  lemma CutAfterColonFree(a: string, rest: string)
    requires ':' !in a
    ensures CutAtDoubleColon(a + "::" + rest) == Some((a, rest))
  {
    var s := a + "::" + rest;
    assert s[|a|] == ':' && s[|a| + 1] == ':';
    assert s[..|a|] == a;
    assert s[|a| + 2..] == rest;
  }

  /** Keys can be read back when the repository name and the before SHA hold
      no ':' (GitHub repository names and SHAs never do). */
  lemma KeyRoundTrip(repo: string, before: string, head: string)
    requires ':' !in repo && ':' !in before
    ensures SplitKey(Key(repo, before, head)) == Some((repo, before, head))
  {
    var rest := before + "::" + head;
    assert Key(repo, before, head) == repo + "::" + rest;
    CutAfterColonFree(repo, rest);
    CutAfterColonFree(before, head);
  }

  /** Hence distinct triples never share a cache entry. */
  lemma KeyInjective(r1: string, b1: string, h1: string, r2: string, b2: string, h2: string)
    requires ':' !in r1 && ':' !in b1 && ':' !in r2 && ':' !in b2
    requires Key(r1, b1, h1) == Key(r2, b2, h2)
    ensures r1 == r2 && b1 == b2 && h1 == h2
  {
    KeyRoundTrip(r1, b1, h1);
    KeyRoundTrip(r2, b2, h2);
  }

  /** `isFresh`: strictly younger than seven days. */
  predicate IsFresh(entry: Entry, now: int) {
    now - entry.updatedAt < CACHE_TTL_MS
  }

  /** An entry is fresh at the instant it is written and stays fresh for
      exactly seven days: one second before the boundary it is fresh, at the
      boundary and after it it is stale. */
  lemma FreshnessWindow(entry: Entry, now: int)
    ensures now == entry.updatedAt ==> IsFresh(entry, now)
    ensures now == entry.updatedAt + CACHE_TTL_MS - SECOND_MS ==> IsFresh(entry, now)
    ensures now == entry.updatedAt + CACHE_TTL_MS ==> !IsFresh(entry, now)
    ensures now == entry.updatedAt + CACHE_TTL_MS + SECOND_MS ==> !IsFresh(entry, now)
  {
  }

  /** One entry of a compare response's `files`; a missing count reads as 0. */
  datatype CompareFile = CompareFile(additions: Option<nat>, deletions: Option<nat>)

  function SumAdditions(files: seq<CompareFile>): nat {
    if files == [] then 0 else SumAdditions(files[..|files| - 1]) + files[|files| - 1].additions.GetOr(0)
  }

  function SumDeletions(files: seq<CompareFile>): nat {
    if files == [] then 0 else SumDeletions(files[..|files| - 1]) + files[|files| - 1].deletions.GetOr(0)
  }

  /** The totals `fetchCompareTotals` resolves with. */
  datatype Totals = Totals(additions: nat, deletions: nat, skipped: bool)

  /** A resolved call: its totals, the cache afterwards, and whether the
      compare endpoint was requested. */
  datatype CompareCall = CompareCall(totals: Totals, cache: Cache, requested: bool)

  /** `fetchCompareTotals`. `reply` is what the compare endpoint answers if
      it is asked (`files` absent reads as no files); it is consulted only
      when the cache holds no fresh entry. */
  function FetchCompareTotals(repo: string, before: string, head: string, cache: Cache, now: int,
                              reply: Reply<Option<seq<CompareFile>>>): (r: Result<CompareCall, RequestError>)
    ensures var key := Key(repo, before, head);
      key in cache && IsFresh(cache[key], now) ==>
        r == Ok(CompareCall(Totals(cache[key].additions, cache[key].deletions, false), cache, false))
    ensures var key := Key(repo, before, head);
      !(key in cache && IsFresh(cache[key], now)) && reply.Ok? ==>
        var files := reply.value.GetOr([]);
        && r.Ok? && r.value.requested
        && r.value.totals == Totals(SumAdditions(files), SumDeletions(files), false)
        && r.value.cache == cache[key := Entry(SumAdditions(files), SumDeletions(files), now)]
    ensures var key := Key(repo, before, head);
      !(key in cache && IsFresh(cache[key], now)) && reply.Err? && IsSkippable(reply.error) ==>
        r == Ok(CompareCall(Totals(0, 0, true), cache, true))
    ensures var key := Key(repo, before, head);
      !(key in cache && IsFresh(cache[key], now)) && reply.Err? && !IsSkippable(reply.error) ==>
        r == Err(reply.error)
  {
    var key := Key(repo, before, head);
    if key in cache && IsFresh(cache[key], now) then
      Ok(CompareCall(Totals(cache[key].additions, cache[key].deletions, false), cache, false))
    else
      match reply
      case Ok(files) =>
        var fs := files.GetOr([]);
        var a := SumAdditions(fs);
        var d := SumDeletions(fs);
        Ok(CompareCall(Totals(a, d, false), cache[key := Entry(a, d, now)], true))
      case Err(e) =>
        if IsSkippable(e) then Ok(CompareCall(Totals(0, 0, true), cache, true)) else Err(e)
  }

  /** A call changes at most the entry of its own key, and every totals it
      resolves with are zero when skipped. */
  lemma FetchTouchesOnlyItsKey(repo: string, before: string, head: string, cache: Cache, now: int,
                               reply: Reply<Option<seq<CompareFile>>>)
    ensures var r := FetchCompareTotals(repo, before, head, cache, now, reply);
      r.Ok? ==>
        && (forall k :: k != Key(repo, before, head) ==>
              (k in r.value.cache <==> k in cache) && (k in cache ==> r.value.cache[k] == cache[k]))
        && (r.value.totals.skipped ==> r.value.totals.additions == 0 && r.value.totals.deletions == 0)
  {
  }

  /** After a successful request, asking again for the same triple within
      seven days answers from the cache with the same totals and makes no
      request, whatever the endpoint would now say. */
  lemma SecondCallHitsCache(repo: string, before: string, head: string, cache: Cache, now: int, later: int,
                            reply: Reply<Option<seq<CompareFile>>>, reply2: Reply<Option<seq<CompareFile>>>)
    requires reply.Ok?
    requires now <= later < now + CACHE_TTL_MS
    requires FetchCompareTotals(repo, before, head, cache, now, reply).Ok?
    requires FetchCompareTotals(repo, before, head, cache, now, reply).value.requested
    ensures var first := FetchCompareTotals(repo, before, head, cache, now, reply).value;
      var second := FetchCompareTotals(repo, before, head, first.cache, later, reply2);
      second == Ok(CompareCall(first.totals, first.cache, false))
  {
    var key := Key(repo, before, head);
    var first := FetchCompareTotals(repo, before, head, cache, now, reply).value;
    assert first.cache[key].updatedAt == now;
  }
}

=== FILE: day_buckets.dfy ===
/** Day-bucketed views of per-day maps: the 35-day grass grid, the 14-point
    mate sparkline, the 35 daily stat records and the streak counter. A
    per-day map is keyed by UTC day index (see `Clock.DayKey`). */
module DayBuckets {
  import opened Clock

  const GRID_DAYS: nat := 35
  const SPARKLINE_POINTS: nat := 14

  /** `map.get(day) ?? 0`. */
  function Lookup(m: map<int, int>, day: int): int {
    if day in m then m[day] else 0
  }

  /** The values of `m` for the `n` consecutive days ending at `lastDay`,
      oldest first (the source's `for (offset = n - 1; offset >= 0; offset--)`). */
  function Window(m: map<int, int>, lastDay: int, n: nat): (r: seq<int>)
    decreases n
    ensures |r| == n
    ensures forall i :: 0 <= i < n ==> r[i] == Lookup(m, lastDay - (n - 1) + i)
  {
    if n == 0 then [] else Window(m, lastDay - 1, n - 1) + [Lookup(m, lastDay)]
  }

  /** `buildGrassGrid`: commit counts of the 35 UTC days ending today. */
  function GrassGrid(dayCounts: map<int, int>, now: int): (r: seq<int>)
    ensures |r| == GRID_DAYS
    ensures forall i :: 0 <= i < GRID_DAYS ==> r[i] == Lookup(dayCounts, DayKey(now) - 34 + i)
  {
    Window(dayCounts, DayKey(UtcDayStart(now)), GRID_DAYS)
  }

  /** `buildMateSparkline`: activity scores of the 14 UTC days ending today. */
  function MateSparkline(dayScores: map<int, int>, now: int): (r: seq<int>)
    ensures |r| == SPARKLINE_POINTS
    ensures forall i :: 0 <= i < SPARKLINE_POINTS ==> r[i] == Lookup(dayScores, DayKey(now) - 13 + i)
  {
    Window(dayScores, DayKey(UtcDayStart(now)), SPARKLINE_POINTS)
  }

  /** The grid holds 35 entries, oldest first, the last one today's count;
      a day missing from the map reads as 0. */
  lemma GrassGridLayout(dayCounts: map<int, int>, now: int)
    ensures |GrassGrid(dayCounts, now)| == 35
    ensures GrassGrid(dayCounts, now)[34] == Lookup(dayCounts, DayKey(now))
    ensures forall i :: 0 <= i < 35 ==>
      GrassGrid(dayCounts, now)[i] == Lookup(dayCounts, DayKey(now) - 34 + i)
    ensures forall i :: 0 <= i < 35 && DayKey(now) - 34 + i !in dayCounts ==>
      GrassGrid(dayCounts, now)[i] == 0
  {
  }

  /** One entry of `buildDailyStats`. */
  datatype DailyStat = DailyStat(date: int, commits: int, additions: int, deletions: int, change: int)

  /** `buildDailyStats` for the `n` days ending at `lastDay`. */
  function DailyStatsWindow(commits: map<int, int>, adds: map<int, int>, dels: map<int, int>,
                            lastDay: int, n: nat): (r: seq<DailyStat>)
    decreases n
    ensures |r| == n
    ensures forall i :: 0 <= i < n ==>
      var day := lastDay - (n - 1) + i;
      && r[i].date == day
      && r[i].commits == Lookup(commits, day)
      && r[i].additions == Lookup(adds, day)
      && r[i].deletions == Lookup(dels, day)
      && r[i].change == r[i].additions + r[i].deletions
  {
    if n == 0 then []
    else
      var a := Lookup(adds, lastDay);
      var d := Lookup(dels, lastDay);
      DailyStatsWindow(commits, adds, dels, lastDay - 1, n - 1)
        + [DailyStat(lastDay, Lookup(commits, lastDay), a, d, a + d)]
  }

  /** `buildDailyStats`: the 35 UTC days ending today. */
  function DailyStats(commits: map<int, int>, adds: map<int, int>, dels: map<int, int>, now: int): (r: seq<DailyStat>)
    ensures |r| == GRID_DAYS
    ensures forall i :: 0 <= i < GRID_DAYS ==>
      var day := DayKey(now) - 34 + i;
      r[i] == DailyStat(day, Lookup(commits, day), Lookup(adds, day), Lookup(dels, day),
                        Lookup(adds, day) + Lookup(dels, day))
  {
    DailyStatsWindow(commits, adds, dels, DayKey(UtcDayStart(now)), GRID_DAYS)
  }

  /** The grid and the daily stats describe the same 35 days: the grid entry
      for a day is that day's commit count in the stats, and the last record
      is today. */
  lemma GridMatchesDailyStats(commits: map<int, int>, adds: map<int, int>, dels: map<int, int>, now: int)
    ensures |DailyStats(commits, adds, dels, now)| == |GrassGrid(commits, now)| == 35
    ensures DailyStats(commits, adds, dels, now)[34].date == DayKey(now)
    ensures forall i :: 0 <= i < 35 ==>
      DailyStats(commits, adds, dels, now)[i].commits == GrassGrid(commits, now)[i]
  {
  }

  /** The days with a positive count. */
  function PositiveDays(m: map<int, int>): set<int> {
    set d | d in m && m[d] > 0
  }

  /** The days with a positive count up to and including `day`. */
  function PositiveDaysUpTo(m: map<int, int>, day: int): set<int> {
    set d | d in m && m[d] > 0 && d <= day
  }

  /** The count `daysAgo` days before `today`. */
  function CountDaysAgo(m: map<int, int>, today: int, daysAgo: int): int {
    Lookup(m, today - daysAgo)
  }

  lemma StepBack(m: map<int, int>, day: int)
    requires Lookup(m, day) > 0
    ensures day in PositiveDays(m)
    ensures |PositiveDaysUpTo(m, day - 1)| < |PositiveDaysUpTo(m, day)|
  {
    assert day in PositiveDaysUpTo(m, day);
    assert PositiveDaysUpTo(m, day - 1) == PositiveDaysUpTo(m, day) - {day};
  }

  lemma SubsetCardinality(a: set<int>, b: set<int>)
    requires a <= b
    ensures |a| <= |b|
  {
    assert b == a + (b - a);
  }

  /** `calculateStreak`: walks back from today's UTC midnight, one day at a
      time, while the day's count is positive. The result is the length of
      the run of positive days ending today. */
  method CalculateStreak(dayCounts: map<int, int>, now: int) returns (streak: nat)
    ensures forall j :: 0 <= j < streak ==> CountDaysAgo(dayCounts, DayKey(now), j) > 0
    ensures CountDaysAgo(dayCounts, DayKey(now), streak) <= 0
    ensures streak <= |PositiveDays(dayCounts)|
  {
    var cursorMs := UtcDayStart(now);
    ghost var today := DayKey(now);
    streak := 0;
    ghost var run: set<int> := {};
    while Lookup(dayCounts, DayKey(cursorMs)) > 0
      invariant cursorMs == (today - streak) * DAY_MS
      invariant DayKey(cursorMs) == today - streak
      invariant forall j :: 0 <= j < streak ==> CountDaysAgo(dayCounts, today, j) > 0
      invariant run <= PositiveDays(dayCounts) && |run| == streak
      invariant forall d :: d in run ==> d > today - streak
      decreases |PositiveDaysUpTo(dayCounts, DayKey(cursorMs))|
    {
      ghost var day := DayKey(cursorMs);
      StepBack(dayCounts, day);
      run := run + {day};
      streak := streak + 1;
      cursorMs := cursorMs - DAY_MS;
      assert cursorMs == (today - streak) * DAY_MS;
      DivExact(today - streak);
    }
    assert CountDaysAgo(dayCounts, today, streak) == Lookup(dayCounts, DayKey(cursorMs));
    SubsetCardinality(run, PositiveDays(dayCounts));
  }
}

=== FILE: device_flow.dfy ===
/** The client side of the OAuth 2.0 device authorization grant (RFC 8628)
    against GitHub: the endpoint URLs, the proxy fallback, the parsing of
    form- or JSON-encoded replies and the validation of the device-code and
    access-token responses. The HTTP exchange is an input: `post` says what
    each URL answered, `parseJson`, `parseForm` and `toNumber` stand for
    `JSON.parse`, `URLSearchParams` and `Number`. */
module DeviceFlow {
  import opened Wrappers
  import opened Text
  import opened JsNumber
  import Collections

  const DEVICE_CODE_PATH: string := "/login/device/code"
  const ACCESS_TOKEN_PATH: string := "/login/oauth/access_token"
  const PROXY_PREFIX: string := "/__github"
  const GITHUB_OAUTH_BASE_URL: string := "https://github.com"
  const DEFAULT_CLIENT_ID: string := "01ab8ac9400c4e429b23"
  const REQUESTED_SCOPE: string := "read:user"
  /** The grant type of the device access token request, section 3.4 of RFC 8628. */
  const DEVICE_CODE_GRANT_TYPE: string := "urn:ietf:params:oauth:grant-type:device_code"
  /** How much of a failed reply's body an error message quotes. */
  const BODY_EXCERPT: nat := 180

  /** `resolveOAuthUrls`: the GitHub URL alone inside the desktop shell,
      otherwise the development proxy first and GitHub second. */
  function ResolveOAuthUrls(path: string, isTauri: bool): (urls: seq<string>)
    ensures |urls| >= 1 && urls[|urls| - 1] == GITHUB_OAUTH_BASE_URL + path
    ensures isTauri <==> |urls| == 1
    ensures !isTauri ==> urls[0] == PROXY_PREFIX + path
  {
    var direct := GITHUB_OAUTH_BASE_URL + path;
    if isTauri then [direct] else [PROXY_PREFIX + path, direct]
  }

  /** Only the first of the URLs goes through the proxy. */
  lemma OnlyProxyUrlIsProxied(path: string, isTauri: bool)
    ensures var urls := ResolveOAuthUrls(path, isTauri);
      && !StartsWith(urls[|urls| - 1], PROXY_PREFIX)
      && (!isTauri ==> StartsWith(urls[0], PROXY_PREFIX))
  {
    var urls := ResolveOAuthUrls(path, isTauri);
    assert urls[|urls| - 1][0] == 'h';
    if !isTauri {
      assert urls[0][..|PROXY_PREFIX|] == PROXY_PREFIX;
    }
  }

  /** `resolveClientId`: a stored client id, trimmed, when it is not blank;
      otherwise the built-in one. */
  function ResolveClientId(stored: Option<string>): (id: string)
    ensures id != "" && IsTrimmed(id)
    ensures stored.Some? && Trim(stored.value) != "" ==> id == Trim(stored.value)
  {
    if stored.Some? && Trim(stored.value) != "" then Trim(stored.value) else DEFAULT_CLIENT_ID
  }

  type Form = seq<(string, string)>

  /** The form of the device authorization request. */
  function DeviceCodeForm(clientId: string): Form {
    [("client_id", clientId), ("scope", REQUESTED_SCOPE)]
  }

  /** The form of the device access token request. */
  function TokenForm(clientId: string, deviceCode: string): Form {
    [("client_id", clientId), ("device_code", deviceCode), ("grant_type", DEVICE_CODE_GRANT_TYPE)]
  }

  /** The token request carries the client id, the device code and the grant
      type RFC 8628 defines, each once. */
  lemma TokenFormFields(clientId: string, deviceCode: string)
    ensures var f := TokenForm(clientId, deviceCode);
      && ("grant_type", DEVICE_CODE_GRANT_TYPE) in f
      && ("device_code", deviceCode) in f
      && ("client_id", clientId) in f
      && forall i, j :: 0 <= i < j < |f| ==> f[i].0 != f[j].0
  {
  }

  /** Response headers in `Object.entries` order. */
  type Headers = seq<(string, string)>

  datatype Response = Response(status: int, headers: Option<Headers>, body: string)

  predicate NameMatches(header: (string, string), lowerName: string) {
    ToLower(header.0) == lowerName
  }

  function FindHeader(headers: Headers, lowerName: string): (v: string)
    ensures (forall k :: 0 <= k < |headers| ==> !NameMatches(headers[k], lowerName)) ==> v == ""
    ensures forall k :: (0 <= k < |headers| && NameMatches(headers[k], lowerName)
      && (forall j :: 0 <= j < k ==> !NameMatches(headers[j], lowerName))) ==> v == headers[k].1
  {
    if headers == [] then ""
    else if NameMatches(headers[0], lowerName) then headers[0].1
    else
      assert forall k :: 0 <= k < |headers[1..]| ==> headers[1..][k] == headers[k + 1];
      FindHeader(headers[1..], lowerName)
  }

  /** `getHeader`: the value of the first header whose name equals `name`
      ignoring ASCII case, or the empty string. */
  function GetHeader(headers: Option<Headers>, name: string): (v: string)
    ensures headers.None? ==> v == ""
    ensures headers.Some? ==> v == FindHeader(headers.value, ToLower(name))
    ensures headers.Some? && (forall k :: 0 <= k < |headers.value| ==> !NameMatches(headers.value[k], ToLower(name)))
      ==> v == ""
  {
    if headers.None? then "" else FindHeader(headers.value, ToLower(name))
  }

  lemma ToLowerIdempotent(s: string)
    ensures ToLower(ToLower(s)) == ToLower(s)
  {
    forall i | 0 <= i < |s| ensures ToLower(ToLower(s))[i] == ToLower(s)[i] {
      LowerCharFixes(s[i]);
    }
  }

  /** The case of the requested name does not matter. */
  lemma GetHeaderIgnoresCase(headers: Option<Headers>, name: string)
    ensures GetHeader(headers, name) == GetHeader(headers, ToLower(name))
  {
    ToLowerIdempotent(name);
  }

  /** `isLikelyHtmlResponse`: the content type mentions text/html, or the
      trimmed body opens an HTML document, ignoring ASCII case. */
  predicate IsLikelyHtml(response: Response) {
    var contentType := ToLower(GetHeader(response.headers, "content-type"));
    var body := ToLower(Trim(response.body));
    Contains(contentType, "text/html") || StartsWith(body, "<!doctype html") || StartsWith(body, "<html")
  }

  /** A JSON reply without an HTML content type is not taken for an HTML page. */
  lemma JsonReplyIsNotHtml(response: Response)
    requires Trim(response.body) != [] && Trim(response.body)[0] == '{'
    requires !Contains(ToLower(GetHeader(response.headers, "content-type")), "text/html")
    ensures !IsLikelyHtml(response)
  {
    var body := ToLower(Trim(response.body));
    assert body[0] == '{';
    DiffersAtStart(body, "<!doctype html");
    DiffersAtStart(body, "<html");
  }

  lemma DiffersAtStart(s: string, prefix: string)
    requires s != [] && prefix != [] && s[0] != prefix[0]
    ensures !StartsWith(s, prefix)
  {
    if |prefix| <= |s| {
      assert s[..|prefix|][0] == s[0];
    }
  }

  /** A JSON object's fields as the code reads them. */
  datatype Field = NumberField(n: Num) | StringField(s: string) | OtherField

  type Fields = map<string, Field>

  /** `parseNumberField`: a number as is, a string through `Number`, anything
      else (also a missing field) NaN. */
  function ParseNumberField(v: Option<Field>, toNumber: string -> Num): (n: Num)
    ensures IsFinite(n) ==> v.Some? && (v.value.NumberField? || v.value.StringField?)
    ensures v.Some? && v.value.NumberField? ==> n == v.value.n
    ensures v.Some? && v.value.StringField? ==> n == toNumber(v.value.s)
  {
    if v.None? then NaN
    else match v.value
      case NumberField(x) => x
      case StringField(s) => toNumber(s)
      case OtherField => NaN
  }

  /** What `JSON.parse` makes of a reply: not JSON, `null`, or a value whose
      fields are read (a scalar or an array has none of the fields read). */
  datatype JsonParse = NotJson | JsonNull | JsonValue(fields: Fields)

  /** A parsed reply: `null`, or an object. */
  datatype OAuthBody = NullBody | Object(fields: Fields)

  /** The failures of the device flow requests, one per message the code
      raises. `NullObject` is the type error raised when a reply parses to
      `null` and a field of it is read. */
  datatype FlowError =
    | ParseFailed
    | RequestFailedWith(message: string)
    | RequestFailedStatus(status: int)
    | RequestFailed
    | DeviceCodeHttp(status: int, excerpt: string)
    | TokenHttp(status: int, excerpt: string)
    | Described(description: string)
    | ErrorCode(code: string)
    | NullObject

  const TYPE_ERROR_TEXT: string := "TypeError"

  /** The message of the error each failure throws. For `NullObject` the
      text is the engine's and stands as a fixed placeholder here. */
  function Message(e: FlowError): string {
    match e
    case ParseFailed => "GitHub OAuth response parsing failed."
    case RequestFailedWith(m) => "GitHub 로그인 요청 실패: " + m
    case RequestFailedStatus(s) => "GitHub 로그인 요청 실패 (" + IntToString(s) + ")."
    case RequestFailed => "GitHub 로그인 요청 실패."
    case DeviceCodeHttp(s, b) => "Device code request failed (" + IntToString(s) + "). " + b
    case TokenHttp(s, b) => "Token polling failed (" + IntToString(s) + "). " + b
    case Described(d) => d
    case ErrorCode(c) => "GitHub 로그인 요청 실패: " + c
    case NullObject => TYPE_ERROR_TEXT
  }

  /** `Object.fromEntries`: every name present, and the value of its last
      entry, as a string. */
  function FromEntries(entries: seq<(string, string)>): (m: Fields)
    ensures m.Keys == set i | 0 <= i < |entries| :: entries[i].0
  {
    if entries == [] then map[]
    else
      var last := entries[|entries| - 1];
      var init := entries[..|entries| - 1];
      var m := FromEntries(init)[last.0 := StringField(last.1)];
      assert forall i :: 0 <= i < |init| ==> init[i] == entries[i];
      m
  }

  /** A name takes the value of its last entry. */
  lemma {:induction false} FromEntriesLastWins(entries: seq<(string, string)>, i: nat)
    requires i < |entries|
    requires forall j :: i < j < |entries| ==> entries[j].0 != entries[i].0
    ensures entries[i].0 in FromEntries(entries)
    ensures FromEntries(entries)[entries[i].0] == StringField(entries[i].1)
  {
    var init := entries[..|entries| - 1];
    if i < |entries| - 1 {
      assert init[i] == entries[i];
      FromEntriesLastWins(init, i);
    }
  }

  /** `parseOAuthBody`: the trimmed reply as JSON, else as a form when it
      contains '=' and yields at least one entry; a blank reply fails. */
  function ParseOAuthBody(body: string, parseJson: string -> JsonParse,
                          parseForm: string -> seq<(string, string)>): (r: Result<OAuthBody, FlowError>)
    ensures Trim(body) == "" ==> r == Err(ParseFailed)
    ensures Trim(body) != "" && parseJson(Trim(body)).NotJson? && '=' !in Trim(body)
      ==> r == Err(ParseFailed)
    ensures r.Err? ==> r.error == ParseFailed
    ensures r.Ok? && r.value.Object? && parseJson(Trim(body)).NotJson? ==>
      parseForm(Trim(body)) != [] && r.value.fields == FromEntries(parseForm(Trim(body)))
    ensures Trim(body) != "" && parseJson(Trim(body)).JsonValue? ==>
      r == Ok(Object(parseJson(Trim(body)).fields))
    ensures Trim(body) != "" && parseJson(Trim(body)).JsonNull? ==> r == Ok(NullBody)
    ensures Trim(body) != "" && parseJson(Trim(body)).NotJson? && '=' in Trim(body) ==>
      (r.Ok? <==> parseForm(Trim(body)) != [])
  {
    var trimmed := Trim(body);
    if trimmed == "" then Err(ParseFailed)
    else match parseJson(trimmed)
      case JsonNull => Ok(NullBody)
      case JsonValue(fields) => Ok(Object(fields))
      case NotJson =>
        if '=' !in trimmed then Err(ParseFailed)
        else
          var entries := parseForm(trimmed);
          if entries == [] then Err(ParseFailed) else Ok(Object(FromEntries(entries)))
  }

  /** What one URL gave: a response, or a thrown value (an `Error` with its
      message, or something else). */
  datatype Thrown = ThrownError(message: string) | ThrownValue

  datatype Attempt = Responded(response: Response) | Threw(thrown: Thrown)

  /** A proxy reply that is a 404 or an HTML page is passed over. */
  predicate Skipped(url: string, response: Response) {
    StartsWith(url, PROXY_PREFIX) && (response.status == 404 || IsLikelyHtml(response))
  }

  /** The response of `url` is the one returned. */
  predicate Answers(url: string, attempt: Attempt) {
    attempt.Responded? && !Skipped(url, attempt.response)
  }

  /** The error thrown once every URL failed. */
  function Exhausted(lastError: Option<Thrown>, lastStatus: Option<int>): FlowError {
    if lastError.Some? && lastError.value.ThrownError? then RequestFailedWith(lastError.value.message)
    else if lastStatus.Some? then RequestFailedStatus(lastStatus.value)
    else RequestFailed
  }

  /** The loop of `postWithFallback` from the first of `urls` on. */
  function PostFrom(urls: seq<string>, post: string -> Attempt,
                    lastError: Option<Thrown>, lastStatus: Option<int>): Result<Response, FlowError>
  {
    if urls == [] then Err(Exhausted(lastError, lastStatus))
    else match post(urls[0])
      case Threw(t) => PostFrom(urls[1..], post, Some(t), lastStatus)
      case Responded(response) =>
        if Skipped(urls[0], response) then PostFrom(urls[1..], post, lastError, Some(response.status))
        else Ok(response)
  }

  /** `postWithFallback`. */
  function PostWithFallback(urls: seq<string>, post: string -> Attempt): Result<Response, FlowError> {
    PostFrom(urls, post, None, None)
  }

  /** The value thrown by the last URL that threw. */
  function LastThrown(urls: seq<string>, post: string -> Attempt): Option<Thrown> {
    if urls == [] then None
    else
      var later := LastThrown(urls[1..], post);
      if later.Some? then later
      else if post(urls[0]).Threw? then Some(post(urls[0]).thrown)
      else None
  }

  /** The status of the last proxy reply passed over. */
  function LastSkippedStatus(urls: seq<string>, post: string -> Attempt): Option<int> {
    if urls == [] then None
    else
      var later := LastSkippedStatus(urls[1..], post);
      if later.Some? then later
      else if post(urls[0]).Responded? && Skipped(urls[0], post(urls[0]).response)
      then Some(post(urls[0]).response.status)
      else None
  }

  function Latest<T>(earlier: Option<T>, later: Option<T>): Option<T> {
    if later.Some? then later else earlier
  }

  /** The first URL whose response is not passed over supplies the result. */
  lemma {:induction false} PostReturnsFirstAnswer(urls: seq<string>, post: string -> Attempt,
                                                   lastError: Option<Thrown>, lastStatus: Option<int>, i: nat)
    requires i < |urls| && Answers(urls[i], post(urls[i]))
    requires forall j :: 0 <= j < i ==> !Answers(urls[j], post(urls[j]))
    ensures PostFrom(urls, post, lastError, lastStatus) == Ok(post(urls[i]).response)
    decreases i
  {
    if i > 0 {
      assert !Answers(urls[0], post(urls[0]));
      forall j | 0 <= j < i - 1 ensures !Answers(urls[1..][j], post(urls[1..][j])) {
        assert urls[1..][j] == urls[j + 1];
      }
      var nextError := if post(urls[0]).Threw? then Some(post(urls[0]).thrown) else lastError;
      var nextStatus := if post(urls[0]).Threw? then lastStatus else Some(post(urls[0]).response.status);
      PostFromPassesOver(urls, post, lastError, lastStatus);
      PostReturnsFirstAnswer(urls[1..], post, nextError, nextStatus, i - 1);
    }
  }

  /** When no URL answers, the error cites the last thrown `Error`, else the
      status of the last proxy reply passed over, else nothing. */
  lemma {:induction false} PostExhausted(urls: seq<string>, post: string -> Attempt,
                                          lastError: Option<Thrown>, lastStatus: Option<int>)
    requires forall j :: 0 <= j < |urls| ==> !Answers(urls[j], post(urls[j]))
    ensures PostFrom(urls, post, lastError, lastStatus)
         == Err(Exhausted(Latest(lastError, LastThrown(urls, post)),
                          Latest(lastStatus, LastSkippedStatus(urls, post))))
  {
    if urls != [] {
      assert !Answers(urls[0], post(urls[0]));
      forall j | 0 <= j < |urls[1..]| ensures !Answers(urls[1..][j], post(urls[1..][j])) {
        assert urls[1..][j] == urls[j + 1];
      }
      var nextError := if post(urls[0]).Threw? then Some(post(urls[0]).thrown) else lastError;
      var nextStatus := if post(urls[0]).Threw? then lastStatus else Some(post(urls[0]).response.status);
      PostFromPassesOver(urls, post, lastError, lastStatus);
      PostExhausted(urls[1..], post, nextError, nextStatus);
    }
  }

  /** A URL that does not answer hands on to the rest, recording what it
      threw or the status it was passed over with. */
  lemma PostFromPassesOver(urls: seq<string>, post: string -> Attempt,
                           lastError: Option<Thrown>, lastStatus: Option<int>)
    requires urls != [] && !Answers(urls[0], post(urls[0]))
    ensures PostFrom(urls, post, lastError, lastStatus)
         == PostFrom(urls[1..], post,
                     if post(urls[0]).Threw? then Some(post(urls[0]).thrown) else lastError,
                     if post(urls[0]).Threw? then lastStatus else Some(post(urls[0]).response.status))
  {
  }

  /** Without the proxy, or once the proxy is passed over, GitHub's own
      response is returned whatever its status. */
  lemma DirectReplyIsReturned(path: string, isTauri: bool, post: string -> Attempt)
    requires post(GITHUB_OAUTH_BASE_URL + path).Responded?
    ensures var urls := ResolveOAuthUrls(path, isTauri);
      PostWithFallback(urls, post).Ok?
  {
    var urls := ResolveOAuthUrls(path, isTauri);
    OnlyProxyUrlIsProxied(path, isTauri);
    var last := |urls| - 1;
    if exists j :: 0 <= j < last && Answers(urls[j], post(urls[j])) {
      assert Answers(urls[0], post(urls[0]));
      PostReturnsFirstAnswer(urls, post, None, None, 0);
    } else {
      PostReturnsFirstAnswer(urls, post, None, None, last);
    }
  }

  predicate Is2xx(status: int) {
    200 <= status < 300
  }

  /** A field read as a string: its value when it is one, else absent. */
  function StringOf(fields: Fields, name: string): (v: Option<string>)
    ensures v.Some? <==> name in fields && fields[name].StringField?
    ensures v.Some? ==> v.value == fields[name].s
  {
    if name in fields && fields[name].StringField? then Some(fields[name].s) else None
  }

  function FieldOf(fields: Fields, name: string): Option<Field> {
    if name in fields then Some(fields[name]) else None
  }

  /** The device authorization response, section 3.2 of RFC 8628. */
  datatype DeviceCode = DeviceCode(deviceCode: string, userCode: string, verificationUri: string,
                                   expiresIn: int, interval: int)

  /** The fields a usable device code needs: the three codes as non-empty
      strings and both durations finite numbers. */
  predicate ValidDeviceCode(f: Fields, toNumber: string -> Num) {
    && StringOf(f, "device_code").Some? && f["device_code"].s != ""
    && StringOf(f, "user_code").Some? && f["user_code"].s != ""
    && StringOf(f, "verification_uri").Some? && f["verification_uri"].s != ""
    && IsFinite(ParseNumberField(FieldOf(f, "expires_in"), toNumber))
    && IsFinite(ParseNumberField(FieldOf(f, "interval"), toNumber))
  }

  /** The validation in `requestDeviceCode` of the reply `postWithFallback`
      produced. */
  function RequestDeviceCode(reply: Result<Response, FlowError>, parseJson: string -> JsonParse,
                             parseForm: string -> seq<(string, string)>,
                             toNumber: string -> Num): (r: Result<DeviceCode, FlowError>)
    ensures reply.Err? ==> r == Err(reply.error)
    ensures reply.Ok? && !Is2xx(reply.value.status) ==>
      r == Err(DeviceCodeHttp(reply.value.status, Collections.Take(reply.value.body, BODY_EXCERPT)))
    ensures r.Ok? ==> reply.Ok? && Is2xx(reply.value.status)
    ensures r.Ok? ==> r.value.deviceCode != "" && r.value.userCode != "" && r.value.verificationUri != ""
    ensures reply.Ok? && Is2xx(reply.value.status) ==>
      var parsed := ParseOAuthBody(reply.value.body, parseJson, parseForm);
      && (parsed.Ok? && parsed.value.Object? ==>
        var f := parsed.value.fields;
        && (StringOf(f, "error_description").Some? ==> r == Err(Described(f["error_description"].s)))
        && (StringOf(f, "error_description").None? && StringOf(f, "error").Some? ==>
              r == Err(ErrorCode(f["error"].s)))
        && (r.Ok? ==> (IsFinite(ParseNumberField(FieldOf(f, "expires_in"), toNumber))
                       && IsFinite(ParseNumberField(FieldOf(f, "interval"), toNumber))))
        && (StringOf(f, "error_description").None? && StringOf(f, "error").None? ==>
              (r.Ok? <==> ValidDeviceCode(f, toNumber))
              && (r.Ok? ==> r.value == DeviceCode(f["device_code"].s, f["user_code"].s,
                                                  f["verification_uri"].s,
                                                  ParseNumberField(FieldOf(f, "expires_in"), toNumber).value,
                                                  ParseNumberField(FieldOf(f, "interval"), toNumber).value))))
      && (parsed.Ok? && parsed.value.NullBody? ==> r == Err(NullObject))
      && (parsed.Err? ==> r == Err(parsed.error))
  {
    if reply.Err? then Err(reply.error)
    else
      var response := reply.value;
      if !Is2xx(response.status) then
        Err(DeviceCodeHttp(response.status, Collections.Take(response.body, BODY_EXCERPT)))
      else match ParseOAuthBody(response.body, parseJson, parseForm)
        case Err(e) => Err(e)
        case Ok(NullBody) => Err(NullObject)
        case Ok(Object(f)) =>
          if StringOf(f, "error_description").Some? then Err(Described(f["error_description"].s))
          else if StringOf(f, "error").Some? then Err(ErrorCode(f["error"].s))
          else
            var deviceCode := StringOf(f, "device_code").GetOr("");
            var userCode := StringOf(f, "user_code").GetOr("");
            var verificationUri := StringOf(f, "verification_uri").GetOr("");
            var expiresIn := ParseNumberField(FieldOf(f, "expires_in"), toNumber);
            var interval := ParseNumberField(FieldOf(f, "interval"), toNumber);
            if deviceCode == "" || userCode == "" || verificationUri == ""
               || !IsFinite(expiresIn) || !IsFinite(interval)
            then Err(ParseFailed)
            else Ok(DeviceCode(deviceCode, userCode, verificationUri, expiresIn.value, interval.value))
  }

  /** The access token response of section 3.5 of RFC 8628, with only its
      string-valued fields kept. */
  datatype TokenResponse = TokenResponse(accessToken: Option<string>, tokenType: Option<string>,
                                         scope: Option<string>, error: Option<string>,
                                         errorDescription: Option<string>)

  /** JavaScript truthiness of an optional string. */
  predicate Truthy(v: Option<string>) {
    v.Some? && v.value != ""
  }

  /** The validation in `pollAccessToken` of the reply `postWithFallback`
      produced. */
  function PollAccessToken(reply: Result<Response, FlowError>, parseJson: string -> JsonParse,
                           parseForm: string -> seq<(string, string)>): (r: Result<TokenResponse, FlowError>)
    ensures reply.Err? ==> r == Err(reply.error)
    ensures reply.Ok? && !Is2xx(reply.value.status) ==>
      r == Err(TokenHttp(reply.value.status, Collections.Take(reply.value.body, BODY_EXCERPT)))
    ensures r.Ok? ==> reply.Ok? && Is2xx(reply.value.status)
    ensures r.Ok? ==> Truthy(r.value.accessToken) || Truthy(r.value.error)
    ensures r.Ok? ==>
      var parsed := ParseOAuthBody(reply.value.body, parseJson, parseForm);
      && parsed.Ok? && parsed.value.Object?
      && r.value == TokenResponse(StringOf(parsed.value.fields, "access_token"),
                                  StringOf(parsed.value.fields, "token_type"),
                                  StringOf(parsed.value.fields, "scope"),
                                  StringOf(parsed.value.fields, "error"),
                                  StringOf(parsed.value.fields, "error_description"))
    ensures reply.Ok? && Is2xx(reply.value.status) ==>
      var parsed := ParseOAuthBody(reply.value.body, parseJson, parseForm);
      && (parsed.Err? ==> r == Err(parsed.error))
      && (parsed.Ok? && parsed.value.NullBody? ==> r == Err(NullObject))
      && (parsed.Ok? && parsed.value.Object? ==>
            var f := parsed.value.fields;
            && (r.Ok? <==> Truthy(StringOf(f, "access_token")) || Truthy(StringOf(f, "error")))
            && (r.Err? ==> r == Err(ParseFailed)))
  {
    if reply.Err? then Err(reply.error)
    else
      var response := reply.value;
      if !Is2xx(response.status) then
        Err(TokenHttp(response.status, Collections.Take(response.body, BODY_EXCERPT)))
      else match ParseOAuthBody(response.body, parseJson, parseForm)
        case Err(e) => Err(e)
        case Ok(NullBody) => Err(NullObject)
        case Ok(Object(f)) =>
          var t := TokenResponse(StringOf(f, "access_token"), StringOf(f, "token_type"),
                                 StringOf(f, "scope"), StringOf(f, "error"),
                                 StringOf(f, "error_description"));
          if !Truthy(t.accessToken) && !Truthy(t.error) then Err(ParseFailed) else Ok(t)
  }

  /** A reply whose only string fields are non-string values is rejected. */
  lemma PollRejectsEmptyReply(reply: Result<Response, FlowError>, parseJson: string -> JsonParse,
                              parseForm: string -> seq<(string, string)>)
    requires reply.Ok? && Is2xx(reply.value.status)
    requires var parsed := ParseOAuthBody(reply.value.body, parseJson, parseForm);
      parsed.Ok? && parsed.value.Object?
      && StringOf(parsed.value.fields, "access_token").None?
      && StringOf(parsed.value.fields, "error").None?
    ensures PollAccessToken(reply, parseJson, parseForm) == Err(ParseFailed)
  {
  }
}

=== FILE: github_api.dfy ===
/** The shape of a GitHub REST reply as the reducers see it: a decoded body,
    or the error `githubRequest` throws. */
module GithubApi {
  import opened Wrappers

  /** What a failed request rejects with: an HTTP status for a non-2xx
      response, or a transport failure (the fetch itself rejected), which
      carries no status. */
  datatype RequestError = HttpStatus(code: int) | Transport

  type Reply<T> = Result<T, RequestError>

  /** A 403 or 404, which the compare and commit-detail stages skip instead
      of failing the whole aggregation. */
  predicate IsSkippable(e: RequestError) {
    e.HttpStatus? && (e.code == 403 || e.code == 404)
  }
}

=== FILE: js_number.dfy ===
/** JavaScript numbers as far as the modelled code inspects them: integral
    finite values, NaN and the two infinities. */
module JsNumber {
  import Text

  datatype Num = Finite(value: int) | NaN | PositiveInfinity | NegativeInfinity

  /** `Number.isFinite`. */
  predicate IsFinite(n: Num) {
    n.Finite?
  }

  /** `String(n)` for an integer. */
  function IntToString(n: int): (r: string)
    ensures r != ""
  {
    if n < 0 then "-" + Text.NatToString(-n) else Text.NatToString(n)
  }
}

=== FILE: login_screen.dfy ===
/** The derived values of the login screen: the countdown to the device
    code's expiry, its `MM:SS` text, the progress bar and the status line. */
module LoginScreen {
  import opened Wrappers
  import opened Text
  import opened Auth
  import DeviceFlow

  const MS_PER_SECOND: int := 1000
  const WAITING_TEXT: string := "승인 대기 중…"

  /** `getRemainingSeconds`: whole seconds from `now` to `expiresAt`, both in
      ms, rounded down and never negative. */
  function RemainingSeconds(expiresAt: int, now: int): (r: nat)
    ensures expiresAt - now < MS_PER_SECOND <==> r == 0
    ensures expiresAt - now >= 0 ==>
      r * MS_PER_SECOND <= expiresAt - now < (r + 1) * MS_PER_SECOND
  {
    var left := (expiresAt - now) / MS_PER_SECOND;
    if left > 0 then left else 0
  }

  /** The countdown never goes up as time passes. */
  lemma RemainingNeverGrows(expiresAt: int, now: int, later: int)
    requires now <= later
    ensures RemainingSeconds(expiresAt, later) <= RemainingSeconds(expiresAt, now)
  {
  }

  /** `String(n).padStart(2, '0')`: a single digit gets a leading zero. */
  function TwoDigits(n: nat): (r: string)
    ensures |r| >= 2 && (n < 100 ==> |r| == 2)
    ensures forall i :: 0 <= i < |r| ==> IsDigit(r[i])
  {
    var digits := NatToString(n);
    if n < 10 then ['0'] + digits
    else
      assert n < 100 ==> |NatToString(n / 10)| == 1;
      digits
  }

  /** The two-digit field is the decimal text padded to two places with '0'. */
  lemma TwoDigitsIsPadded(n: nat)
    ensures TwoDigits(n) == PadStart(NatToString(n), 2, '0')
  {
    if n < 10 {
      assert PadStart(NatToString(n), 2, '0') == ['0'] + NatToString(n);
    }
  }

  /** The two digits read back as `n`. */
  lemma TwoDigitsValue(n: nat)
    ensures DecimalValue(TwoDigits(n)) == n
  {
    var digits := NatToString(n);
    var r := PadStart(digits, 2, '0');
    if |digits| < 2 {
      assert r == seq(2 - |digits|, _ => '0') + digits;
      DecimalLeadingZeros(2 - |digits|, digits);
    }
    DecimalOfNatToString(n);
  }

  /** Whole minutes and leftover seconds of a second count, by repeated
      subtraction of a minute. */
  function MinutesSeconds(seconds: nat): (p: (nat, nat))
    ensures p.1 < 60 && 60 * p.0 + p.1 == seconds
    decreases seconds
  {
    if seconds < 60 then (0, seconds)
    else
      var p := MinutesSeconds(seconds - 60);
      (p.0 + 1, p.1)
  }

  /** The split is `Math.floor(seconds / 60)` and `seconds % 60`. */
  lemma MinutesSecondsIsDivision(seconds: nat)
    ensures MinutesSeconds(seconds) == (seconds / 60, seconds % 60)
  {
    var p := MinutesSeconds(seconds);
    assert 60 * p.0 + p.1 == seconds && 0 <= p.1 < 60;
  }

  /** Two digit fields around a colon, the second two characters long. */
  function Colon(m: string, s: string): (r: string)
    requires |s| == 2
    requires forall i :: 0 <= i < |m| ==> IsDigit(m[i])
    requires forall i :: 0 <= i < |s| ==> IsDigit(s[i])
    ensures |r| == |m| + 3 && r[|m|] == ':'
    ensures r[..|m|] == m && r[|m| + 1..] == s
    ensures forall i :: 0 <= i < |r| && i != |m| ==> IsDigit(r[i])
  {
    var r := m + [':'] + s;
    forall i | 0 <= i < |r| && i != |m| ensures IsDigit(r[i]) {
      if i < |m| { assert r[i] == m[i]; } else { assert r[i] == s[i - |m| - 1]; }
    }
    r
  }

  /** `mm:ss` for given minutes and seconds fields. */
  function ClockText(minutes: nat, secs: nat): (r: string)
    requires secs < 100
    ensures |r| >= 5 && r[|r| - 3] == ':'
    ensures forall i :: 0 <= i < |r| && i != |r| - 3 ==> IsDigit(r[i])
    ensures minutes < 100 ==> |r| == 5
    ensures r[..|r| - 3] == TwoDigits(minutes) && r[|r| - 2..] == TwoDigits(secs)
  {
    var m := TwoDigits(minutes);
    var s := TwoDigits(secs);
    var r := Colon(m, s);
    assert |r| - 3 == |m| && |s| == 2;
    assert r[..|m|] == m && r[|m| + 1..] == s;
    r
  }

  /** `formatRemaining`: minutes and seconds, each at least two digits,
      separated by a colon. */
  function FormatRemaining(seconds: nat): (r: string)
    ensures |r| >= 5 && r[|r| - 3] == ':'
    ensures forall i :: 0 <= i < |r| && i != |r| - 3 ==> IsDigit(r[i])
    ensures seconds < 6000 ==> |r| == 5
  {
    var p := MinutesSeconds(seconds);
    ClockText(p.0, p.1)
  }

  /** The minutes field of `mm:ss` reads back as the minutes. */
  lemma MinutesField(r: string, minutes: nat, secs: nat)
    requires secs < 100 && r == ClockText(minutes, secs)
    ensures |r| >= 5 && r[..|r| - 3] == TwoDigits(minutes)
    ensures DecimalValue(TwoDigits(minutes)) == minutes
  {
    TwoDigitsValue(minutes);
  }

  /** The seconds field of `mm:ss` reads back as the seconds. */
  lemma SecondsField(r: string, minutes: nat, secs: nat)
    requires secs < 100 && r == ClockText(minutes, secs)
    ensures |r| >= 5 && r[|r| - 2..] == TwoDigits(secs)
    ensures DecimalValue(TwoDigits(secs)) == secs
  {
    TwoDigitsValue(secs);
  }

  /** What reading `mm:ss` back gives: `seconds`, with the seconds field
      below sixty. */
  predicate ReadsBackAs(r: string, seconds: nat) {
    && |r| >= 5
    && (forall i :: 0 <= i < |r| - 3 ==> IsDigit(r[i]))
    && (forall i :: |r| - 2 <= i < |r| ==> IsDigit(r[i]))
    && DecimalValue(r[|r| - 2..]) < 60
    && 60 * DecimalValue(r[..|r| - 3]) + DecimalValue(r[|r| - 2..]) == seconds
  }

  lemma ClockTextReadsBack(r: string, minutes: nat, secs: nat, seconds: nat)
    requires secs < 60 && 60 * minutes + secs == seconds && r == ClockText(minutes, secs)
    ensures ReadsBackAs(r, seconds)
  {
    MinutesField(r, minutes, secs);
    SecondsField(r, minutes, secs);
  }

  /** Reading the text back gives the seconds: minutes times sixty plus a
      seconds field below sixty. */
  lemma FormatRemainingRoundTrip(seconds: nat)
    ensures ReadsBackAs(FormatRemaining(seconds), seconds)
  {
    var p := MinutesSeconds(seconds);
    ClockTextReadsBack(FormatRemaining(seconds), p.0, p.1, seconds);
  }

  /** `isWaiting`. */
  predicate IsWaiting(state: AuthState, info: Option<DeviceFlowInfo>) {
    state == DeviceFlowState && info.Some?
  }

  /** `progressPercent`: the share of the countdown left, in percent, or 0
      when not waiting or when the countdown started at zero. */
  function ProgressPercent(waiting: bool, remaining: nat, total: nat): (p: real)
    ensures 0.0 <= p <= 100.0
    ensures !waiting || total == 0 ==> p == 0.0
    ensures waiting && 0 < total && remaining <= total ==>
      p * (total as real) == (remaining as real) * 100.0
    ensures waiting && 0 < total && total <= remaining ==> p == 100.0
  {
    if !waiting || total <= 0 then 0.0
    else
      var share := (remaining as real / total as real) * 100.0;
      if share > 100.0 then 100.0 else share
  }

  /** The bar is full when the countdown starts and empty when it ends. */
  lemma ProgressFullThenEmpty(total: nat)
    requires total > 0
    ensures ProgressPercent(true, total, total) == 100.0
    ensures ProgressPercent(true, 0, total) == 0.0
  {
  }

  /** `statusText`: the error in the error state, the waiting text while
      waiting, otherwise nothing. */
  function StatusText(state: AuthState, error: Option<string>, info: Option<DeviceFlowInfo>): (t: string)
    ensures state == ErrorState && error.Some? && error.value != "" ==> t == error.value
    ensures !(state == ErrorState && error.Some? && error.value != "") ==>
      (t == WAITING_TEXT <==> IsWaiting(state, info)) && (t == "" <==> !IsWaiting(state, info))
  {
    if state == ErrorState && error.Some? && error.value != "" then error.value
    else if IsWaiting(state, info) then WAITING_TEXT
    else ""
  }

  /** The status line is shown exactly in the error state with a message or
      while waiting. */
  lemma StatusShownIff(state: AuthState, error: Option<string>, info: Option<DeviceFlowInfo>)
    ensures StatusText(state, error, info) != "" <==>
      (state == ErrorState && error.Some? && error.value != "") || IsWaiting(state, info)
  {
  }

  /** The screen right after `startLogin` received the device code: waiting,
      with the countdown from the code's lifetime. */
  lemma WaitingAfterDeviceCode(s: Session, device: DeviceFlow.DeviceCode, now: int, rounds: seq<Round>)
    requires device.expiresIn >= 0
    ensures var p := StartLogin(s, Ok(device), NoInterrupt, now, rounds);
      !p.done ==>
        && StatusText(p.session.state, p.session.error, p.session.info) == WAITING_TEXT
        && RemainingSeconds(p.session.info.value.expiresAt, now) == device.expiresIn
  {
  }
}

=== FILE: mate_metrics.dfy ===
/** `fetchMateMetrics`: each mate's recent push events, their diff totals
    through the compare cache, and the per-mate reduction. The events
    endpoint and the compare endpoint are function parameters; the worker
    pool runs sequentially, in index order. */
module MateMetrics {
  import opened Wrappers
  import opened Clock
  import opened GithubApi
  import opened DayBuckets
  import opened CompareCache
  import MatesStore
  import Collections

  /** A public event: its type, its creation time, and the optional repo
      name and push payload fields. */
  datatype PublicEvent = PublicEvent(eventType: string, createdAt: int, repo: Option<string>,
                                     before: Option<string>, head: Option<string>)

  predicate IsPush(e: PublicEvent) { e.eventType == "PushEvent" }

  /** A JavaScript-truthy optional string: present and non-empty. */
  predicate Truthy(o: Option<string>) { o.Some? && o.value != "" }

  predicate InWindow(e: PublicEvent, since: int) { IsPush(e) && e.createdAt >= since }

  /** The push events created at or after `since`, in event order. */
  function PushesSince(events: seq<PublicEvent>, since: int): (r: seq<PublicEvent>)
    ensures |r| <= |events|
    ensures forall i :: 0 <= i < |r| ==> InWindow(r[i], since) && r[i] in events
    ensures forall i :: 0 <= i < |events| && InWindow(events[i], since) ==> events[i] in r
  {
    if events == [] then []
    else
      var rest := PushesSince(events[1..], since);
      assert forall i :: 0 <= i < |events| - 1 ==> events[1..][i] == events[i + 1];
      if InWindow(events[0], since) then [events[0]] + rest else rest
  }

  /** The window filter works piece by piece, so it keeps event order: an
      event is kept exactly when it is a push created at or after `since`. */
  lemma {:induction false} PushesSinceInOrder(a: seq<PublicEvent>, b: seq<PublicEvent>, since: int)
    ensures PushesSince(a + b, since) == PushesSince(a, since) + PushesSince(b, since)
  {
    if a == [] {
      assert a + b == b;
    } else {
      assert (a + b)[0] == a[0] && (a + b)[1..] == a[1..] + b;
      PushesSinceInOrder(a[1..], b, since);
    }
  }

  lemma PushesSinceSingle(e: PublicEvent, since: int)
    ensures PushesSince([e], since) == if InWindow(e, since) then [e] else []
  {
    assert [e][1..] == [];
  }

  /** An event with a repo, a before SHA and a head SHA, all non-empty, and
      distinct SHAs: only these are compared. */
  predicate Comparable(e: PublicEvent) {
    Truthy(e.before) && Truthy(e.head) && Truthy(e.repo) && e.before.value != e.head.value
  }

  /** What the compare endpoint answers for (repo, before, head). */
  type CompareApi = (string, string, string) -> Reply<Option<seq<CompareFile>>>

  /** The compare endpoint's answer for a comparable event fails the
      whole sync: an error other than 403/404. */
  predicate FailsHard(e: PublicEvent, api: CompareApi) {
    Comparable(e) &&
    var rep := api(e.repo.value, e.before.value, e.head.value);
    rep.Err? && !IsSkippable(rep.error)
  }

  /** The triple the compare endpoint is asked about. */
  function ReplyFor(e: PublicEvent, api: CompareApi): Reply<Option<seq<CompareFile>>>
    requires Comparable(e)
  {
    api(e.repo.value, e.before.value, e.head.value)
  }

  /** An event the pool marks skipped when the cache does not answer for
      it: not comparable, or the compare endpoint answers 403 or 404. */
  predicate Skips(e: PublicEvent, api: CompareApi) {
    !Comparable(e) || (ReplyFor(e, api).Err? && IsSkippable(ReplyFor(e, api).error))
  }

  /** The mapper of the compare pool, for one event. */
  function CompareEvent(e: PublicEvent, cache: Cache, now: int, api: CompareApi): (r: Result<CompareCall, RequestError>)
    ensures !Comparable(e) ==> r == Ok(CompareCall(Totals(0, 0, true), cache, false))
    ensures r.Err? ==> FailsHard(e, api)
    ensures r.Ok? && r.value.totals.skipped ==> r.value.totals.additions == 0 && r.value.totals.deletions == 0
    ensures r.Ok? && r.value.totals.skipped ==> Skips(e, api)
    ensures Comparable(e) && ReplyFor(e, api).Ok? ==> r.Ok? && !r.value.totals.skipped
  {
    if !Comparable(e) then Ok(CompareCall(Totals(0, 0, true), cache, false))
    else
      var repo, before, head := e.repo.value, e.before.value, e.head.value;
      FetchTouchesOnlyItsKey(repo, before, head, cache, now, api(repo, before, head));
      FetchCompareTotals(repo, before, head, cache, now, api(repo, before, head))
  }

  /** The compare pool over the window's push events, threading the shared
      cache; the first failure rejects the pool. */
  function CompareAll(events: seq<PublicEvent>, cache: Cache, now: int, api: CompareApi)
    : (r: Result<(seq<Totals>, Cache), RequestError>)
    ensures r.Ok? ==> |r.value.0| == |events|
    ensures r.Ok? ==> forall i :: 0 <= i < |events| && !Comparable(events[i]) ==>
      r.value.0[i] == Totals(0, 0, true)
    ensures r.Ok? ==> forall i :: 0 <= i < |events| && r.value.0[i].skipped ==>
      r.value.0[i].additions == 0 && r.value.0[i].deletions == 0
    ensures r.Err? ==> exists i :: 0 <= i < |events| && FailsHard(events[i], api)
    ensures r.Ok? ==> forall i :: 0 <= i < |events| && r.value.0[i].skipped ==> Skips(events[i], api)
    ensures r.Ok? ==> forall i :: 0 <= i < |events| && Comparable(events[i]) && ReplyFor(events[i], api).Ok? ==>
      !r.value.0[i].skipped
  {
    if events == [] then Ok(([], cache))
    else
      match CompareEvent(events[0], cache, now, api)
      case Err(e) => Err(e)
      case Ok(call) =>
        match CompareAll(events[1..], call.cache, now, api)
        case Err(e) =>
          assert exists i :: 0 <= i < |events| - 1 && FailsHard(events[1..][i], api);
          var i :| 0 <= i < |events| - 1 && FailsHard(events[1..][i], api);
          assert events[1..][i] == events[i + 1];
          Err(e)
        case Ok((ts, c)) =>
          var r := [call.totals] + ts;
          assert forall i :: 1 <= i < |events| ==> r[i] == ts[i - 1] && events[i] == events[1..][i - 1];
          Ok((r, c))
  }

  /** The compare key of a comparable event. */
  function KeyOf(e: PublicEvent): string
    requires Comparable(e)
  {
    Key(e.repo.value, e.before.value, e.head.value)
  }

  /** Repository names and SHAs hold no ':', as GitHub's never do. */
  predicate ColonFree(events: seq<PublicEvent>) {
    forall i :: 0 <= i < |events| && Comparable(events[i]) ==>
      ':' !in events[i].repo.value && ':' !in events[i].before.value
  }

  /** Every fresh cache entry an event would hit was written from a
      successful compare of that event's triple. */
  predicate CacheAgrees(events: seq<PublicEvent>, cache: Cache, now: int, api: CompareApi) {
    forall i ::
      (0 <= i < |events| && Comparable(events[i]) && KeyOf(events[i]) in cache
       && IsFresh(cache[KeyOf(events[i])], now)) ==> ReplyFor(events[i], api).Ok?
  }

  /** When the cache agrees with the endpoint, a push is marked skipped
      exactly when it is not comparable or its compare answers 403 or 404:
      a cache hit never hides a skip. */
  lemma {:induction false} CompareAllSkipsExactly(events: seq<PublicEvent>, cache: Cache, now: int, api: CompareApi)
    requires ColonFree(events) && CacheAgrees(events, cache, now, api)
    requires CompareAll(events, cache, now, api).Ok?
    ensures forall i :: 0 <= i < |events| ==>
      (CompareAll(events, cache, now, api).value.0[i].skipped <==> Skips(events[i], api))
  {
    if events != [] {
      var e0 := events[0];
      var call := CompareEvent(e0, cache, now, api).value;
      var tail := events[1..];
      var ts := CompareAll(events, cache, now, api).value.0;
      assert call.totals == ts[0];
      assert call.totals.skipped <==> Skips(e0, api) by {
        if Comparable(e0) && Skips(e0, api) {
          assert !(KeyOf(e0) in cache && IsFresh(cache[KeyOf(e0)], now));
        }
      }
      CompareStepAgrees(events, cache, now, api);
      assert ColonFree(tail) by {
        forall j | 0 <= j < |tail| ensures tail[j] == events[j + 1] {}
      }
      CompareAllSkipsExactly(tail, call.cache, now, api);
      forall i | 1 <= i < |events|
        ensures ts[i].skipped <==> Skips(events[i], api)
      {
        assert tail[i - 1] == events[i];
        assert ts[i] == CompareAll(tail, call.cache, now, api).value.0[i - 1];
      }
    }
  }

  /** After the first event, the cache still agrees with the endpoint for
      the events that follow. */
  lemma CompareStepAgrees(events: seq<PublicEvent>, cache: Cache, now: int, api: CompareApi)
    requires events != [] && ColonFree(events) && CacheAgrees(events, cache, now, api)
    requires CompareEvent(events[0], cache, now, api).Ok?
    ensures CacheAgrees(events[1..], CompareEvent(events[0], cache, now, api).value.cache, now, api)
  {
    var e0 := events[0];
    var after := CompareEvent(e0, cache, now, api).value.cache;
    var tail := events[1..];
    forall j | 0 <= j < |tail| && Comparable(tail[j]) && KeyOf(tail[j]) in after
      && IsFresh(after[KeyOf(tail[j])], now)
      ensures ReplyFor(tail[j], api).Ok?
    {
      assert tail[j] == events[j + 1];
      var k := KeyOf(tail[j]);
      if Comparable(e0) && k == KeyOf(e0) {
        KeyInjective(e0.repo.value, e0.before.value, e0.head.value,
                     tail[j].repo.value, tail[j].before.value, tail[j].head.value);
      } else if Comparable(e0) {
        FetchTouchesOnlyItsKey(e0.repo.value, e0.before.value, e0.head.value, cache, now, ReplyFor(e0, api));
      }
    }
  }

  /** Summed additions, deletions and skipped count of the compare results. */
  datatype Sums = Sums(additions: nat, deletions: nat, skipped: nat)

  function SumTotals(ts: seq<Totals>): (r: Sums)
    ensures r.skipped <= |ts|
  {
    if ts == [] then Sums(0, 0, 0)
    else
      var p := SumTotals(ts[..|ts| - 1]);
      var t := ts[|ts| - 1];
      Sums(p.additions + t.additions, p.deletions + t.deletions, p.skipped + if t.skipped then 1 else 0)
  }

  function Plus(x: Sums, y: Sums): Sums {
    Sums(x.additions + y.additions, x.deletions + y.deletions, x.skipped + y.skipped)
  }

  /** The reduction adds up result by result: it distributes over
      concatenation, and one result contributes its totals and a skip
      count of 1 when skipped. */
  lemma {:induction false} SumTotalsAdds(a: seq<Totals>, b: seq<Totals>)
    ensures SumTotals(a + b) == Plus(SumTotals(a), SumTotals(b))
    decreases |b|
  {
    if b == [] {
      assert a + b == a;
      assert SumTotals(b) == Sums(0, 0, 0);
    } else {
      var n := |b| - 1;
      var s := a + b;
      var init, last := b[..n], b[n];
      assert s[..|s| - 1] == a + init;
      assert s[|s| - 1] == last;
      SumTotalsAdds(a, init);
      var p := SumTotals(a + init);
      var one := Sums(last.additions, last.deletions, if last.skipped then 1 else 0);
      assert SumTotals(s) == Plus(p, one);
      assert SumTotals(b) == Plus(SumTotals(init), one);
      PlusAssociative(SumTotals(a), SumTotals(init), one);
    }
  }

  lemma PlusAssociative(x: Sums, y: Sums, z: Sums)
    ensures Plus(Plus(x, y), z) == Plus(x, Plus(y, z))
  {
  }

  lemma SumTotalsSingle(t: Totals)
    ensures SumTotals([t]) == Sums(t.additions, t.deletions, if t.skipped then 1 else 0)
  {
    assert [t][..0] == [];
  }

  /** The number of events the pool would mark skipped. */
  function CountSkips(events: seq<PublicEvent>, api: CompareApi): nat {
    if events == [] then 0
    else (if Skips(events[0], api) then 1 else 0) + CountSkips(events[1..], api)
  }

  /** Results skipped exactly for the skipping events sum to that count. */
  lemma {:induction false} SkippedSumCounts(events: seq<PublicEvent>, ts: seq<Totals>, api: CompareApi)
    requires |ts| == |events|
    requires forall i :: 0 <= i < |events| ==> (ts[i].skipped <==> Skips(events[i], api))
    ensures SumTotals(ts).skipped == CountSkips(events, api)
  {
    if events != [] {
      assert ts == [ts[0]] + ts[1..];
      SumTotalsAdds([ts[0]], ts[1..]);
      SumTotalsSingle(ts[0]);
      forall i | 0 <= i < |events[1..]| ensures ts[1..][i].skipped <==> Skips(events[1..][i], api) {
        assert ts[1..][i] == ts[i + 1] && events[1..][i] == events[i + 1];
      }
      SkippedSumCounts(events[1..], ts[1..], api);
    }
  }

  /** A push's contribution to its day: its change total, or 1 when that
      total is 0. */
  function ActivityScore(t: Totals): (r: nat)
    ensures r >= 1
    ensures t.additions + t.deletions > 0 ==> r == t.additions + t.deletions
  {
    var change := t.additions + t.deletions;
    if change > 0 then change else 1
  }

  /** The `dayScores` map built by the `forEach` over the pushes. */
  function DayScores(pushes: seq<PublicEvent>, ts: seq<Totals>): map<int, int>
    requires |pushes| == |ts|
  {
    if pushes == [] then map[]
    else
      var n := |pushes| - 1;
      var m := DayScores(pushes[..n], ts[..n]);
      var day := DayKey(pushes[n].createdAt);
      m[day := Lookup(m, day) + ActivityScore(ts[n])]
  }

  /** Reference sum: the activity of the pushes created on `day`. */
  function DayTotal(pushes: seq<PublicEvent>, ts: seq<Totals>, day: int): int
    requires |pushes| == |ts|
  {
    if pushes == [] then 0
    else
      var n := |pushes| - 1;
      DayTotal(pushes[..n], ts[..n], day) + if DayKey(pushes[n].createdAt) == day then ActivityScore(ts[n]) else 0
  }

  /** The map holds, for every day, exactly the summed activity of that
      day's pushes (0 for a day without pushes). */
  lemma {:induction false} DayScoresAreDayTotals(pushes: seq<PublicEvent>, ts: seq<Totals>, day: int)
    requires |pushes| == |ts|
    ensures Lookup(DayScores(pushes, ts), day) == DayTotal(pushes, ts, day)
  {
    if pushes != [] {
      var n := |pushes| - 1;
      DayScoresAreDayTotals(pushes[..n], ts[..n], day);
    }
  }

  /** A day with a push has total activity at least 1. */
  lemma {:induction false} DayTotalOfPushDay(pushes: seq<PublicEvent>, ts: seq<Totals>, i: int)
    requires |pushes| == |ts| && 0 <= i < |pushes|
    ensures DayTotal(pushes, ts, DayKey(pushes[i].createdAt)) >= 1
  {
    var n := |pushes| - 1;
    var day := DayKey(pushes[i].createdAt);
    DayTotalNonNegative(pushes[..n], ts[..n], day);
    if i < n {
      assert pushes[..n][i] == pushes[i];
      DayTotalOfPushDay(pushes[..n], ts[..n], i);
    }
  }

  lemma {:induction false} DayTotalNonNegative(pushes: seq<PublicEvent>, ts: seq<Totals>, day: int)
    requires |pushes| == |ts|
    ensures DayTotal(pushes, ts, day) >= 0
  {
    if pushes != [] {
      var n := |pushes| - 1;
      DayTotalNonNegative(pushes[..n], ts[..n], day);
    }
  }

  /** The floor of the sparkline: a push inside the 14-day window makes its
      day's point at least 1. */
  lemma SparklineFloor(pushes: seq<PublicEvent>, ts: seq<Totals>, now: int, i: int)
    requires |pushes| == |ts| && 0 <= i < |pushes|
    requires DayKey(now) - 13 <= DayKey(pushes[i].createdAt) <= DayKey(now)
    ensures var line := MateSparkline(DayScores(pushes, ts), now);
      |line| == 14 && line[13 - (DayKey(now) - DayKey(pushes[i].createdAt))] >= 1
  {
    var day := DayKey(pushes[i].createdAt);
    DayScoresAreDayTotals(pushes, ts, day);
    DayTotalOfPushDay(pushes, ts, i);
    assert DayKey(UtcDayStart(now)) == DayKey(now);
  }

  /** `lastActivityAt`: the newest creation time of any push event (of
      the whole event page, not only the window). */
  function LatestPush(events: seq<PublicEvent>): (r: Option<int>)
    ensures r.None? <==> forall i :: 0 <= i < |events| ==> !IsPush(events[i])
    ensures r.Some? ==> exists i :: 0 <= i < |events| && IsPush(events[i]) && events[i].createdAt == r.value
    ensures r.Some? ==> forall i :: 0 <= i < |events| && IsPush(events[i]) ==> events[i].createdAt <= r.value
  {
    if events == [] then None
    else
      var n := |events| - 1;
      var p := LatestPush(events[..n]);
      assert forall i :: 0 <= i < n ==> events[..n][i] == events[i];
      if !IsPush(events[n]) then p
      else if p.None? || p.value < events[n].createdAt then Some(events[n].createdAt)
      else p
  }

  /** One entry of the mate metrics list. */
  datatype MateMetric = MateMetric(
    username: string, nickname: Option<string>,
    additions: nat, deletions: nat, changeScore: nat, net: int,
    lastActivityAt: Option<int>, sparkline: seq<int>,
    comparedEvents: nat, skippedEvents: nat)

  /** The mapper of the mate pool: one mate's metrics and the cache after
      its comparisons. A failing events request rejects, whatever its
      status. */
  function MateMetricFor(mate: MatesStore.Mate, events: Reply<seq<PublicEvent>>, cache: Cache,
                         now: int, since: int, api: CompareApi): (r: Result<(MateMetric, Cache), RequestError>)
    ensures events.Err? ==> r == Err(events.error)
    ensures r.Ok? ==> events.Ok? && var m := r.value.0;
      && m.username == mate.username && m.nickname == mate.nickname
      && m.comparedEvents + m.skippedEvents == |PushesSince(events.value, since)|
      && m.changeScore == m.additions + m.deletions
      && m.net == m.additions - m.deletions
      && |m.sparkline| == 14
      && m.lastActivityAt == LatestPush(events.value)
    ensures events.Ok? && r.Err? ==>
      exists i :: 0 <= i < |PushesSince(events.value, since)| && FailsHard(PushesSince(events.value, since)[i], api)
    ensures events.Ok? ==>
      var pushes := PushesSince(events.value, since);
      var pool := CompareAll(pushes, cache, now, api);
      && (r.Ok? <==> pool.Ok?)
      && (r.Ok? ==>
            var sums := SumTotals(pool.value.0);
            && r.value.0.additions == sums.additions && r.value.0.deletions == sums.deletions
            && r.value.0.skippedEvents == sums.skipped
            && r.value.0.sparkline == MateSparkline(DayScores(pushes, pool.value.0), now)
            && r.value.1 == pool.value.1)
  {
    match events
    case Err(e) => Err(e)
    case Ok(evs) =>
      var pushes := PushesSince(evs, since);
      match CompareAll(pushes, cache, now, api)
      case Err(e) => Err(e)
      case Ok((ts, c)) =>
        var sums := SumTotals(ts);
        var metric := MateMetric(
          mate.username, mate.nickname,
          sums.additions, sums.deletions, sums.additions + sums.deletions, sums.additions - sums.deletions,
          LatestPush(evs), MateSparkline(DayScores(pushes, ts), now),
          |ts| - sums.skipped, sums.skipped);
        Ok((metric, c))
  }

  /** With a cache that agrees with the endpoint, the skipped count is the
      number of window pushes that are not comparable or whose compare
      answers 403 or 404; the other pushes are the compared ones. */
  lemma MateSkipsCounted(mate: MatesStore.Mate, events: seq<PublicEvent>, cache: Cache,
                         now: int, since: int, api: CompareApi)
    requires ColonFree(PushesSince(events, since)) && CacheAgrees(PushesSince(events, since), cache, now, api)
    requires MateMetricFor(mate, Ok(events), cache, now, since, api).Ok?
    ensures var m := MateMetricFor(mate, Ok(events), cache, now, since, api).value.0;
      && m.skippedEvents == CountSkips(PushesSince(events, since), api)
      && m.comparedEvents == |PushesSince(events, since)| - CountSkips(PushesSince(events, since), api)
  {
    var pushes := PushesSince(events, since);
    CompareAllSkipsExactly(pushes, cache, now, api);
    SkippedSumCounts(pushes, CompareAll(pushes, cache, now, api).value.0, api);
  }

  /** A push event of `repo` from `before` to `head`. */
  function Push(repo: string, before: string, head: string): PublicEvent {
    PublicEvent("PushEvent", 0, Some(repo), Some(before), Some(head))
  }

  /** Five pushes of one repository from the same base to five heads. */
  function FivePushes(): seq<PublicEvent> {
    [Push("o/r", "b", "h1"), Push("o/r", "b", "h2"), Push("o/r", "b", "h3"),
     Push("o/r", "b", "h4"), Push("o/r", "b", "h5")]
  }

  /** The endpoint answers 403 for the second and fourth push and succeeds
      for the others. */
  predicate TwoForbidden(api: CompareApi) {
    && api("o/r", "b", "h2") == Err(HttpStatus(403)) && api("o/r", "b", "h4") == Err(HttpStatus(403))
    && api("o/r", "b", "h1").Ok? && api("o/r", "b", "h3").Ok? && api("o/r", "b", "h5").Ok?
  }

  /** Five pushes whose compares answer 403 twice and succeed otherwise:
      three compared, two skipped. */
  lemma {:induction false} FiveEventsTwoForbidden(mate: MatesStore.Mate, api: CompareApi)
    requires TwoForbidden(api)
    ensures var r := MateMetricFor(mate, Ok(FivePushes()), map[], 0, 0, api);
      r.Ok? && r.value.0.comparedEvents == 3 && r.value.0.skippedEvents == 2
  {
    FivePushesCount(api);
    FivePushesInWindow();
    FivePushesPool(api);
    MateSkipsCounted(mate, FivePushes(), map[], 0, 0, api);
  }

  /** The pool over the five pushes resolves, starting from an empty cache. */
  lemma FivePushesPool(api: CompareApi)
    requires TwoForbidden(api)
    ensures CompareAll(FivePushes(), map[], 0, api).Ok?
    ensures ColonFree(FivePushes()) && CacheAgrees(FivePushes(), map[], 0, api)
  {
    FivePushesCompare(api);
    PoolWithoutHardFailures(FivePushes(), map[], 0, api);
  }

  /** All five pushes fall inside a window starting at 0. */
  lemma FivePushesInWindow()
    ensures PushesSince(FivePushes(), 0) == FivePushes()
  {
    AllInWindow(FivePushes(), 0);
  }

  /** With no hard failure among the events, the pool resolves; an empty
      cache agrees with any endpoint. */
  lemma PoolWithoutHardFailures(events: seq<PublicEvent>, cache: Cache, now: int, api: CompareApi)
    requires forall i :: 0 <= i < |events| ==> !FailsHard(events[i], api)
    ensures CompareAll(events, cache, now, api).Ok?
    ensures cache == map[] ==> CacheAgrees(events, cache, now, api)
  {
  }

  lemma FivePushesCount(api: CompareApi)
    requires TwoForbidden(api)
    ensures CountSkips(FivePushes(), api) == 2
  {
    var e1, e2, e3 := Push("o/r", "b", "h1"), Push("o/r", "b", "h2"), Push("o/r", "b", "h3");
    var e4, e5 := Push("o/r", "b", "h4"), Push("o/r", "b", "h5");
    assert !Skips(e1, api) && Skips(e2, api) && !Skips(e3, api) && Skips(e4, api) && !Skips(e5, api);
    assert CountSkips([e5], api) == 0 by { CountSkipsCons(e5, [], api); }
    assert CountSkips([e4, e5], api) == 1 by { CountSkipsCons(e4, [e5], api); }
    assert CountSkips([e3, e4, e5], api) == 1 by { CountSkipsCons(e3, [e4, e5], api); }
    assert CountSkips([e2, e3, e4, e5], api) == 2 by { CountSkipsCons(e2, [e3, e4, e5], api); }
    CountSkipsCons(e1, [e2, e3, e4, e5], api);
  }

  /** None of the five fails hard, and their names hold no ':'. */
  lemma FivePushesCompare(api: CompareApi)
    requires TwoForbidden(api)
    ensures ColonFree(FivePushes())
    ensures forall i :: 0 <= i < |FivePushes()| ==> !FailsHard(FivePushes()[i], api)
  {
    var events := FivePushes();
    forall i | 0 <= i < |events|
      ensures events[i].repo == Some("o/r") && events[i].before == Some("b")
      ensures !FailsHard(events[i], api)
    {
      var h := events[i].head.value;
      assert h in {"h1", "h2", "h3", "h4", "h5"};
      assert events[i] == Push("o/r", "b", h);
    }
  }

  lemma CountSkipsCons(e: PublicEvent, rest: seq<PublicEvent>, api: CompareApi)
    ensures CountSkips([e] + rest, api) == (if Skips(e, api) then 1 else 0) + CountSkips(rest, api)
  {
    assert ([e] + rest)[1..] == rest;
  }

  /** Events all inside the window are all kept. */
  lemma {:induction false} AllInWindow(events: seq<PublicEvent>, since: int)
    requires forall i :: 0 <= i < |events| ==> InWindow(events[i], since)
    ensures PushesSince(events, since) == events
  {
    if events != [] {
      AllInWindow(events[1..], since);
      assert events == [events[0]] + events[1..];
    }
  }

  /** `fetchMateMetrics` before its final sort: the metrics of each mate in
      input order, and the cache to save, which is saved only when every
      mate succeeded. */
  function FetchMateMetrics(mates: seq<MatesStore.Mate>, eventsOf: string -> Reply<seq<PublicEvent>>,
                            cache: Cache, now: int, since: int, api: CompareApi)
    : (r: Result<(seq<MateMetric>, Cache), RequestError>)
    ensures r.Ok? ==> |r.value.0| == |mates|
    ensures r.Ok? ==> forall i :: 0 <= i < |mates| ==> r.value.0[i].username == mates[i].username
    ensures (exists i :: 0 <= i < |mates| && eventsOf(mates[i].username).Err?) ==> r.Err?
    ensures r.Ok? ==> forall i :: 0 <= i < |mates| ==> MetricOf(r.value.0[i], mates[i], eventsOf, now, since, api)
  {
    if mates == [] then Ok(([], cache))
    else
      match MateMetricFor(mates[0], eventsOf(mates[0].username), cache, now, since, api)
      case Err(e) => Err(e)
      case Ok((m, c)) =>
        match FetchMateMetrics(mates[1..], eventsOf, c, now, since, api)
        case Err(e) => Err(e)
        case Ok((ms, c2)) =>
          assert forall i :: 1 <= i < |mates| ==> mates[i] == mates[1..][i - 1];
          MetricsCons(mates, m, ms, cache, eventsOf, now, since, api);
          Ok(([m] + ms, c2))
  }

  /** The mate pool threads the cache: the second part of the mates starts
      from the cache the first part left, the first failure wins, and the
      metrics are the first part's followed by the second's. */
  lemma {:induction false} FetchMateMetricsAppend(a: seq<MatesStore.Mate>, b: seq<MatesStore.Mate>,
                                                  eventsOf: string -> Reply<seq<PublicEvent>>,
                                                  cache: Cache, now: int, since: int, api: CompareApi)
    ensures var x := FetchMateMetrics(a, eventsOf, cache, now, since, api);
      FetchMateMetrics(a + b, eventsOf, cache, now, since, api) ==
        if x.Err? then Err(x.error)
        else
          var y := FetchMateMetrics(b, eventsOf, x.value.1, now, since, api);
          if y.Err? then Err(y.error) else Ok((x.value.0 + y.value.0, y.value.1))
    decreases |a|
  {
    if a == [] {
      assert a + b == b;
      var y := FetchMateMetrics(b, eventsOf, cache, now, since, api);
      if y.Ok? {
        assert [] + y.value.0 == y.value.0;
      }
    } else {
      assert (a + b)[0] == a[0] && (a + b)[1..] == a[1..] + b;
      FetchMateMetricsCons(a + b, eventsOf, cache, now, since, api);
      FetchMateMetricsCons(a, eventsOf, cache, now, since, api);
      var first := MateMetricFor(a[0], eventsOf(a[0].username), cache, now, since, api);
      if first.Ok? {
        var c := first.value.1;
        FetchMateMetricsAppend(a[1..], b, eventsOf, c, now, since, api);
        var x' := FetchMateMetrics(a[1..], eventsOf, c, now, since, api);
        if x'.Ok? {
          var y := FetchMateMetrics(b, eventsOf, x'.value.1, now, since, api);
          if y.Ok? {
            Collections.AppendAssociative([first.value.0], x'.value.0, y.value.0);
          }
        }
      }
    }
  }

  /** One step of the mate pool: the first mate's metric from the incoming
      cache, then the other mates from the cache it leaves.This is the
      definition unfolded once, so its body is empty; the content lies in
      FetchMateMetricsAppend and FetchMateMetricsSingle, which it serves. */
  lemma FetchMateMetricsCons(mates: seq<MatesStore.Mate>, eventsOf: string -> Reply<seq<PublicEvent>>,
                             cache: Cache, now: int, since: int, api: CompareApi)
    requires mates != []
    ensures var first := MateMetricFor(mates[0], eventsOf(mates[0].username), cache, now, since, api);
      FetchMateMetrics(mates, eventsOf, cache, now, since, api) ==
        if first.Err? then Err(first.error)
        else
          var rest := FetchMateMetrics(mates[1..], eventsOf, first.value.1, now, since, api);
          if rest.Err? then Err(rest.error) else Ok(([first.value.0] + rest.value.0, rest.value.1))
  {
  }

  /** A single mate gets the mapper's metric, and the cache to save is the
      one the mapper returns. */
  lemma FetchMateMetricsSingle(mate: MatesStore.Mate, eventsOf: string -> Reply<seq<PublicEvent>>,
                               cache: Cache, now: int, since: int, api: CompareApi)
    ensures var first := MateMetricFor(mate, eventsOf(mate.username), cache, now, since, api);
      FetchMateMetrics([mate], eventsOf, cache, now, since, api) ==
        if first.Err? then Err(first.error) else Ok(([first.value.0], first.value.1))
  {
    FetchMateMetricsCons([mate], eventsOf, cache, now, since, api);
    assert [mate][1..] == [];
    var first := MateMetricFor(mate, eventsOf(mate.username), cache, now, since, api);
    if first.Ok? {
      assert [first.value.0] + [] == [first.value.0];
    }
  }

  /** The first mate's metric from the incoming cache, followed by metrics
      of the other mates. */
  lemma {:induction false} MetricsCons(mates: seq<MatesStore.Mate>, m: MateMetric, ms: seq<MateMetric>, cache: Cache,
                    eventsOf: string -> Reply<seq<PublicEvent>>, now: int, since: int, api: CompareApi)
    requires mates != [] && |ms| == |mates| - 1
    requires MateMetricFor(mates[0], eventsOf(mates[0].username), cache, now, since, api).Ok?
    requires MateMetricFor(mates[0], eventsOf(mates[0].username), cache, now, since, api).value.0 == m
    requires forall i :: 0 <= i < |ms| ==> MetricOf(ms[i], mates[1..][i], eventsOf, now, since, api)
    ensures forall i :: 0 <= i < |mates| ==> MetricOf(([m] + ms)[i], mates[i], eventsOf, now, since, api)
  {
    MetricOfWitness(mates[0], cache, eventsOf, now, since, api);
    Collections.ConsPairs(mates, m, ms, (x: MateMetric, mate: MatesStore.Mate) => MetricOf(x, mate, eventsOf, now, since, api));
  }

  lemma MetricOfWitness(mate: MatesStore.Mate, cache: Cache, eventsOf: string -> Reply<seq<PublicEvent>>,
                        now: int, since: int, api: CompareApi)
    requires MateMetricFor(mate, eventsOf(mate.username), cache, now, since, api).Ok?
    ensures MetricOf(MateMetricFor(mate, eventsOf(mate.username), cache, now, since, api).value.0,
                     mate, eventsOf, now, since, api)
  {
  }

  /** `m` is what the mate pool's mapper computes for `mate` from some
      cache; FetchMateMetricsAppend says which cache the pool uses. */
  ghost predicate MetricOf(m: MateMetric, mate: MatesStore.Mate, eventsOf: string -> Reply<seq<PublicEvent>>,
                     now: int, since: int, api: CompareApi) {
    exists c :: MateMetricFor(mate, eventsOf(mate.username), c, now, since, api).Ok?
      && MateMetricFor(mate, eventsOf(mate.username), c, now, since, api).value.0 == m
  }
}

=== FILE: mates_store.dfy ===
/** The persisted mate list (`matesStore`): sanitising, de-duplicating and
    the corrupt-storage path. Storage is the text under one key; what
    `JSON.parse` makes of it is the `Stored` input. */
module MatesStore {
  import opened Wrappers
  import opened Text
  import opened Usernames
  import Collections

  const MATES_KEY: string := "grassmate.mates"

  datatype Mate = Mate(username: string, nickname: Option<string>, avatarUrl: Option<string>, profileUrl: Option<string>)

  /** A property of a stored item: a string, absent, or some other JSON value. */
  datatype RawField = Str(s: string) | Missing | NonString

  /** An element of the stored array: an object, `null`, or another
      primitive (a number, a string, a boolean). */
  datatype RawItem =
    | ObjectItem(username: RawField, nickname: RawField, avatarUrl: RawField, profileUrl: RawField)
    | NullItem
    | PrimitiveItem

  /** The key's content: absent or empty, not JSON, JSON that `for…of`
      cannot iterate, or an iterable of items. */
  datatype Stored = Absent | Unparseable | NotIterable | Iterable(items: seq<RawItem>)

  /** An optional text field: kept trimmed when it is a non-blank string. */
  function OptionalText(f: RawField): (r: Option<string>)
    ensures r.Some? <==> f.Str? && Trim(f.s) != []
    ensures r.Some? ==> r.value == Trim(f.s) && r.value != [] && IsTrimmed(r.value)
  {
    if f.Str? && |Trim(f.s)| > 0 then Some(Trim(f.s)) else None
  }

  /** `sanitizeMate`; an item that is not an object has no string username. */
  function SanitizeMate(item: RawItem): (r: Option<Mate>)
    ensures r.None? <==> !item.ObjectItem? || !item.username.Str? || Normalize(item.username.s) == []
    ensures r.Some? ==>
      && r.value.username == Normalize(item.username.s)
      && r.value.nickname == OptionalText(item.nickname)
      && r.value.avatarUrl == OptionalText(item.avatarUrl)
      && r.value.profileUrl == OptionalText(item.profileUrl)
  {
    if !item.ObjectItem? || !item.username.Str? then None
    else
      var username := Normalize(item.username.s);
      if username == [] then None
      else Some(Mate(username, OptionalText(item.nickname), OptionalText(item.avatarUrl), OptionalText(item.profileUrl)))
  }

  /** The mates the sanitising loop keeps before de-duplication, in order. */
  function SanitizeAll(items: seq<RawItem>): (r: seq<Mate>)
    ensures |r| <= |items|
    ensures forall i :: 0 <= i < |r| ==> r[i].username != []
    ensures forall i :: 0 <= i < |items| && SanitizeMate(items[i]).Some? ==> SanitizeMate(items[i]).value in r
    ensures forall m :: m in r ==> exists i :: 0 <= i < |items| && SanitizeMate(items[i]) == Some(m)
  {
    var r := Collections.FilterMap(items, SanitizeMate);
    Collections.FilterMapPreserves(items, SanitizeMate, NamedMate);
    r
  }

  predicate NamedMate(m: Mate) { m.username != [] }

  /** Sanitising a concatenation sanitises each part in turn, so the kept
      mates stay in storage order. */
  lemma SanitizeAllAppend(a: seq<RawItem>, b: seq<RawItem>)
    ensures SanitizeAll(a + b) == SanitizeAll(a) + SanitizeAll(b)
    ensures SanitizeAll([]) == []
  {
    Collections.FilterMapAppend(a, b, SanitizeMate);
  }

  /** One item is kept exactly when `sanitizeMate` accepts it. */
  lemma SanitizeAllSingle(item: RawItem)
    ensures SanitizeAll([item]) == if SanitizeMate(item).Some? then [SanitizeMate(item).value] else []
  {
    Collections.FilterMapSingle(item, SanitizeMate);
  }

  function UsernameOf(m: Mate): string { m.username }

  /** The shared loop of `list` and `save`: sanitise, then keep the first
      mate of each username. */
  function SanitizeAndDedup(items: seq<RawItem>): (r: seq<Mate>)
    ensures forall i :: 0 <= i < |r| ==> r[i].username != []
    ensures forall i, j :: 0 <= i < j < |r| ==> r[i].username != r[j].username
    ensures KeepsFirstOfEach(SanitizeAll(items), r)
  {
    Collections.KeepFirstBySpec(SanitizeAll(items), UsernameOf);
    Collections.KeepFirstBy(SanitizeAll(items), UsernameOf)
  }

  /** `r` is the first mate of every username of `ms`, in the order the
      usernames first appear. */
  predicate KeepsFirstOfEach(ms: seq<Mate>, r: seq<Mate>) {
    && Collections.KeptFirst(ms, UsernameOf, r)
    && Collections.KeptInOrder(ms, UsernameOf, r)
    && Collections.KeepsEveryKey(ms, UsernameOf, r)
  }

  /** What `list` returns, and whether it removes the key. */
  datatype Listed = Listed(mates: seq<Mate>, removeKey: bool)

  predicate HasNull(items: seq<RawItem>) {
    exists i :: 0 <= i < |items| && items[i] == NullItem
  }

  /** `matesStore.list`: a null element makes reading its `username` throw,
      which lands in the same handler as corrupt JSON. */
  function List(stored: Stored): (r: Listed)
    ensures stored.Absent? ==> r == Listed([], false)
    ensures stored.Unparseable? || stored.NotIterable? ==> r == Listed([], true)
    ensures stored.Iterable? && HasNull(stored.items) ==> r == Listed([], true)
    ensures stored.Iterable? && !HasNull(stored.items) ==>
      !r.removeKey && KeepsFirstOfEach(SanitizeAll(stored.items), r.mates)
    ensures r.removeKey ==> r.mates == []
    ensures forall i :: 0 <= i < |r.mates| ==> r.mates[i].username != []
    ensures forall i, j :: 0 <= i < j < |r.mates| ==> r.mates[i].username != r.mates[j].username
  {
    match stored
    case Absent => Listed([], false)
    case Unparseable => Listed([], true)
    case NotIterable => Listed([], true)
    case Iterable(items) =>
      if HasNull(items) then Listed([], true) else Listed(SanitizeAndDedup(items), false)
  }

  function FieldOf(o: Option<string>): RawField {
    match o
    case None => Missing
    case Some(s) => Str(s)
  }

  /** A mate as an object of the stored array (`JSON.stringify` omits
      undefined fields). */
  function ToRaw(m: Mate): RawItem {
    ObjectItem(Str(m.username), FieldOf(m.nickname), FieldOf(m.avatarUrl), FieldOf(m.profileUrl))
  }

  function ToRawAll(ms: seq<Mate>): (r: seq<RawItem>)
    ensures |r| == |ms|
    ensures forall i :: 0 <= i < |r| ==> r[i] == ToRaw(ms[i])
  {
    Collections.Map(ms, ToRaw)
  }

  /** `matesStore.save`: the list it writes. */
  function Save(ms: seq<Mate>): (r: seq<Mate>)
    ensures |r| <= |ms|
    ensures KeepsFirstOfEach(SanitizeAll(ToRawAll(ms)), r)
    ensures forall i :: 0 <= i < |r| ==> r[i].username != []
    ensures forall i, j :: 0 <= i < j < |r| ==> r[i].username != r[j].username
  {
    SanitizeAndDedup(ToRawAll(ms))
  }

  /** The stored form of a written list. */
  function Encode(ms: seq<Mate>): Stored {
    Iterable(ToRawAll(ms))
  }

  /** A username the store can read back unchanged: normalising it once
      gives a trimmed name without a leading '@'. */
  predicate StableName(u: string) {
    IsTrimmed(Normalize(u)) && !StartsWith(Normalize(u), "@")
  }

  predicate StableItem(item: RawItem) {
    item.ObjectItem? && item.username.Str? && StableName(item.username.s)
  }

  /** A kept optional field is kept again, unchanged. */
  lemma OptionalTextStable(f: RawField)
    ensures OptionalText(FieldOf(OptionalText(f))) == OptionalText(f)
  {
    var o := OptionalText(f);
    if o.Some? {
      TrimOfTrimmed(o.value);
      assert FieldOf(o) == Str(o.value);
    }
  }

  /** A sanitised mate survives a second sanitising unchanged. */
  lemma ResanitizeStable(item: RawItem, m: Mate)
    requires SanitizeMate(item) == Some(m)
    requires StableItem(item)
    ensures SanitizeMate(ToRaw(m)) == Some(m)
  {
    var n := Normalize(item.username.s);
    assert m.username == n && n != [];
    NormalizeIdempotentIff(item.username.s);
    assert Normalize(n) == n;
    OptionalTextStable(item.nickname);
    OptionalTextStable(item.avatarUrl);
    OptionalTextStable(item.profileUrl);
    var raw := ToRaw(m);
    assert raw.username == Str(n);
  }

  /** A mate that sanitising returns unchanged. */
  predicate Fixed(m: Mate) {
    SanitizeMate(ToRaw(m)) == Some(m)
  }

  /** A mate sanitised from a mate with a stable name is fixed. */
  lemma SanitizedOnceIsFixed(m: Mate)
    requires StableName(m.username) && SanitizeMate(ToRaw(m)).Some?
    ensures Fixed(SanitizeMate(ToRaw(m)).value)
  {
    ResanitizeStable(ToRaw(m), SanitizeMate(ToRaw(m)).value);
  }

  /** What `save` writes consists of fixed mates when every name is stable. */
  lemma SavedAreFixed(ms: seq<Mate>)
    requires forall i :: 0 <= i < |ms| ==> StableName(ms[i].username)
    ensures forall i :: 0 <= i < |Save(ms)| ==> Fixed(Save(ms)[i])
  {
    var raw := ToRawAll(ms);
    forall i | 0 <= i < |raw| && SanitizeMate(raw[i]).Some?
      ensures Fixed(SanitizeMate(raw[i]).value)
    {
      SanitizedOnceIsFixed(ms[i]);
    }
    Collections.FilterMapPreserves(raw, SanitizeMate, Fixed);
    Collections.KeepFirstByPreserves(SanitizeAll(raw), UsernameOf, Fixed);
  }

  /** Reading back what `save` wrote returns the same list, provided every
      username is stable under a second normalisation. */
  lemma {:induction false} ListAfterSave(ms: seq<Mate>)
    requires forall i :: 0 <= i < |ms| ==> StableName(ms[i].username)
    ensures List(Encode(Save(ms))) == Listed(Save(ms), false)
  {
    SavedHasNoNull(Save(ms));
    SavedSanitizeBack(ms);
    SavedIsDeduplicated(ms);
  }

  /** A written list holds objects only. */
  lemma SavedHasNoNull(ms: seq<Mate>)
    ensures !HasNull(ToRawAll(ms))
  {
    var raw := ToRawAll(ms);
    forall i | 0 <= i < |raw| ensures raw[i] != NullItem {
      assert raw[i] == ToRaw(ms[i]);
    }
  }

  /** The written list has no repeated username left to drop. */
  lemma SavedIsDeduplicated(ms: seq<Mate>)
    ensures Collections.KeepFirstBy(Save(ms), UsernameOf) == Save(ms)
  {
    Collections.KeepFirstFromOfDistinct(Save(ms), UsernameOf, {});
  }

  /** Sanitising the written list again gives it back. */
  lemma {:induction false} SavedSanitizeBack(ms: seq<Mate>)
    requires forall i :: 0 <= i < |ms| ==> StableName(ms[i].username)
    ensures SanitizeAll(ToRawAll(Save(ms))) == Save(ms)
  {
    SavedAreFixed(ms);
    Collections.FilterMapOfInverse(Save(ms), SanitizeMate, ToRaw);
  }

  /** With a username that normalises to a name starting with '@', the
      round trip fails: "@@Foo" is saved as "@foo" and read back as "foo". */
  lemma {:induction false} ListAfterSaveNeedsStableNames()
    ensures var ms := [Mate("@@Foo", None, None, None)];
      Save(ms) == [Mate("@foo", None, None, None)] &&
      List(Encode(Save(ms))) == Listed([Mate("foo", None, None, None)], false)
  {
    NotIdempotentWitness();
    SaveOfOneMate("@@Foo", "@foo");
    ListOfOneMate("@foo", "foo");
  }

  /** A stored list of a single mate reads back as that mate under its
      normalised name. */
  lemma ListOfOneMate(u: string, n: string)
    requires Normalize(u) == n && n != []
    ensures List(Encode([Mate(u, None, None, None)])) == Listed([Mate(n, None, None, None)], false)
  {
    SaveOfOneMate(u, n);
    SavedHasNoNull([Mate(u, None, None, None)]);
  }

  /** A single mate whose name normalises to `n` is written as that one
      mate, renamed. */
  lemma SaveOfOneMate(u: string, n: string)
    requires Normalize(u) == n && n != []
    ensures Save([Mate(u, None, None, None)]) == [Mate(n, None, None, None)]
    ensures SanitizeAndDedup(ToRawAll([Mate(u, None, None, None)])) == [Mate(n, None, None, None)]
  {
    var k := Mate(n, None, None, None);
    SanitizeOneMate(u, n);
    Collections.KeepFirstFromOfDistinct([k], UsernameOf, {});
  }

  /** Sanitising the stored form of a single mate renames it. */
  lemma SanitizeOneMate(u: string, n: string)
    requires Normalize(u) == n && n != []
    ensures SanitizeAll(ToRawAll([Mate(u, None, None, None)])) == [Mate(n, None, None, None)]
  {
    var m := Mate(u, None, None, None);
    assert ToRawAll([m]) == [ToRaw(m)] by {
      assert |ToRawAll([m])| == 1;
    }
    SanitizeRenames(u, n);
    SanitizeAllSingle(ToRaw(m));
  }

  /** The stored form of a mate without optional fields sanitises to the
      mate under its normalised name. */
  lemma SanitizeRenames(u: string, n: string)
    requires Normalize(u) == n && n != []
    ensures SanitizeMate(ToRaw(Mate(u, None, None, None))) == Some(Mate(n, None, None, None))
  {
    var raw := ToRaw(Mate(u, None, None, None));
    assert raw == ObjectItem(Str(u), Missing, Missing, Missing);
    assert OptionalText(Missing) == None;
    var r := SanitizeMate(raw);
    assert r.Some? && r.value.username == n;
  }
}

=== FILE: my_grass.dfy ===
/** `fetchMyGrassMetrics`: the signed-in user's commits over their recently
    pushed public repositories, reduced to totals, per-day maps, the
    day/night split and per-repository stats. The three endpoints are
    function parameters, the local hour of a time is the `hourOf`
    parameter, and both worker pools run sequentially, in index order. */
module MyGrass {
  import opened Wrappers
  import opened Clock
  import opened GithubApi
  import opened DayBuckets
  import Collections

  /** A repository of the listing: full name, push time (absent when
      `pushed_at` is null or empty) and privacy flag. */
  datatype RepoSummary = RepoSummary(fullName: string, pushedAt: Option<int>, isPrivate: bool)

  predicate IsTarget(repo: RepoSummary, since: int) {
    !repo.isPrivate && repo.pushedAt.Some? && repo.pushedAt.value >= since
  }

  /** The repositories whose commits are fetched, in listing order. */
  function TargetRepos(repos: seq<RepoSummary>, since: int): (r: seq<RepoSummary>)
    ensures |r| <= |repos|
    ensures forall i :: 0 <= i < |r| ==> IsTarget(r[i], since) && r[i] in repos
    ensures forall i :: 0 <= i < |repos| && IsTarget(repos[i], since) ==> repos[i] in r
  {
    if repos == [] then []
    else
      var rest := TargetRepos(repos[1..], since);
      assert forall i :: 0 <= i < |repos| - 1 ==> repos[1..][i] == repos[i + 1];
      if IsTarget(repos[0], since) then [repos[0]] + rest else rest
  }

  /** The repository filter works piece by piece, so it keeps listing
      order: a repository is kept exactly when it is a target. */
  lemma {:induction false} TargetReposInOrder(a: seq<RepoSummary>, b: seq<RepoSummary>, since: int)
    ensures TargetRepos(a + b, since) == TargetRepos(a, since) + TargetRepos(b, since)
  {
    if a == [] {
      assert a + b == b;
    } else {
      assert (a + b)[0] == a[0] && (a + b)[1..] == a[1..] + b;
      TargetReposInOrder(a[1..], b, since);
    }
  }

  lemma TargetReposSingle(repo: RepoSummary, since: int)
    ensures TargetRepos([repo], since) == if IsTarget(repo, since) then [repo] else []
  {
    assert [repo][1..] == [];
  }

  /** A commit detail: optional stats and optional author date. */
  datatype CommitDetail = CommitDetail(additions: Option<nat>, deletions: Option<nat>, authorDate: Option<int>)

  /** A counted commit: its repository, line counts and the time it is
      bucketed by (the author date, or the time of the sync). */
  datatype Counted = Counted(repo: string, additions: nat, deletions: nat, date: int)

  /** The counted form of a commit detail: missing line counts are 0 and a
      missing author date is the time of the sync. */
  function CountedOf(repo: string, d: CommitDetail, now: int): (r: Counted)
    ensures r.repo == repo
    ensures d.additions.None? ==> r.additions == 0
    ensures d.additions.Some? ==> r.additions == d.additions.value
    ensures d.deletions.None? ==> r.deletions == 0
    ensures d.deletions.Some? ==> r.deletions == d.deletions.value
    ensures d.authorDate.None? ==> r.date == now
    ensures d.authorDate.Some? ==> r.date == d.authorDate.value
  {
    Counted(repo, d.additions.GetOr(0), d.deletions.GetOr(0), d.authorDate.GetOr(now))
  }

  type DetailApi = (string, string) -> Reply<CommitDetail>

  /** A detail request that fails the sync: an error other than 403/404. */
  predicate DetailFailsHard(repo: string, sha: string, detailOf: DetailApi) {
    detailOf(repo, sha).Err? && !IsSkippable(detailOf(repo, sha).error)
  }

  /** How many of the commits have a detail reply. */
  function AnsweredCount(repo: string, shas: seq<string>, detailOf: DetailApi): nat {
    if shas == [] then 0
    else (if detailOf(repo, shas[0]).Ok? then 1 else 0) + AnsweredCount(repo, shas[1..], detailOf)
  }

  /** The counted commit of an answered detail request; none for a failed one. */
  function CountedDetail(repo: string, detailOf: DetailApi, now: int): string -> Option<Counted> {
    sha => if detailOf(repo, sha).Ok? then Some(CountedOf(repo, detailOf(repo, sha).value, now)) else None
  }

  /** The inner pool of one repository: a 403/404 detail is skipped, any
      other failure rejects. */
  function CollectRepo(repo: string, shas: seq<string>, detailOf: DetailApi, now: int)
    : (r: Result<seq<Counted>, RequestError>)
    ensures r.Err? <==> exists i :: 0 <= i < |shas| && DetailFailsHard(repo, shas[i], detailOf)
    ensures r.Ok? ==> |r.value| == AnsweredCount(repo, shas, detailOf)
    ensures r.Ok? ==> forall i :: 0 <= i < |r.value| ==> r.value[i].repo == repo
    ensures r.Ok? ==> r.value == Collections.FilterMap(shas, CountedDetail(repo, detailOf, now))
  {
    if shas == [] then Ok([])
    else
      var rest := CollectRepo(repo, shas[1..], detailOf, now);
      assert forall i :: 1 <= i < |shas| ==> shas[i] == shas[1..][i - 1];
      match detailOf(repo, shas[0])
      case Err(e) =>
        if !IsSkippable(e) then Err(e) else rest
      case Ok(d) =>
        match rest
        case Err(e) => Err(e)
        case Ok(cs) => Ok([CountedOf(repo, d, now)] + cs)
  }

  /** A repository whose commit listing or one of whose details fails. */
  predicate RepoFailsHard(repo: RepoSummary, commitsOf: string -> Reply<seq<string>>, detailOf: DetailApi) {
    match commitsOf(repo.fullName)
    case Err(_) => true
    case Ok(shas) => exists i :: 0 <= i < |shas| && DetailFailsHard(repo.fullName, shas[i], detailOf)
  }

  /** The outer pool: the counted commits of every target repository, in
      order; a failing commit listing rejects whatever its status. */
  function Collect(repos: seq<RepoSummary>, commitsOf: string -> Reply<seq<string>>, detailOf: DetailApi, now: int)
    : (r: Result<seq<Counted>, RequestError>)
    ensures r.Err? <==> exists i :: 0 <= i < |repos| && RepoFailsHard(repos[i], commitsOf, detailOf)
    ensures r.Ok? ==> forall i :: 0 <= i < |r.value| ==> exists j :: 0 <= j < |repos| && r.value[i].repo == repos[j].fullName
  {
    if repos == [] then Ok([])
    else
      var rest := Collect(repos[1..], commitsOf, detailOf, now);
      assert forall i :: 1 <= i < |repos| ==> repos[i] == repos[1..][i - 1];
      match commitsOf(repos[0].fullName)
      case Err(e) => Err(e)
      case Ok(shas) =>
        match CollectRepo(repos[0].fullName, shas, detailOf, now)
        case Err(e) => Err(e)
        case Ok(cs) =>
          match rest
          case Err(e) => Err(e)
          case Ok(more) =>
            NamedAfterRepos(repos, cs, more);
            Ok(cs + more)
  }

  /** Commits of the first repository followed by commits named after the
      others are all named after one of the repositories. */
  lemma NamedAfterRepos(repos: seq<RepoSummary>, cs: seq<Counted>, more: seq<Counted>)
    requires repos != []
    requires forall i :: 0 <= i < |cs| ==> cs[i].repo == repos[0].fullName
    requires forall i :: 0 <= i < |more| ==> exists j :: 0 <= j < |repos[1..]| && more[i].repo == repos[1..][j].fullName
    ensures forall i :: 0 <= i < |cs + more| ==> exists j :: 0 <= j < |repos| && (cs + more)[i].repo == repos[j].fullName
  {
    forall i | 0 <= i < |cs + more|
      ensures exists j :: 0 <= j < |repos| && (cs + more)[i].repo == repos[j].fullName
    {
      var name := (cs + more)[i].repo;
      var j: int;
      if i < |cs| {
        assert (cs + more)[i] == cs[i];
        j := 0;
      } else {
        assert (cs + more)[i] == more[i - |cs|];
        var k :| 0 <= k < |repos[1..]| && more[i - |cs|].repo == repos[1..][k].fullName;
        j := k + 1;
      }
      assert 0 <= j < |repos| && name == repos[j].fullName;
    }
  }

  /** One step of the outer pool: the first repository's listing, then its
      inner pool, then the other repositories.This is the
      definition unfolded once, so its body is empty; the content lies in
      CollectAppend and CollectSingle, which it serves. */
  lemma CollectCons(repos: seq<RepoSummary>, commitsOf: string -> Reply<seq<string>>, detailOf: DetailApi, now: int)
    requires repos != []
    ensures var listed, rest := commitsOf(repos[0].fullName), Collect(repos[1..], commitsOf, detailOf, now);
      Collect(repos, commitsOf, detailOf, now) ==
        if listed.Err? then Err(listed.error)
        else
          var c := CollectRepo(repos[0].fullName, listed.value, detailOf, now);
          if c.Err? then c else if rest.Err? then rest else Ok(c.value + rest.value)
  {
  }

  /** The outer pool works repository by repository: the first part's
      failure wins, then the second's, and otherwise the counted commits are
      the first part's followed by the second's. */
  lemma {:induction false} CollectAppend(a: seq<RepoSummary>, b: seq<RepoSummary>,
                                         commitsOf: string -> Reply<seq<string>>, detailOf: DetailApi, now: int)
    ensures var x, y := Collect(a, commitsOf, detailOf, now), Collect(b, commitsOf, detailOf, now);
      Collect(a + b, commitsOf, detailOf, now) ==
        if x.Err? then x else if y.Err? then y else Ok(x.value + y.value)
  {
    if a == [] {
      assert a + b == b;
      assert Collect(a, commitsOf, detailOf, now) == Ok([]);
      var y := Collect(b, commitsOf, detailOf, now);
      if y.Ok? {
        assert [] + y.value == y.value;
      }
    } else {
      assert (a + b)[0] == a[0] && (a + b)[1..] == a[1..] + b;
      CollectCons(a + b, commitsOf, detailOf, now);
      CollectCons(a, commitsOf, detailOf, now);
      CollectAppend(a[1..], b, commitsOf, detailOf, now);
      var listed := commitsOf(a[0].fullName);
      if listed.Ok? {
        var c := CollectRepo(a[0].fullName, listed.value, detailOf, now);
        var x', y := Collect(a[1..], commitsOf, detailOf, now), Collect(b, commitsOf, detailOf, now);
        if c.Ok? && x'.Ok? && y.Ok? {
          Collections.AppendAssociative(c.value, x'.value, y.value);
        }
      }
    }
  }

  /** One repository contributes its listing's failure, or the inner pool's
      result over its listed commits. */
  lemma CollectSingle(repo: RepoSummary, commitsOf: string -> Reply<seq<string>>, detailOf: DetailApi, now: int)
    ensures commitsOf(repo.fullName).Err? ==>
      Collect([repo], commitsOf, detailOf, now) == Err(commitsOf(repo.fullName).error)
    ensures commitsOf(repo.fullName).Ok? ==>
      Collect([repo], commitsOf, detailOf, now) == CollectRepo(repo.fullName, commitsOf(repo.fullName).value, detailOf, now)
  {
    CollectCons([repo], commitsOf, detailOf, now);
    assert [repo][1..] == [];
    var listed := commitsOf(repo.fullName);
    if listed.Ok? {
      var c := CollectRepo(repo.fullName, listed.value, detailOf, now);
      if c.Ok? {
        assert c.value + [] == c.value;
      }
    }
  }

  /** An entry of `repoStats`. */
  datatype RepoStat = RepoStat(name: string, commits: nat, additions: nat, deletions: nat, change: nat)

  /** Where the stat of `name` sits, if any. */
  function FindStat(stats: seq<RepoStat>, name: string): (r: Option<nat>)
    ensures r.Some? ==> r.value < |stats| && stats[r.value].name == name
    ensures r.None? ==> forall j :: 0 <= j < |stats| ==> stats[j].name != name
  {
    if stats == [] then None
    else if stats[0].name == name then Some(0)
    else match FindStat(stats[1..], name)
      case None => None
      case Some(j) => Some(j + 1)
  }

  predicate DistinctNames(stats: seq<RepoStat>) {
    forall i, j :: 0 <= i < j < |stats| ==> stats[i].name != stats[j].name
  }

  predicate WellFormedStat(s: RepoStat) {
    s.commits >= 1 && s.change == s.additions + s.deletions
  }

  /** `repoStats.set(name, next)`: a known repository is updated in place,
      a new one is appended (a `Map` keeps insertion order). */
  function Bump(stats: seq<RepoStat>, c: Counted): (r: seq<RepoStat>)
    requires DistinctNames(stats)
    ensures DistinctNames(r)
    ensures (forall j :: 0 <= j < |stats| ==> WellFormedStat(stats[j])) ==>
      forall j :: 0 <= j < |r| ==> WellFormedStat(r[j])
    ensures FindStat(r, c.repo).Some?
    ensures forall name :: name != c.repo ==> FindStat(r, name) == FindStat(stats, name)
    ensures forall name :: name != c.repo && FindStat(stats, name).Some? ==>
      r[FindStat(r, name).value] == stats[FindStat(stats, name).value]
    ensures var k := FindStat(r, c.repo).value;
      match FindStat(stats, c.repo)
      case None => |r| == |stats| + 1 && r[k] == RepoStat(c.repo, 1, c.additions, c.deletions, c.additions + c.deletions)
      case Some(j) => (|r| == |stats| && k == j &&
        r[k] == RepoStat(c.repo, stats[j].commits + 1, stats[j].additions + c.additions,
                         stats[j].deletions + c.deletions, stats[j].change + c.additions + c.deletions))
  {
    match FindStat(stats, c.repo)
    case None =>
      var r := stats + [RepoStat(c.repo, 1, c.additions, c.deletions, c.additions + c.deletions)];
      FindStatAppend(stats, r[|stats|]);
      r
    case Some(j) =>
      var s := stats[j];
      var r := stats[j := RepoStat(c.repo, s.commits + 1, s.additions + c.additions,
                                   s.deletions + c.deletions, s.change + c.additions + c.deletions)];
      FindStatUpdate(stats, j, r[j]);
      r
  }

  lemma {:induction false} FindStatAppend(stats: seq<RepoStat>, s: RepoStat)
    requires FindStat(stats, s.name).None?
    ensures FindStat(stats + [s], s.name) == Some(|stats|)
    ensures forall name :: name != s.name ==> FindStat(stats + [s], name) == FindStat(stats, name)
  {
    if stats != [] {
      assert (stats + [s])[1..] == stats[1..] + [s];
      FindStatAppend(stats[1..], s);
    }
  }

  lemma {:induction false} FindStatUpdate(stats: seq<RepoStat>, j: nat, s: RepoStat)
    requires j < |stats| && stats[j].name == s.name && DistinctNames(stats)
    ensures forall name :: FindStat(stats[j := s], name) == FindStat(stats, name)
  {
    if stats != [] && j > 0 {
      assert stats[j := s][1..] == stats[1..][j - 1 := s];
      FindStatUpdate(stats[1..], j - 1, s);
    }
  }

  /** The running totals of the commit pool. */
  datatype Tally = Tally(
    additions: nat, deletions: nat, commitCount: nat, dayCommits: nat, nightCommits: nat,
    dayCounts: map<int, int>, dayAdditions: map<int, int>, dayDeletions: map<int, int>,
    repoStats: seq<RepoStat>)

  /** Daytime is the local hour in [6, 18). */
  predicate IsDaytime(hour: int) { 6 <= hour < 18 }

  function Add(m: map<int, int>, day: int, v: int): map<int, int> {
    m[day := Lookup(m, day) + v]
  }

  /** The reduction of the counted commits, in order. */
  function TallyOf(cs: seq<Counted>, hourOf: int -> int): (t: Tally)
    ensures t.commitCount == |cs|
    ensures t.dayCommits + t.nightCommits == t.commitCount
    ensures DistinctNames(t.repoStats)
    ensures forall j :: 0 <= j < |t.repoStats| ==> WellFormedStat(t.repoStats[j])
    ensures t.repoStats == [] <==> cs == []
  {
    if cs == [] then Tally(0, 0, 0, 0, 0, map[], map[], map[], [])
    else
      var n := |cs| - 1;
      var p := TallyOf(cs[..n], hourOf);
      var c := cs[n];
      var day := DayKey(c.date);
      var stats := Bump(p.repoStats, c);
      Tally(
        p.additions + c.additions, p.deletions + c.deletions, p.commitCount + 1,
        p.dayCommits + (if IsDaytime(hourOf(c.date)) then 1 else 0),
        p.nightCommits + (if IsDaytime(hourOf(c.date)) then 0 else 1),
        Add(p.dayCounts, day, 1), Add(p.dayAdditions, day, c.additions), Add(p.dayDeletions, day, c.deletions),
        stats)
  }

  /** Reference counts over the counted commits. */
  function CountOnDay(cs: seq<Counted>, day: int): nat {
    if cs == [] then 0 else CountOnDay(cs[..|cs| - 1], day) + if DayKey(cs[|cs| - 1].date) == day then 1 else 0
  }

  function TotalAdded(cs: seq<Counted>): nat {
    if cs == [] then 0 else TotalAdded(cs[..|cs| - 1]) + cs[|cs| - 1].additions
  }

  function TotalDeleted(cs: seq<Counted>): nat {
    if cs == [] then 0 else TotalDeleted(cs[..|cs| - 1]) + cs[|cs| - 1].deletions
  }

  function CountDaytime(cs: seq<Counted>, hourOf: int -> int): nat {
    if cs == [] then 0 else CountDaytime(cs[..|cs| - 1], hourOf) + if IsDaytime(hourOf(cs[|cs| - 1].date)) then 1 else 0
  }

  function CountInRepo(cs: seq<Counted>, name: string): nat {
    if cs == [] then 0 else CountInRepo(cs[..|cs| - 1], name) + if cs[|cs| - 1].repo == name then 1 else 0
  }

  function ChangeInRepo(cs: seq<Counted>, name: string): nat {
    if cs == [] then 0
    else
      var c := cs[|cs| - 1];
      ChangeInRepo(cs[..|cs| - 1], name) + (if c.repo == name then c.additions + c.deletions else 0)
  }

  /** Every counted commit lands in exactly one day bucket and exactly one
      of the day/night counters, and its lines are added to the totals. */
  lemma {:induction false} TallyCounts(cs: seq<Counted>, hourOf: int -> int, day: int)
    ensures Lookup(TallyOf(cs, hourOf).dayCounts, day) == CountOnDay(cs, day)
    ensures TallyOf(cs, hourOf).dayCommits == CountDaytime(cs, hourOf)
    ensures TallyOf(cs, hourOf).nightCommits == |cs| - CountDaytime(cs, hourOf)
    ensures TallyOf(cs, hourOf).additions == TotalAdded(cs)
    ensures TallyOf(cs, hourOf).deletions == TotalDeleted(cs)
  {
    TallyDays(cs, hourOf, day);
    TallyLines(cs, hourOf);
  }

  /** The per-day and day/night counts of the tally. */
  lemma {:induction false} TallyDays(cs: seq<Counted>, hourOf: int -> int, day: int)
    ensures Lookup(TallyOf(cs, hourOf).dayCounts, day) == CountOnDay(cs, day)
    ensures TallyOf(cs, hourOf).dayCommits == CountDaytime(cs, hourOf)
    ensures TallyOf(cs, hourOf).nightCommits == |cs| - CountDaytime(cs, hourOf)
  {
    if cs != [] {
      TallyDays(cs[..|cs| - 1], hourOf, day);
    }
  }

  /** The line totals of the tally. */
  lemma {:induction false} TallyLines(cs: seq<Counted>, hourOf: int -> int)
    ensures TallyOf(cs, hourOf).additions == TotalAdded(cs)
    ensures TallyOf(cs, hourOf).deletions == TotalDeleted(cs)
  {
    if cs != [] {
      TallyLines(cs[..|cs| - 1], hourOf);
    }
  }

  /** A repository has a stat exactly when it has counted commits, and the
      stat holds their number and their summed change. */
  lemma {:induction false} TallyRepoStats(cs: seq<Counted>, hourOf: int -> int, name: string)
    ensures var stats := TallyOf(cs, hourOf).repoStats;
      match FindStat(stats, name)
      case None => CountInRepo(cs, name) == 0 && ChangeInRepo(cs, name) == 0
      case Some(k) => stats[k].commits == CountInRepo(cs, name) && stats[k].change == ChangeInRepo(cs, name)
  {
    if cs != [] {
      var n := |cs| - 1;
      TallyRepoStats(cs[..n], hourOf, name);
      var p := TallyOf(cs[..n], hourOf).repoStats;
      var c := cs[n];
      var stats := Bump(p, c);
      assert stats == TallyOf(cs, hourOf).repoStats;
      if name != c.repo {
        assert CountInRepo(cs, name) == CountInRepo(cs[..n], name);
        assert ChangeInRepo(cs, name) == ChangeInRepo(cs[..n], name);
        assert FindStat(stats, name) == FindStat(p, name);
        if FindStat(p, name).Some? {
          assert stats[FindStat(stats, name).value] == p[FindStat(p, name).value];
        }
      } else {
        assert CountInRepo(cs, name) == CountInRepo(cs[..n], name) + 1;
        assert ChangeInRepo(cs, name) == ChangeInRepo(cs[..n], name) + c.additions + c.deletions;
        var k := FindStat(stats, name).value;
        match FindStat(p, name)
        case None =>
          assert stats[k] == RepoStat(c.repo, 1, c.additions, c.deletions, c.additions + c.deletions);
        case Some(j) =>
          assert stats[k].commits == p[j].commits + 1;
          assert stats[k].change == p[j].change + c.additions + c.deletions;
      }
    }
  }

  /** `b` sorts strictly before `a` is false and `a` before `b` is true:
      more change, or equal change and more commits. */
  predicate Better(a: RepoStat, b: RepoStat) {
    a.change > b.change || (a.change == b.change && a.commits > b.commits)
  }

  /** The head of the stable sort by change, then commits, both descending:
      the first entry no other entry beats. */
  function TopRepo(stats: seq<RepoStat>): (r: Option<RepoStat>)
    ensures r.None? <==> stats == []
    ensures r.Some? ==> forall j :: 0 <= j < |stats| ==> !Better(stats[j], r.value)
    ensures r.Some? ==> exists k :: (0 <= k < |stats| && stats[k] == r.value &&
      forall j :: 0 <= j < k ==> Better(r.value, stats[j]))
  {
    if stats == [] then None
    else
      var n := |stats| - 1;
      var p := TopRepo(stats[..n]);
      var last := stats[n];
      assert forall j :: 0 <= j < n ==> stats[..n][j] == stats[j];
      if p.None? then
        assert stats[..n] == [];
        Some(last)
      else if Better(last, p.value) then Some(last)
      else
        var k :| 0 <= k < n && stats[..n][k] == p.value && forall j :: 0 <= j < k ==> Better(p.value, stats[..n][j]);
        assert stats[k] == p.value;
        p
  }

  /** The metrics the My tab shows. */
  datatype MyGrassMetrics = MyGrassMetrics(
    additions: nat, deletions: nat, changeScore: nat, net: int, commitCount: nat,
    grid: seq<int>, streakDays: nat, dailyStats: seq<DailyStat>, topRepo: Option<RepoStat>,
    dayCommits: nat, nightCommits: nat)

  /** `fetchMyGrassMetrics`. A failing repository listing rejects. */
  method FetchMyGrassMetrics(repos: Reply<seq<RepoSummary>>, commitsOf: string -> Reply<seq<string>>,
                             detailOf: DetailApi, hourOf: int -> int, now: int, since: int)
    returns (r: Result<MyGrassMetrics, RequestError>)
    ensures repos.Err? ==> r == Err(repos.error)
    ensures repos.Ok? ==> (r.Err? <==> Collect(TargetRepos(repos.value, since), commitsOf, detailOf, now).Err?)
    ensures r.Ok? ==> var m := r.value;
      && m.changeScore == m.additions + m.deletions && m.net == m.additions - m.deletions
      && m.dayCommits + m.nightCommits == m.commitCount
      && (m.topRepo.None? <==> m.commitCount == 0)
      && (m.topRepo.Some? ==> m.topRepo.value.change == m.topRepo.value.additions + m.topRepo.value.deletions)
      && |m.grid| == 35 && |m.dailyStats| == 35
      && (m.streakDays > 0 ==> m.grid[34] > 0)
    ensures r.Ok? ==> repos.Ok? && Collect(TargetRepos(repos.value, since), commitsOf, detailOf, now).Ok?
    ensures r.Ok? ==>
      var cs := Collect(TargetRepos(repos.value, since), commitsOf, detailOf, now);
      var t := TallyOf(cs.value, hourOf);
      var m := r.value;
      && m.additions == t.additions && m.deletions == t.deletions && m.commitCount == |cs.value|
      && m.dayCommits == t.dayCommits && m.nightCommits == t.nightCommits
      && m.grid == GrassGrid(t.dayCounts, now)
      && m.dailyStats == DailyStats(t.dayCounts, t.dayAdditions, t.dayDeletions, now)
      && m.topRepo == TopRepo(t.repoStats)
      && (forall j :: 0 <= j < m.streakDays ==> CountDaysAgo(t.dayCounts, DayKey(now), j) > 0)
      && CountDaysAgo(t.dayCounts, DayKey(now), m.streakDays) <= 0
  {
    if repos.Err? {
      return Err(repos.error);
    }
    var targets := TargetRepos(repos.value, since);
    var collected := Collect(targets, commitsOf, detailOf, now);
    if collected.Err? {
      return Err(collected.error);
    }
    var t := TallyOf(collected.value, hourOf);
    var streak := CalculateStreak(t.dayCounts, now);
    var top := TopRepo(t.repoStats);
    if top.Some? {
      var k :| 0 <= k < |t.repoStats| && t.repoStats[k] == top.value;
      assert WellFormedStat(t.repoStats[k]);
    }
    GrassGridLayout(t.dayCounts, now);
    if streak > 0 {
      assert CountDaysAgo(t.dayCounts, DayKey(now), 0) > 0;
    }
    GridMatchesDailyStats(t.dayCounts, t.dayAdditions, t.dayDeletions, now);
    return Ok(MyGrassMetrics(
      t.additions, t.deletions, t.additions + t.deletions, t.additions - t.deletions, t.commitCount,
      GrassGrid(t.dayCounts, now), streak, DailyStats(t.dayCounts, t.dayAdditions, t.dayDeletions, now),
      top, t.dayCommits, t.nightCommits));
  }
}

=== FILE: notifications.dfy ===
/** The in-app notification queue: numbered notices, newest last, at most
    three shown. */
module Notifications {

  const QUEUE_LIMIT: nat := 3
  const FIRST_ID: int := 1

  datatype Notice = Notice(id: int, title: string, message: string)

  /** The shown notices and the id the next notice receives. */
  datatype Queue = Queue(items: seq<Notice>, nextId: int)

  const Empty: Queue := Queue([], FIRST_ID)

  predicate IdsIncrease(items: seq<Notice>) {
    forall i, j :: 0 <= i < j < |items| ==> items[i].id < items[j].id
  }

  /** What every reachable queue satisfies: at most three notices, ids
      strictly increasing from oldest to newest, all below the next id. */
  predicate Valid(q: Queue) {
    && |q.items| <= QUEUE_LIMIT
    && IdsIncrease(q.items)
    && forall i :: 0 <= i < |q.items| ==> q.items[i].id < q.nextId
  }

  /** `slice(-n)`: the last `n` elements, or all of them. */
  function LastN<T>(s: seq<T>, n: nat): (r: seq<T>)
    ensures |r| == if |s| < n then |s| else n
    ensures r == s[|s| - |r|..]
  {
    if |s| <= n then s else s[|s| - n..]
  }

  /** The queue after `pushNotification`, and the id it gave the notice. */
  datatype Pushed = Pushed(queue: Queue, id: int)

  /** `pushNotification`: number the notice with the next id, append it and
      keep the last three. */
  function Push(q: Queue, title: string, message: string): (r: Pushed)
    ensures r.id == q.nextId && r.queue.nextId == q.nextId + 1
    ensures r.queue.items != [] && r.queue.items[|r.queue.items| - 1] == Notice(r.id, title, message)
    ensures |q.items| < QUEUE_LIMIT ==> r.queue.items == q.items + [Notice(r.id, title, message)]
    ensures |q.items| == QUEUE_LIMIT ==> r.queue.items == q.items[1..] + [Notice(r.id, title, message)]
    ensures Valid(q) ==> Valid(r.queue)
  {
    var id := q.nextId;
    var items := q.items + [Notice(id, title, message)];
    Pushed(Queue(LastN(items, QUEUE_LIMIT), id + 1), id)
  }

  /** `dismissNotification`: remove the notices with the given id. */
  function Dismiss(q: Queue, id: int): (r: Queue)
    ensures r.nextId == q.nextId
    ensures forall n :: n in r.items <==> n in q.items && n.id != id
    ensures |r.items| <= |q.items|
    ensures Valid(q) ==> Valid(r)
  {
    Queue(WithoutId(q.items, id), q.nextId)
  }

  function WithoutId(items: seq<Notice>, id: int): (r: seq<Notice>)
    ensures |r| <= |items|
    ensures forall n :: n in r <==> n in items && n.id != id
    ensures IdsIncrease(items) ==> IdsIncrease(r)
  {
    if items == [] then []
    else
      var rest := WithoutId(items[1..], id);
      assert items == [items[0]] + items[1..];
      if items[0].id == id then rest else [items[0]] + rest
  }

  /** The empty queue is valid, and every queue reached by pushes and
      dismissals from it stays valid. */
  lemma EmptyValid()
    ensures Valid(Empty)
  {
  }

  /** Ids handed out by successive pushes strictly increase. */
  lemma IdsStrictlyIncrease(q: Queue, t1: string, m1: string, t2: string, m2: string)
    ensures var first := Push(q, t1, m1);
      first.id < Push(first.queue, t2, m2).id
  {
  }

  /** Dismissing the notice just pushed onto a queue with room restores the
      shown notices. */
  lemma {:induction false} PushThenDismiss(q: Queue, title: string, message: string)
    requires Valid(q) && |q.items| < QUEUE_LIMIT
    ensures var p := Push(q, title, message);
      Dismiss(p.queue, p.id).items == q.items
  {
    var p := Push(q, title, message);
    WithoutNewest(q.items, Notice(p.id, title, message));
  }

  lemma {:induction false} WithoutNewest(items: seq<Notice>, n: Notice)
    requires forall i :: 0 <= i < |items| ==> items[i].id < n.id
    ensures WithoutId(items + [n], n.id) == items
  {
    if items == [] {
      assert WithoutId([n], n.id) == WithoutId([], n.id);
    } else {
      var all := items + [n];
      assert all[0] == items[0] && all[1..] == items[1..] + [n];
      assert items[0].id != n.id;
      forall i | 0 <= i < |items[1..]| ensures items[1..][i].id < n.id {
        assert items[1..][i] == items[i + 1];
      }
      WithoutNewest(items[1..], n);
      assert WithoutId(all, n.id) == [items[0]] + WithoutId(all[1..], n.id);
      assert items == [items[0]] + items[1..];
    }
  }
}

=== FILE: pinned.dfy ===
/** The pinned mates of the follow view: at most two normalised usernames,
    kept in local storage as a JSON array. */
module Pinned {
  import opened Wrappers
  import opened Usernames
  import opened AppStorage
  import Collections

  const PINNED_KEY: string := "grassmate.follow.pinned.v1"
  const PINNED_LIMIT: nat := 2

  /** A list the app can hold: within the cap, no name twice. */
  predicate WellFormed(pinned: seq<string>) {
    |pinned| <= PINNED_LIMIT && Collections.Distinct(pinned)
  }

  /** `filter(Boolean)` on strings: the empty string is dropped. */
  function NonEmpty(s: string): (r: Option<string>)
    ensures r.Some? <==> s != ""
    ensures r.Some? ==> r.value == s
  {
    if s == "" then None else Some(s)
  }

  function Same(s: string): string {
    s
  }

  /** The list `loadPinnedMateUsernames` returns, and whether it rewrites
      the stored item. */
  datatype Loaded = Loaded(pinned: seq<string>, rewrite: bool)

  /** `loadPinnedMateUsernames`: normalise each stored name, drop the empty
      ones, keep the first of each name, cut to two; rewrite the item when
      the result differs from what was stored. */
  function LoadPinned(stored: Option<string>, parse: string -> Parsed): (r: Loaded)
    ensures WellFormed(r.pinned)
    ensures var names := PinnableNames(stored, parse);
      && Collections.KeptFirst(names, Same, r.pinned)
      && Collections.KeptInOrder(names, Same, r.pinned)
      && Collections.PrefixClosed(names, Same, r.pinned)
    ensures |r.pinned| < PINNED_LIMIT ==>
      forall j :: 0 <= j < |PinnableNames(stored, parse)| ==> PinnableNames(stored, parse)[j] in r.pinned
    ensures forall i :: 0 <= i < |r.pinned| ==> r.pinned[i] != ""
    ensures forall i :: 0 <= i < |r.pinned| ==>
      r.pinned[i] in Collections.Map(ParseStoredStringArray(stored, parse), Normalize)
    ensures r.rewrite <==> ParseStoredStringArray(stored, parse) != r.pinned
  {
    var parsed := ParseStoredStringArray(stored, parse);
    var names := PinnableNames(stored, parse);
    var unique := Collections.KeepFirstBy(names, Same);
    var normalized := Collections.Take(unique, PINNED_LIMIT);
    LoadedNames(parsed, names, unique, normalized);
    FirstNamesKept(names, normalized);
    Loaded(normalized, !SameOrder(parsed, normalized))
  }

  /** The stored names, normalised, without the empty ones, in order. */
  function PinnableNames(stored: Option<string>, parse: string -> Parsed): seq<string> {
    Collections.FilterMap(Collections.Map(ParseStoredStringArray(stored, parse), Normalize), NonEmpty)
  }

  /** The first two distinct names are the first occurrences, in order;
      fewer than two means every name is among them. */
  lemma FirstNamesKept(names: seq<string>, kept: seq<string>)
    requires kept == Collections.Take(Collections.KeepFirstBy(names, Same), PINNED_LIMIT)
    ensures Collections.KeptFirst(names, Same, kept)
    ensures Collections.KeptInOrder(names, Same, kept)
    ensures Collections.PrefixClosed(names, Same, kept)
    ensures |kept| < PINNED_LIMIT ==> forall j :: 0 <= j < |names| ==> names[j] in kept
  {
    var unique := Collections.KeepFirstBy(names, Same);
    Collections.KeepFirstBySpec(names, Same);
    Collections.TakeOfKeptFirst(names, Same, unique, PINNED_LIMIT);
    if |kept| < PINNED_LIMIT {
      assert kept == unique;
      forall j | 0 <= j < |names| ensures names[j] in kept {
        var p :| 0 <= p < |unique| && Same(unique[p]) == Same(names[j]);
        assert kept[p] == names[j];
      }
    }
  }

  lemma LoadedNames(parsed: seq<string>, names: seq<string>, unique: seq<string>, kept: seq<string>)
    requires names == Collections.FilterMap(Collections.Map(parsed, Normalize), NonEmpty)
    requires unique == Collections.KeepFirstBy(names, Same)
    requires kept == Collections.Take(unique, PINNED_LIMIT)
    ensures WellFormed(kept)
    ensures forall i :: 0 <= i < |kept| ==> kept[i] != "" && kept[i] in Collections.Map(parsed, Normalize)
  {
    KeptPrefix(unique, kept);
    forall i | 0 <= i < |kept| ensures kept[i] != "" && kept[i] in Collections.Map(parsed, Normalize) {
      assert kept[i] in unique;
      NamedFromStored(parsed, names, kept[i]);
    }
  }

  /** A pinnable name is a non-empty normalised stored name. */
  lemma NamedFromStored(parsed: seq<string>, names: seq<string>, s: string)
    requires names == Collections.FilterMap(Collections.Map(parsed, Normalize), NonEmpty)
    requires s in names
    ensures s != "" && s in Collections.Map(parsed, Normalize)
  {
    var normalized := Collections.Map(parsed, Normalize);
    var k :| 0 <= k < |normalized| && NonEmpty(normalized[k]) == Some(s);
  }

  /** The first names of a list of pairwise different names. */
  lemma KeptPrefix(unique: seq<string>, kept: seq<string>)
    requires forall i, j :: 0 <= i < j < |unique| ==> Same(unique[i]) != Same(unique[j])
    requires kept == Collections.Take(unique, PINNED_LIMIT)
    ensures WellFormed(kept)
    ensures forall i :: 0 <= i < |kept| ==> kept[i] in unique
  {
    assert kept == unique[..|kept|];
    forall i | 0 <= i < |kept| ensures kept[i] == unique[i] {
      assert kept[i] == unique[..|kept|][i];
    }
  }

  /** A list the app wrote reads back unchanged and is not rewritten, when
      its names are already normalised and non-empty. */
  lemma LoadAfterWrite(pinned: seq<string>, text: string, parse: string -> Parsed)
    requires WellFormed(pinned)
    requires forall i :: 0 <= i < |pinned| ==> pinned[i] != "" && Normalize(pinned[i]) == pinned[i]
    requires text != "" && parse(text) == JsonArray(Collections.Map(pinned, AsJsonString))
    ensures LoadPinned(Some(text), parse) == Loaded(pinned, false)
  {
    StringArrayRoundTrip(pinned, text, parse);
    Collections.FilterMapOfInverse(pinned, NonEmpty, Normalize);
    Collections.KeepFirstFromOfDistinct(pinned, Same, {});
  }

  /** A stored list with a repeated name, a blank name or more than two
      names is always rewritten. */
  lemma LoadRewritesIrregular(stored: Option<string>, parse: string -> Parsed)
    requires var parsed := ParseStoredStringArray(stored, parse);
      || !Collections.Distinct(parsed)
      || "" in parsed
      || |parsed| > PINNED_LIMIT
    ensures LoadPinned(stored, parse).rewrite
  {
  }

  /** `filter(item => item !== name)`. */
  function Without(pinned: seq<string>, name: string): (r: seq<string>)
    ensures |r| <= |pinned| && name !in r
    ensures forall s :: s in r <==> s in pinned && s != name
    ensures Collections.Distinct(pinned) ==> Collections.Distinct(r)
    ensures name !in pinned ==> r == pinned
  {
    if pinned == [] then []
    else
      var rest := Without(pinned[1..], name);
      assert pinned == [pinned[0]] + pinned[1..];
      assert Collections.Distinct(pinned) ==> pinned[0] !in pinned[1..];
      if pinned[0] == name then rest else [pinned[0]] + rest
  }

  /** What a toggle leaves: the new list, and whether the "at most two"
      notice is shown. */
  datatype Toggled = Toggled(pinned: seq<string>, notice: bool)

  /** The state updater of the pin branch: it appends once, and only below
      the cap. */
  function AppendOnce(prev: seq<string>, name: string): (r: seq<string>)
    ensures name in prev || |prev| >= PINNED_LIMIT ==> r == prev
    ensures name !in prev && |prev| < PINNED_LIMIT ==> r == prev + [name]
  {
    if name in prev then prev
    else if |prev| >= PINNED_LIMIT then prev
    else prev + [name]
  }

  /** `handleTogglePinMate`: unpin a pinned mate, refuse with a notice when
      two are pinned, otherwise pin at the end. */
  function TogglePin(pinned: seq<string>, username: string): (r: Toggled)
    ensures var name := Normalize(username);
      && (name in pinned ==> r == Toggled(Without(pinned, name), false))
      && (name !in pinned && |pinned| >= PINNED_LIMIT ==> r == Toggled(pinned, true))
      && (name !in pinned && |pinned| < PINNED_LIMIT ==> r == Toggled(pinned + [name], false))
  {
    var name := Normalize(username);
    if name in pinned then Toggled(Without(pinned, name), false)
    else if |pinned| >= PINNED_LIMIT then Toggled(pinned, true)
    else Toggled(AppendOnce(pinned, name), false)
  }

  /** Toggling keeps the cap and the distinctness of the list, and it
      changes the list by the toggled name only. */
  lemma ToggleKeepsWellFormed(pinned: seq<string>, username: string)
    requires WellFormed(pinned)
    ensures WellFormed(TogglePin(pinned, username).pinned)
    ensures forall s :: s != Normalize(username) ==>
      (s in TogglePin(pinned, username).pinned <==> s in pinned)
  {
  }

  /** Pinning and then toggling the same mate again restores the list. */
  lemma ToggleTwiceRestores(pinned: seq<string>, username: string)
    requires Normalize(username) !in pinned && |pinned| < PINNED_LIMIT
    ensures TogglePin(TogglePin(pinned, username).pinned, username).pinned == pinned
  {
    var name := Normalize(username);
    WithoutLast(pinned, name);
  }

  lemma {:induction false} WithoutLast(pinned: seq<string>, name: string)
    requires name !in pinned
    ensures Without(pinned + [name], name) == pinned
  {
    if pinned == [] {
      assert Without([name], name) == Without([], name);
    } else {
      WithoutLast(pinned[1..], name);
      assert (pinned + [name])[1..] == pinned[1..] + [name];
      assert pinned == [pinned[0]] + pinned[1..];
    }
  }
}

=== FILE: rank_alert.dfy ===
/** The rank-alert gate of the leaderboard refresh: after a successful
    rank computation with at least one mate, the current top three is
    stored under a per-range key, and an overtake alert is raised only for
    a key seen before in this session, with alerts on, both lists full and
    their order changed. With no mates the refresh returns before the gate
    (src/app/LegacyApp.tsx:678-700), so nothing is stored or raised. */
module RankAlert {
  import opened Wrappers
  import opened Text
  import opened AppStorage
  import opened Ranking
  import Collections

  const SNAPSHOT_PREFIX: string := "grassmate.alert.rankTopThree."

  /** `getRankTopThreeSnapshotKey`. */
  function SnapshotKey(range: string): (k: string)
    ensures StartsWith(k, SNAPSHOT_PREFIX) && k[|SNAPSHOT_PREFIX|..] == range
  {
    SNAPSHOT_PREFIX + range
  }

  lemma SnapshotKeyInjective(a: string, b: string)
    requires SnapshotKey(a) == SnapshotKey(b)
    ensures a == b
  {
    assert a == SnapshotKey(a)[|SNAPSHOT_PREFIX|..];
  }

  /** The effect of one pass through the gate: the keys initialised this
      session, the snapshot written (key and list) and the alert raised. */
  datatype Gate = Gate(initialized: set<string>, snapshotKey: string, written: seq<string>,
                       alert: Option<Overtake>)

  /** The gate in `loadRankMetrics`. `stored` is the snapshot item as read
      before the write, `enabled` the rank-alert switch. */
  function RankAlertGate(initialized: set<string>, range: string, stored: Option<string>,
                         parse: string -> Parsed, current: seq<string>, enabled: bool): (g: Gate)
    ensures g.snapshotKey == SnapshotKey(range) && g.written == current
    ensures g.initialized == initialized + {SnapshotKey(range)}
    ensures SnapshotKey(range) !in initialized ==> g.alert.None?
    ensures var previous := ParseStoredStringArray(stored, parse);
      g.alert.Some? <==>
        && SnapshotKey(range) in initialized
        && enabled
        && |previous| == 3 && |current| == 3
        && previous != current
        && FirstTopThreeOvertake(previous, current).Some?
    ensures g.alert.Some? ==>
      g.alert == FirstTopThreeOvertake(ParseStoredStringArray(stored, parse), current)
  {
    var key := SnapshotKey(range);
    var previous := ParseStoredStringArray(stored, parse);
    if key in initialized then
      var alert :=
        if enabled && |previous| == 3 && |current| == 3 && !SameOrder(previous, current)
        then FirstTopThreeOvertake(previous, current)
        else None;
      Gate(initialized, key, current, alert)
    else
      Gate(initialized + {key}, key, current, None)
  }

  /** A second pass with the same top three, reading back the snapshot the
      first pass wrote, raises no alert. */
  lemma NoAlertWithoutChange(initialized: set<string>, range: string, stored: Option<string>,
                             parse: string -> Parsed, current: seq<string>, enabled: bool,
                             text: string)
    requires text != "" && parse(text) == JsonArray(Collections.Map(current, AsJsonString))
    ensures var first := RankAlertGate(initialized, range, stored, parse, current, enabled);
      RankAlertGate(first.initialized, range, Some(text), parse, current, enabled).alert.None?
  {
    StringArrayRoundTrip(current, text, parse);
  }

  /** The first pass for a range only initialises it; the second pass sees
      the written snapshot and reports a swap at the top. */
  lemma SwapAlertsOnSecondPass(range: string, stored: Option<string>, parse: string -> Parsed,
                               text: string)
    requires text != "" && parse(text) == JsonArray(Collections.Map(["a", "b", "c"], AsJsonString))
    ensures var first := RankAlertGate({}, range, stored, parse, ["a", "b", "c"], true);
      && first.alert.None?
      && RankAlertGate(first.initialized, range, Some(text), parse, ["b", "a", "c"], true).alert
         == Some(Overtake("b", "a"))
  {
    StringArrayRoundTrip(["a", "b", "c"], text, parse);
    SwapExample();
  }
}

=== FILE: ranking.dfy ===
/** The leaderboard order and the top-3 overtake detector of the app shell.
    `localeCompare` is modelled as the lexicographic order on character codes:
    a fixed total order on strings, which is all the ranking relies on. */
module Ranking {
  import opened Wrappers
  import opened Usernames
  import Collections

  /** `a` sorts no later than `b` in the string order. */
  predicate StrLe(a: string, b: string) {
    a == [] || (b != [] && (a[0] < b[0] || (a[0] == b[0] && StrLe(a[1..], b[1..]))))
  }

  lemma {:induction false} StrLeTotal(a: string, b: string)
    ensures StrLe(a, b) || StrLe(b, a)
  {
    if a != [] && b != [] && a[0] == b[0] {
      StrLeTotal(a[1..], b[1..]);
    }
  }

  lemma {:induction false} StrLeReflexive(a: string)
    ensures StrLe(a, a)
  {
    if a != [] { StrLeReflexive(a[1..]); }
  }

  lemma {:induction false} StrLeAntisymmetric(a: string, b: string)
    requires StrLe(a, b) && StrLe(b, a)
    ensures a == b
  {
    if a != [] {
      StrLeAntisymmetric(a[1..], b[1..]);
      assert a == [a[0]] + a[1..] && b == [b[0]] + b[1..];
    }
  }

  lemma {:induction false} StrLeTransitive(a: string, b: string, c: string)
    requires StrLe(a, b) && StrLe(b, c)
    ensures StrLe(a, c)
  {
    if a != [] && a[0] == b[0] && b[0] == c[0] {
      StrLeTransitive(a[1..], b[1..], c[1..]);
    }
  }

  /** The fields of a mate metric the leaderboard reads. */
  datatype MetricRow = MetricRow(username: string, changeScore: int, additions: int)

  /** One leaderboard entry: the normalised username and its two scores. */
  datatype RankEntry = RankEntry(username: string, change: int, additions: int)

  function EntryOf(m: MetricRow): (e: RankEntry)
    ensures e.username == Normalize(m.username)
    ensures e.change == m.changeScore && e.additions == m.additions
  {
    RankEntry(Normalize(m.username), m.changeScore, m.additions)
  }

  /** The comparator of the leaderboard: larger change first, then more
      additions, then the username in string order. `RankLe(a, b)` holds when
      the comparator does not put `b` before `a`. */
  predicate RankLe(a: RankEntry, b: RankEntry) {
    || b.change < a.change
    || (b.change == a.change && b.additions < a.additions)
    || (b.change == a.change && b.additions == a.additions && StrLe(a.username, b.username))
  }

  lemma RankLeTotal(a: RankEntry, b: RankEntry)
    ensures RankLe(a, b) || RankLe(b, a)
  {
    StrLeTotal(a.username, b.username);
  }

  /** Two entries that rank alike in both directions are the same entry, so
      the order leaves no tie for the sort to break. */
  lemma RankLeAntisymmetric(a: RankEntry, b: RankEntry)
    requires RankLe(a, b) && RankLe(b, a)
    ensures a == b
  {
    StrLeAntisymmetric(a.username, b.username);
  }

  lemma RankLeTransitive(a: RankEntry, b: RankEntry, c: RankEntry)
    requires RankLe(a, b) && RankLe(b, c)
    ensures RankLe(a, c)
  {
    if a.change == b.change == c.change && a.additions == b.additions == c.additions {
      StrLeTransitive(a.username, b.username, c.username);
    }
  }

  predicate Sorted(s: seq<RankEntry>) {
    forall i, j :: 0 <= i < j < |s| ==> RankLe(s[i], s[j])
  }

  /** Inserts `x` into the sorted `s` before the first entry it ranks no
      later than. */
  function Insert(x: RankEntry, s: seq<RankEntry>): (r: seq<RankEntry>)
    requires Sorted(s)
    ensures multiset(r) == multiset(s) + multiset{x}
    ensures Sorted(r)
  {
    if s == [] then [x]
    else if RankLe(x, s[0]) then
      InsertFront(x, s);
      [x] + s
    else
      RankLeTotal(x, s[0]);
      var rest := Insert(x, s[1..]);
      assert s == [s[0]] + s[1..];
      InsertBehind(x, s, rest);
      [s[0]] + rest
  }

  lemma InsertFront(x: RankEntry, s: seq<RankEntry>)
    requires Sorted(s) && s != [] && RankLe(x, s[0])
    ensures Sorted([x] + s)
  {
    forall j | 0 <= j < |s| ensures RankLe(x, s[j]) {
      if j > 0 { RankLeTransitive(x, s[0], s[j]); }
    }
  }

  lemma InsertBehind(x: RankEntry, s: seq<RankEntry>, rest: seq<RankEntry>)
    requires Sorted(s) && s != [] && RankLe(s[0], x)
    requires Sorted(rest) && multiset(rest) == multiset(s[1..]) + multiset{x}
    ensures Sorted([s[0]] + rest)
  {
    forall j | 0 <= j < |rest| ensures RankLe(s[0], rest[j]) {
      assert rest[j] in multiset(rest);
      if rest[j] != x {
        assert rest[j] in multiset(s[1..]);
        var k :| 0 <= k < |s[1..]| && s[1..][k] == rest[j];
        assert s[k + 1] == rest[j];
      }
    }
  }

  /** The leaderboard sort: insertion sort, front to back. */
  function SortRank(s: seq<RankEntry>): (r: seq<RankEntry>)
    ensures multiset(r) == multiset(s)
    ensures Sorted(r)
  {
    if s == [] then []
    else
      assert s == [s[0]] + s[1..];
      Insert(s[0], SortRank(s[1..]))
  }

  /** A sorted arrangement of given entries is unique: any sort by this
      comparator yields `SortRank`'s result. */
  lemma {:induction false} SortedUnique(a: seq<RankEntry>, b: seq<RankEntry>)
    requires Sorted(a) && Sorted(b) && multiset(a) == multiset(b)
    ensures a == b
    decreases |a|
  {
    if a == [] {
      assert |b| == |multiset(b)| == 0;
    } else {
      SortedHeads(a, b);
      SortedTail(a);
      SortedTail(b);
      SortedUnique(a[1..], b[1..]);
    }
  }

  /** Dropping the head of a sorted sequence leaves a sorted sequence of the
      remaining entries. */
  lemma SortedTail(a: seq<RankEntry>)
    requires Sorted(a) && a != []
    ensures Sorted(a[1..])
    ensures multiset(a[1..]) == multiset(a) - multiset{a[0]}
  {
    assert a == [a[0]] + a[1..];
  }

  /** Two sorted arrangements of the same entries start alike. */
  lemma SortedHeads(a: seq<RankEntry>, b: seq<RankEntry>)
    requires Sorted(a) && Sorted(b) && multiset(a) == multiset(b) && a != []
    ensures b != [] && a[0] == b[0]
  {
    assert a[0] in multiset(b);
    var j :| 0 <= j < |b| && b[j] == a[0];
    assert b[0] in multiset(a);
    var i :| 0 <= i < |a| && a[i] == b[0];
    StrLeReflexive(a[0].username);
    assert RankLe(a[0], b[0]) by { if i > 0 { assert RankLe(a[0], a[i]); } }
    assert RankLe(b[0], a[0]) by { if j > 0 { assert RankLe(b[0], b[j]); } }
    RankLeAntisymmetric(a[0], b[0]);
  }

  function Username(e: RankEntry): string {
    e.username
  }

  /** `getTopThreeUsernames`: the normalised usernames of the first three
      entries of the leaderboard. */
  function TopThree(rows: seq<MetricRow>): (r: seq<string>)
    ensures |r| == if |rows| < 3 then |rows| else 3
  {
    var entries := Collections.Map(rows, EntryOf);
    var sorted := SortRank(entries);
    assert |sorted| == |entries| by {
      assert |multiset(sorted)| == |multiset(entries)|;
    }
    Collections.Map(Collections.Take(sorted, 3), Username)
  }

  /** The top three are the first three names of any sorted arrangement of
      the entries; each of them ranks no later than every entry left out. */
  lemma TopThreeIsBest(rows: seq<MetricRow>, s: seq<RankEntry>)
    requires Sorted(s) && multiset(s) == multiset(Collections.Map(rows, EntryOf))
    ensures |TopThree(rows)| == |Collections.Take(s, 3)|
    ensures forall i :: 0 <= i < |TopThree(rows)| ==> TopThree(rows)[i] == s[i].username
    ensures forall i, j :: 0 <= i < |TopThree(rows)| <= j < |s| ==> RankLe(s[i], s[j])
  {
    var sorted := SortRank(Collections.Map(rows, EntryOf));
    SortedUnique(sorted, s);
    var top := Collections.Take(sorted, 3);
    assert TopThree(rows) == Collections.Map(top, Username);
    forall i | 0 <= i < |TopThree(rows)| ensures TopThree(rows)[i] == s[i].username {
      assert TopThree(rows)[i] == Username(top[i]) == sorted[i].username;
    }
  }

  /** Every name in the top three is the normalised name of some row: the
      row `k` returned. */
  lemma TopThreeFromRows(rows: seq<MetricRow>, i: nat) returns (k: nat)
    requires i < |TopThree(rows)|
    ensures k < |rows| && TopThree(rows)[i] == EntryOf(rows[k]).username
  {
    var entries := Collections.Map(rows, EntryOf);
    var sorted := SortRank(entries);
    TopThreeNames(rows);
    k := SameEntries(sorted, entries, i);
  }

  /** An element of one arrangement sits somewhere in the other. */
  lemma SameEntries(a: seq<RankEntry>, b: seq<RankEntry>, i: nat) returns (k: nat)
    requires multiset(a) == multiset(b) && i < |a|
    ensures k < |b| && b[k] == a[i]
  {
    assert a[i] in multiset(a);
    k :| 0 <= k < |b| && b[k] == a[i];
  }

  lemma TopThreeNames(rows: seq<MetricRow>)
    ensures forall i :: 0 <= i < |TopThree(rows)| ==>
      TopThree(rows)[i] == SortRank(Collections.Map(rows, EntryOf))[i].username
  {
    var sorted := SortRank(Collections.Map(rows, EntryOf));
    assert TopThree(rows) == Collections.Map(Collections.Take(sorted, 3), Username);
  }

  /** A concrete leaderboard: ties on change are broken by additions, then
      by name. */
  lemma SortRankExample()
    ensures SortRank([RankEntry("c", 5, 1), RankEntry("b", 5, 3), RankEntry("a", 5, 1), RankEntry("d", 9, 0)])
         == [RankEntry("d", 9, 0), RankEntry("b", 5, 3), RankEntry("a", 5, 1), RankEntry("c", 5, 1)]
  {
    var input := [RankEntry("c", 5, 1), RankEntry("b", 5, 3), RankEntry("a", 5, 1), RankEntry("d", 9, 0)];
    var s := [RankEntry("d", 9, 0), RankEntry("b", 5, 3), RankEntry("a", 5, 1), RankEntry("c", 5, 1)];
    assert multiset(s) == multiset(input);
    ExampleSorted();
    SortedUnique(SortRank(input), s);
  }

  lemma ExampleSorted()
    ensures Sorted([RankEntry("d", 9, 0), RankEntry("b", 5, 3), RankEntry("a", 5, 1), RankEntry("c", 5, 1)])
  {
    var s := [RankEntry("d", 9, 0), RankEntry("b", 5, 3), RankEntry("a", 5, 1), RankEntry("c", 5, 1)];
    assert StrLe("a", "c");
    forall i, j | 0 <= i < j < 4 ensures RankLe(s[i], s[j]) {
      assert s[i].change > s[j].change || s[i].additions > s[j].additions || (i == 2 && j == 3);
    }
  }

  /** The overtake an alert reports. */
  datatype Overtake = Overtake(mover: string, overtaken: string)

  /** `indexOf`: the first index of `x` in `s`, or -1. */
  function IndexOf(s: seq<string>, x: string): (r: int)
    ensures -1 <= r < |s|
    ensures r == -1 <==> x !in s
    ensures r >= 0 ==> s[r] == x && x !in s[..r]
  {
    if s == [] then -1
    else if s[0] == x then 0
    else
      var k := IndexOf(s[1..], x);
      assert s[1..][..if k < 0 then 0 else k] == s[1..1 + if k < 0 then 0 else k];
      if k == -1 then -1 else 1 + k
  }

  /** JavaScript truthiness of a string: it is not empty. */
  predicate Truthy(s: string) {
    s != ""
  }

  /** The mover at rank `i` now stood lower before, and the name that held
      rank `i` before is a different, non-empty one. */
  predicate PositionalAt(prev: seq<string>, curr: seq<string>, i: int) {
    && 0 <= i < |curr|
    && IndexOf(prev, curr[i]) > i
    && Truthy(prev[i])
    && prev[i] != curr[i]
  }

  /** The loop over current ranks, from `i` on. */
  function ScanPositional(prev: seq<string>, curr: seq<string>, i: nat): (r: Option<Overtake>)
    requires i <= |curr|
    ensures r.Some? <==> exists k :: i <= k < |curr| && PositionalAt(prev, curr, k)
    ensures r.Some? ==> exists k :: (i <= k < |curr| && PositionalAt(prev, curr, k)
      && r.value == Overtake(curr[k], prev[k])
      && forall k' :: i <= k' < k ==> !PositionalAt(prev, curr, k'))
    decreases |curr| - i
  {
    if i == |curr| then None
    else if PositionalAt(prev, curr, i) then Some(Overtake(curr[i], prev[i]))
    else ScanPositional(prev, curr, i + 1)
  }

  /** `find(x => !other.includes(x))`: the first name of `s` absent from `other`. */
  function FirstMissing(s: seq<string>, other: seq<string>): (r: Option<string>)
    ensures r.None? <==> forall k :: 0 <= k < |s| ==> s[k] in other
    ensures r.Some? ==> r.value in s && r.value !in other
    ensures r.Some? ==> exists i :: (0 <= i < |s| && s[i] == r.value
      && forall j :: 0 <= j < i ==> s[j] in other)
  {
    if s == [] then None
    else if s[0] !in other then Some(s[0])
    else
      var r := FirstMissing(s[1..], other);
      assert r.Some? ==> exists i :: (1 <= i < |s| && s[i] == r.value
        && forall j :: 0 <= j < i ==> s[j] in other) by {
        if r.Some? {
          var i :| 0 <= i < |s[1..]| && s[1..][i] == r.value
            && forall j :: 0 <= j < i ==> s[1..][j] in other;
          assert s[i + 1] == r.value;
          forall j | 0 <= j < i + 1 ensures s[j] in other {
            if j > 0 { assert s[j] == s[1..][j - 1]; }
          }
        }
      }
      r
  }

  /** `getFirstTopThreeOvertake`: the first positional overtake from the top,
      else a newcomer paired with a dropped name, else nothing. */
  function FirstTopThreeOvertake(prev: seq<string>, curr: seq<string>): (r: Option<Overtake>)
    ensures r.Some? ==> r.value.mover in curr && r.value.overtaken in prev
    ensures r.Some? ==> r.value.mover != r.value.overtaken && Truthy(r.value.overtaken)
  {
    match ScanPositional(prev, curr, 0)
    case Some(o) => Some(o)
    case None =>
      var newcomer := FirstMissing(curr, prev);
      var dropped := FirstMissing(prev, curr);
      if newcomer.Some? && Truthy(newcomer.value) && dropped.Some? && Truthy(dropped.value)
      then Some(Overtake(newcomer.value, dropped.value))
      else None
  }

  /** A positional overtake is preferred, and the first one from the top wins:
      the mover now holds rank `k`, which the overtaken held before, and the
      mover stood lower than `k` before. */
  lemma PositionalFirst(prev: seq<string>, curr: seq<string>, k: nat)
    requires PositionalAt(prev, curr, k)
    requires forall k' :: 0 <= k' < k ==> !PositionalAt(prev, curr, k')
    ensures FirstTopThreeOvertake(prev, curr) == Some(Overtake(curr[k], prev[k]))
    ensures IndexOf(prev, curr[k]) > k && prev[k] != curr[k]
  {
    var r := ScanPositional(prev, curr, 0);
    var k0 :| 0 <= k0 < |curr| && PositionalAt(prev, curr, k0)
      && r.value == Overtake(curr[k0], prev[k0])
      && forall k' :: 0 <= k' < k0 ==> !PositionalAt(prev, curr, k');
    assert k0 == k;
  }

  /** With no positional overtake the fallback pairs the first newcomer with
      the first dropped name, when both are non-empty. */
  lemma FallbackPairs(prev: seq<string>, curr: seq<string>)
    requires forall k :: 0 <= k < |curr| ==> !PositionalAt(prev, curr, k)
    ensures FirstTopThreeOvertake(prev, curr).Some? <==>
      var n := FirstMissing(curr, prev);
      var d := FirstMissing(prev, curr);
      n.Some? && Truthy(n.value) && d.Some? && Truthy(d.value)
    ensures FirstTopThreeOvertake(prev, curr).Some? ==>
      FirstTopThreeOvertake(prev, curr)
        == Some(Overtake(FirstMissing(curr, prev).value, FirstMissing(prev, curr).value))
  {
  }

  /** A newcomer that takes the place of a dropped name is reported as
      overtaking it: ["a", "b", "c"] becoming ["a", "d", "c"] reports "d"
      over "b". */
  lemma NewcomerExample()
    ensures FirstTopThreeOvertake(["a", "b", "c"], ["a", "d", "c"]) == Some(Overtake("d", "b"))
  {
    var prev := ["a", "b", "c"];
    var curr := ["a", "d", "c"];
    assert IndexOf(prev, "a") == 0;
    assert IndexOf(prev, "c") == 2;
    assert IndexOf(prev, "d") == -1;
    forall k | 0 <= k < |curr| ensures !PositionalAt(prev, curr, k) {
    }
    assert FirstMissing(curr, prev) == Some("d");
    assert FirstMissing(prev, curr) == Some("b");
    FallbackPairs(prev, curr);
  }

  /** An unchanged top three reports no overtake. */
  lemma {:induction false} SameListNoOvertake(s: seq<string>)
    ensures FirstTopThreeOvertake(s, s) == None
  {
    forall k | 0 <= k < |s| ensures !PositionalAt(s, s, k) {
      assert s[k] in s;
      var p := IndexOf(s, s[k]);
    }
    assert FirstMissing(s, s).None?;
  }

  /** A swap at the top is reported with the climber as mover. */
  lemma SwapExample()
    ensures FirstTopThreeOvertake(["a", "b", "c"], ["b", "a", "c"]) == Some(Overtake("b", "a"))
  {
    var prev := ["a", "b", "c"];
    var curr := ["b", "a", "c"];
    assert IndexOf(prev, "b") == 1;
    assert PositionalAt(prev, curr, 0);
    PositionalFirst(prev, curr, 0);
  }
}

=== FILE: release_page.dfy ===
/** The download page: which release assets it links, the release notes it
    shows and the size guard. The release itself is an input. */
module ReleasePage {
  import opened Wrappers
  import opened Text
  import opened JsNumber
  import Collections

  const EMPTY_NOTES: string := "릴리즈 노트가 비어 있습니다."
  const MAX_NOTE_LINES: nat := 16
  const MORE_NOTES: string := "(전체 내용은 릴리즈 노트를 확인하세요)"
  const NO_SIZE: string := "-"

  datatype Asset = Asset(name: string, size: Num, downloadUrl: string)

  /** The installer: a name ending in `.dmg`, ignoring ASCII case. */
  predicate IsDmg(a: Asset) {
    EndsWith(ToLower(a.name), ".dmg")
  }

  /** A checksum file: a name mentioning `sha256` or `checksum`, ignoring
      ASCII case. */
  predicate IsChecksum(a: Asset) {
    var name := ToLower(a.name);
    Contains(name, "sha256") || Contains(name, "checksum")
  }

  /** `pickDmgAsset`: the first installer among the assets. */
  function PickDmgAsset(assets: seq<Asset>): (r: Option<Asset>)
    ensures r.None? <==> forall i :: 0 <= i < |assets| ==> !IsDmg(assets[i])
    ensures r.Some? ==> exists i :: (0 <= i < |assets| && assets[i] == r.value && IsDmg(assets[i])
      && forall j :: 0 <= j < i ==> !IsDmg(assets[j]))
  {
    Collections.Find(assets, IsDmg)
  }

  /** `pickChecksumAsset`: the first checksum file among the assets. */
  function PickChecksumAsset(assets: seq<Asset>): (r: Option<Asset>)
    ensures r.None? <==> forall i :: 0 <= i < |assets| ==> !IsChecksum(assets[i])
    ensures r.Some? ==> exists i :: (0 <= i < |assets| && assets[i] == r.value && IsChecksum(assets[i])
      && forall j :: 0 <= j < i ==> !IsChecksum(assets[j]))
  {
    Collections.Find(assets, IsChecksum)
  }

  /** The installer is found whatever the case of each letter of its
      extension, ahead of the assets after it. */
  lemma DmgFoundIgnoringCase(before: seq<Asset>, dmg: Asset, after: seq<Asset>)
    requires forall i :: 0 <= i < |before| ==> !IsDmg(before[i])
    requires |dmg.name| >= 4
    requires forall k :: 0 <= k < 4 ==> LowerChar(dmg.name[|dmg.name| - 4 + k]) == ".dmg"[k]
    ensures PickDmgAsset(before + [dmg] + after) == Some(dmg)
  {
    var assets := before + [dmg] + after;
    var low := ToLower(dmg.name);
    forall k | 0 <= k < 4 ensures low[|low| - 4..][k] == ".dmg"[k] {
      assert low[|low| - 4..][k] == low[|low| - 4 + k];
    }
    assert low[|low| - 4..] == ".dmg";
    assert IsDmg(assets[|before|]);
    forall j | 0 <= j < |before| ensures !IsDmg(assets[j]) {
      assert assets[j] == before[j];
    }
  }

  /** `line.replace(/\r/g, "")`. */
  function RemoveCarriageReturns(line: string): (r: string)
    ensures '\r' !in r
    ensures forall c :: c in r <==> c in line && c != '\r'
  {
    if line == [] then []
    else if line[0] == '\r' then RemoveCarriageReturns(line[1..])
    else [line[0]] + RemoveCarriageReturns(line[1..])
  }

  /** A line without carriage returns is left as it is. */
  lemma {:induction false} NoCarriageReturnUnchanged(line: string)
    requires '\r' !in line
    ensures RemoveCarriageReturns(line) == line
  {
    if line != [] {
      assert line[0] != '\r' && '\r' !in line[1..];
      NoCarriageReturnUnchanged(line[1..]);
      assert line == [line[0]] + line[1..];
    }
  }

  /** Removing carriage returns works piece by piece: the other characters
      stay in order. */
  lemma {:induction false} RemoveCarriageReturnsAppend(a: string, b: string)
    ensures RemoveCarriageReturns(a + b) == RemoveCarriageReturns(a) + RemoveCarriageReturns(b)
  {
    if a == [] {
      assert a + b == b;
    } else {
      assert (a + b)[0] == a[0] && (a + b)[1..] == a[1..] + b;
      RemoveCarriageReturnsAppend(a[1..], b);
    }
  }

  /** A line as the notes show it: no carriage return, no trailing white space. */
  predicate CleanLine(line: string) {
    '\r' !in line && (line == [] || !IsSpace(line[|line| - 1]))
  }

  /** The per-line map of `cleanReleaseNotes`. */
  function TidyLine(line: string): (r: string)
    ensures CleanLine(r)
    ensures forall c :: c in r ==> c in line
    ensures var s := RemoveCarriageReturns(line);
      |r| <= |s| && r == s[..|r|] && forall i :: |r| <= i < |s| ==> IsSpace(s[i])
  {
    var s := RemoveCarriageReturns(line);
    var r := TrimEnd(s);
    assert forall i :: 0 <= i < |r| ==> r[i] == s[i];
    r
  }

  predicate NoAdjacentBlanks(lines: seq<string>) {
    forall i :: 0 <= i < |lines| - 1 ==> lines[i] != "" || lines[i + 1] != ""
  }

  /** The filter of `cleanReleaseNotes` from some line on: a blank line
      right after a blank line of the input is dropped. `previousBlank`
      says whether the line before the first one was blank. */
  function DropRepeatedBlanks(lines: seq<string>, previousBlank: bool): (r: seq<string>)
    ensures |r| <= |lines|
    ensures forall i :: 0 <= i < |r| ==> r[i] in lines
    ensures NoAdjacentBlanks(r)
    ensures previousBlank && r != [] ==> r[0] != ""
    ensures lines != [] && (lines[0] != "" || !previousBlank) ==> r != [] && r[0] == lines[0]
  {
    if lines == [] then []
    else
      var rest := DropRepeatedBlanks(lines[1..], lines[0] == "");
      if lines[0] == "" && previousBlank then rest
      else
        var r := [lines[0]] + rest;
        assert forall i :: 1 <= i < |r| ==> r[i] == rest[i - 1];
        r
  }

  /** Line `i` is a blank line right after a blank one; the line before
      the first is blank when `previousBlank` holds. */
  predicate Repeated(lines: seq<string>, previousBlank: bool, i: int)
    requires 0 <= i < |lines|
  {
    lines[i] == "" && (if i == 0 then previousBlank else lines[i - 1] == "")
  }

  /** Each line paired with whether it repeats a blank. */
  function Marked(lines: seq<string>, previousBlank: bool): (m: seq<(string, bool)>)
    ensures |m| == |lines|
    ensures forall i :: 0 <= i < |m| ==> m[i] == (lines[i], Repeated(lines, previousBlank, i))
  {
    seq(|lines|, i requires 0 <= i < |lines| => (lines[i], Repeated(lines, previousBlank, i)))
  }

  function Unmarked(p: (string, bool)): Option<string> {
    if p.1 then None else Some(p.0)
  }

  /** The filter keeps exactly the lines that do not repeat a blank, in
      order. */
  lemma {:induction false} DropIsIndexFilter(lines: seq<string>, previousBlank: bool)
    ensures DropRepeatedBlanks(lines, previousBlank) == Collections.FilterMap(Marked(lines, previousBlank), Unmarked)
  {
    if lines != [] {
      var m := Marked(lines, previousBlank);
      var tail := Marked(lines[1..], lines[0] == "");
      assert m[1..] == tail by {
        forall i | 0 <= i < |tail| ensures m[1..][i] == tail[i] {
          assert lines[1..][i] == lines[i + 1];
          if i > 0 { assert lines[1..][i - 1] == lines[i]; }
        }
      }
      DropIsIndexFilter(lines[1..], lines[0] == "");
    }
  }

  /** The filter works piece by piece: the second piece starts after the
      last line of the first. */
  lemma {:induction false} DropAppend(a: seq<string>, b: seq<string>, previousBlank: bool)
    ensures DropRepeatedBlanks(a + b, previousBlank)
         == DropRepeatedBlanks(a, previousBlank)
          + DropRepeatedBlanks(b, if a == [] then previousBlank else a[|a| - 1] == "")
  {
    var blank := if a == [] then previousBlank else a[|a| - 1] == "";
    DropIsIndexFilter(a + b, previousBlank);
    DropIsIndexFilter(a, previousBlank);
    DropIsIndexFilter(b, blank);
    MarkedAppend(a, b, previousBlank);
    Collections.FilterMapAppend(Marked(a, previousBlank), Marked(b, blank), Unmarked);
  }

  /** Marking a concatenation marks each piece, the second piece starting
      from the last line of the first. */
  lemma MarkedAppend(a: seq<string>, b: seq<string>, previousBlank: bool)
    ensures Marked(a + b, previousBlank)
         == Marked(a, previousBlank) + Marked(b, if a == [] then previousBlank else a[|a| - 1] == "")
  {
    var blank := if a == [] then previousBlank else a[|a| - 1] == "";
    var l, m, ma, mb := a + b, Marked(a + b, previousBlank), Marked(a, previousBlank), Marked(b, blank);
    forall i | 0 <= i < |m| ensures m[i] == (ma + mb)[i] {
      if i < |a| {
        assert l[i] == a[i];
        if i > 0 { assert l[i - 1] == a[i - 1]; }
        assert Repeated(l, previousBlank, i) == Repeated(a, previousBlank, i);
      } else {
        var k := i - |a|;
        assert l[i] == b[k];
        if k > 0 { assert l[i - 1] == b[k - 1]; }
        else if a != [] { assert l[i - 1] == a[|a| - 1]; }
        assert Repeated(l, previousBlank, i) == Repeated(b, blank, k);
      }
    }
  }

  /** The first line is dropped only when it repeats a blank. */
  lemma DropCons(x: string, rest: seq<string>, previousBlank: bool)
    ensures DropRepeatedBlanks([x] + rest, previousBlank)
         == (if x == "" && previousBlank then [] else [x]) + DropRepeatedBlanks(rest, x == "")
  {
    assert ([x] + rest)[1..] == rest;
  }

  /** The non-blank lines, in order. */
  function NonBlank(lines: seq<string>): (r: seq<string>)
    ensures |r| <= |lines|
  {
    if lines == [] then []
    else if lines[0] == "" then NonBlank(lines[1..])
    else [lines[0]] + NonBlank(lines[1..])
  }

  /** Only blank lines are dropped: the text lines stay, in order. */
  lemma {:induction false} DropKeepsText(lines: seq<string>, previousBlank: bool)
    ensures NonBlank(DropRepeatedBlanks(lines, previousBlank)) == NonBlank(lines)
  {
    if lines != [] {
      DropKeepsText(lines[1..], lines[0] == "");
      var rest := DropRepeatedBlanks(lines[1..], lines[0] == "");
      if !(lines[0] == "" && previousBlank) {
        assert ([lines[0]] + rest)[1..] == rest;
      }
    }
  }

  /** Line `i` is dropped exactly when it is a blank line after a blank
      one; the lines before and after it are filtered as on their own. */
  lemma {:induction false} DropOnlyRepeats(lines: seq<string>, previousBlank: bool, i: nat)
    requires i < |lines|
    ensures DropRepeatedBlanks(lines, previousBlank)
         == DropRepeatedBlanks(lines[..i], previousBlank)
          + (if Repeated(lines, previousBlank, i) then [] else [lines[i]])
          + DropRepeatedBlanks(lines[i + 1..], lines[i] == "")
  {
    var before := lines[..i];
    var after := lines[i + 1..];
    assert lines == before + ([lines[i]] + after);
    DropAppend(before, [lines[i]] + after, previousBlank);
    var pb := if before == [] then previousBlank else before[|before| - 1] == "";
    assert pb == (if i == 0 then previousBlank else lines[i - 1] == "");
    DropCons(lines[i], after, pb);
  }

  /** The lines of a non-blank body, tidied, with repeated blank lines dropped. */
  function NoteLines(body: string): (r: seq<string>)
    ensures r != []
    ensures forall i :: 0 <= i < |r| ==> CleanLine(r[i]) && '\n' !in r[i]
    ensures NoAdjacentBlanks(r)
  {
    var parts := Split(body, '\n');
    var tidied := Collections.Map(parts, TidyLine);
    forall i | 0 <= i < |tidied| ensures '\n' !in tidied[i] {
      assert '\n' !in parts[i];
    }
    DropRepeatedBlanks(tidied, false)
  }

  /** `cleanReleaseNotes`: the placeholder for a missing or blank body;
      otherwise the tidied lines, cut after sixteen with a link to the
      full notes. */
  function CleanReleaseNotes(body: Option<string>): (r: string)
    ensures body.None? || Trim(body.value) == "" ==> r == EMPTY_NOTES
    ensures body.Some? && Trim(body.value) != "" && |NoteLines(body.value)| <= MAX_NOTE_LINES ==>
      r == Join(NoteLines(body.value), "\n")
    ensures body.Some? && Trim(body.value) != "" && |NoteLines(body.value)| > MAX_NOTE_LINES ==>
      r == Join(NoteLines(body.value)[..MAX_NOTE_LINES], "\n") + "\n...\n" + MORE_NOTES
  {
    if body.None? || body.value == "" || Trim(body.value) == "" then EMPTY_NOTES
    else
      var lines := NoteLines(body.value);
      if |lines| <= MAX_NOTE_LINES then Join(lines, "\n")
      else Join(lines[..MAX_NOTE_LINES], "\n") + "\n...\n" + MORE_NOTES
  }

  /** Short notes split back into exactly the tidied lines. */
  lemma ShortNotesSplitBack(body: string)
    requires Trim(body) != "" && |NoteLines(body)| <= MAX_NOTE_LINES
    ensures Split(CleanReleaseNotes(Some(body)), '\n') == NoteLines(body)
  {
    SplitJoin(NoteLines(body), '\n');
  }

  /** Every line the notes show is tidy, and no two shown lines are both
      blank. */
  lemma ShownLinesAreClean(body: string)
    requires Trim(body) != ""
    ensures var shown := Collections.Take(NoteLines(body), MAX_NOTE_LINES);
      && (forall i :: 0 <= i < |shown| ==> CleanLine(shown[i]))
      && NoAdjacentBlanks(shown)
  {
  }

  /** Tidying drops no text: the non-blank tidied lines of the body all
      appear, in order. */
  lemma NotesKeepText(body: string)
    ensures var tidied := Collections.Map(Split(body, '\n'), TidyLine);
      NonBlank(NoteLines(body)) == NonBlank(tidied)
  {
    DropKeepsText(Collections.Map(Split(body, '\n'), TidyLine), false);
  }

  /** The guard of `formatBytes`: a size is shown only when it is a finite
      positive number. `formatPositive` stands for the unit arithmetic. */
  function FormatBytes(bytes: Num, formatPositive: int -> string): (r: string)
    ensures !IsFinite(bytes) || bytes.value <= 0 ==> r == NO_SIZE
    ensures IsFinite(bytes) && bytes.value > 0 ==> r == formatPositive(bytes.value)
  {
    if !IsFinite(bytes) || bytes.value <= 0 then NO_SIZE else formatPositive(bytes.value)
  }
}

=== FILE: sync.dfy ===
/** The sync-request handler of the app shell: which loads a request
    triggers, and the batch-complete event it reports once they settle. */
module SyncRequest {
  import opened Wrappers

  /** The time ranges of the leaderboard: today, 7 days, 30 days. */
  const TIME_RANGES: seq<string> := ["오늘", "7일", "30일"]
  const SYNC_FAILED_MESSAGE: string := "동기화에 실패했습니다."

  /** `detail.source`: the scheduler, the settings window, or absent. */
  datatype Source = Auto | Manual | Unspecified

  datatype Tab = FollowTab | MyTab | RankTab

  /** What a request triggers. `rankUsesMyResult`: the rank load waits for
      the my-grass load and takes its result as the own metric.
      `recordRankSyncedAt`: a successful rank load stamps the current range.
      `prefetch`: the other ranges whose my-grass and rank data are loaded. */
  datatype SyncPlan = SyncPlan(follow: bool, my: bool, rank: bool, rankUsesMyResult: bool,
                               recordRankSyncedAt: bool, prefetch: seq<string>)

  predicate IsGlobal(source: Source) {
    source == Auto || source == Manual
  }

  function OtherRanges(ranges: seq<string>, current: string): (r: seq<string>)
    ensures |r| <= |ranges| && current !in r
    ensures forall x :: x in r <==> x in ranges && x != current
  {
    if ranges == [] then []
    else if ranges[0] == current then OtherRanges(ranges[1..], current)
    else [ranges[0]] + OtherRanges(ranges[1..], current)
  }

  /** The decision part of `onSyncRequest`. */
  function DecideSync(source: Source, force: bool, tab: Tab, timeRange: string,
                      rankAlert: bool, streakAlert: bool): (p: SyncPlan)
    ensures IsGlobal(source) ==> p.follow && p.my && p.rank
    ensures !IsGlobal(source) ==>
      && (p.follow <==> tab == FollowTab)
      && (p.my <==> tab == RankTab || (tab != MyTab && streakAlert))
      && (p.rank <==> tab == RankTab || rankAlert)
    ensures p.rankUsesMyResult <==> tab == RankTab
    ensures p.rankUsesMyResult ==> p.my && p.rank
    ensures p.recordRankSyncedAt <==> IsGlobal(source) || (tab == RankTab && force)
    ensures source == Manual ==> p.prefetch == OtherRanges(TIME_RANGES, timeRange)
    ensures source != Manual ==> p.prefetch == []
  {
    var global := IsGlobal(source);
    var follow := global || tab == FollowTab;
    var my := global || tab == RankTab || (tab != MyTab && streakAlert);
    var rank := global || tab == RankTab || (tab != RankTab && rankAlert);
    SyncPlan(follow, my, rank, rank && tab == RankTab && my,
             global || (tab == RankTab && force),
             if source == Manual then OtherRanges(TIME_RANGES, timeRange) else [])
  }

  /** A manual sync prefetches exactly the two ranges not shown. */
  lemma ManualPrefetchesOtherRanges(force: bool, tab: Tab, timeRange: string, rankAlert: bool,
                                    streakAlert: bool)
    requires timeRange in TIME_RANGES
    ensures var p := DecideSync(Manual, force, tab, timeRange, rankAlert, streakAlert);
      |p.prefetch| == 2 && timeRange !in p.prefetch
      && forall r :: r in p.prefetch ==> r in TIME_RANGES
  {
    assert TIME_RANGES[0] != TIME_RANGES[1] && TIME_RANGES[1] != TIME_RANGES[2] && TIME_RANGES[0] != TIME_RANGES[2];
  }

  /** A request that is neither automatic nor manual, on the My tab, with the
      rank alert off, triggers nothing. */
  lemma QuietOnMyTab(force: bool, timeRange: string, streakAlert: bool)
    ensures var p := DecideSync(Unspecified, force, MyTab, timeRange, false, streakAlert);
      !p.follow && !p.my && !p.rank && p.prefetch == []
  {
  }

  /** One load the handler starts. */
  datatype Task = LoadMy | RefreshFollow | LoadRank(withMyResult: bool)
                | PrefetchMy(range: string) | PrefetchRank(range: string)

  function PrefetchTasks(ranges: seq<string>): (r: seq<Task>)
    ensures |r| == 2 * |ranges|
    ensures forall k :: 0 <= k < |r| ==> r[k].PrefetchMy? || r[k].PrefetchRank?
    ensures forall k :: 0 <= k < |ranges| ==>
      r[2 * k] == PrefetchMy(ranges[k]) && r[2 * k + 1] == PrefetchRank(ranges[k])
  {
    if ranges == [] then []
    else [PrefetchMy(ranges[0]), PrefetchRank(ranges[0])] + PrefetchTasks(ranges[1..])
  }

  /** The loads of a plan, in the order they join the batch. */
  function Tasks(p: SyncPlan): (r: seq<Task>)
    ensures |r| == (if p.my then 1 else 0) + (if p.follow then 1 else 0)
                 + (if p.rank then 1 else 0) + 2 * |p.prefetch|
    ensures LoadMy in r <==> p.my
    ensures RefreshFollow in r <==> p.follow
    ensures p.rank ==> LoadRank(p.rankUsesMyResult) in r
  {
    (if p.my then [LoadMy] else [])
      + (if p.follow then [RefreshFollow] else [])
      + (if p.rank then [LoadRank(p.rankUsesMyResult)] else [])
      + PrefetchTasks(p.prefetch)
  }

  /** Why a load failed: an `Error` with its message, or another value. */
  datatype Reason = ErrorWithMessage(message: string) | OtherReason

  datatype Settlement = Resolved | Rejected(reason: Reason)

  /** The first rejection among the settled loads, in settlement order:
      what `Promise.all` rejects with. */
  function FirstRejection(settled: seq<Settlement>): (r: Option<Reason>)
    ensures r.None? <==> forall k :: 0 <= k < |settled| ==> settled[k].Resolved?
    ensures r.Some? ==> exists k :: (0 <= k < |settled| && settled[k] == Rejected(r.value)
      && forall k' :: 0 <= k' < k ==> settled[k'].Resolved?)
  {
    if settled == [] then None
    else if settled[0].Rejected? then Some(settled[0].reason)
    else
      var rest := FirstRejection(settled[1..]);
      assert forall k :: 0 <= k < |settled[1..]| ==> settled[1..][k] == settled[k + 1];
      rest
  }

  /** The batch-complete event: the request id, and an error message when
      the batch failed. */
  datatype BatchEvent = BatchEvent(requestId: string, error: Option<string>)

  function MessageOf(reason: Reason): string {
    if reason.ErrorWithMessage? then reason.message else SYNC_FAILED_MESSAGE
  }

  /** The completion part of `onSyncRequest`. `settled` lists the outcome of
      every load in the order they settle; the event is emitted only for a
      request carrying a non-empty id. */
  function BatchComplete(requestId: Option<string>, settled: seq<Settlement>): (e: Option<BatchEvent>)
    ensures e.Some? <==> requestId.Some? && requestId.value != ""
    ensures e.Some? ==> e.value.requestId == requestId.value
    ensures e.Some? ==>
      (e.value.error.None? <==> forall k :: 0 <= k < |settled| ==> settled[k].Resolved?)
    ensures e.Some? && e.value.error.Some? ==>
      exists k :: (0 <= k < |settled| && settled[k].Rejected?
        && e.value.error.value == MessageOf(settled[k].reason)
        && forall k' :: 0 <= k' < k ==> settled[k'].Resolved?)
  {
    if requestId.None? || requestId.value == "" then None
    else match FirstRejection(settled)
      case None => Some(BatchEvent(requestId.value, None))
      case Some(reason) => Some(BatchEvent(requestId.value, Some(MessageOf(reason))))
  }
}

=== FILE: text.dfy ===
/** String helpers with the semantics of the JavaScript built-ins the
    source uses: `trim`, `trimEnd`, `toLowerCase`, `startsWith`,
    `endsWith`, `includes`, `split`, `join` and `padStart`. */
module Text {

  /** The code points JavaScript's `trim` family removes: the WhiteSpace and
      LineTerminator productions of ECMAScript. */
  predicate IsSpace(c: char) {
    || c == ' ' || c == '\t' || c == '\n' || c == '\r'
    || c == '\U{000B}' || c == '\U{000C}' || c == '\U{00A0}' || c == '\U{1680}'
    || ('\U{2000}' <= c <= '\U{200A}')
    || c == '\U{2028}' || c == '\U{2029}' || c == '\U{202F}' || c == '\U{205F}'
    || c == '\U{3000}' || c == '\U{FEFF}'
  }

  /** `s.trimStart()`: the longest suffix of `s` that does not start with white space. */
  function TrimStart(s: string): (r: string)
    ensures |r| <= |s| && r == s[|s| - |r|..]
    ensures r == [] || !IsSpace(r[0])
    ensures forall i :: 0 <= i < |s| - |r| ==> IsSpace(s[i])
  {
    if s != [] && IsSpace(s[0]) then TrimStart(s[1..]) else s
  }

  /** `s.trimEnd()`: the longest prefix of `s` that does not end with white space. */
  function TrimEnd(s: string): (r: string)
    ensures |r| <= |s| && r == s[..|r|]
    ensures r == [] || !IsSpace(r[|r| - 1])
    ensures forall i :: |r| <= i < |s| ==> IsSpace(s[i])
  {
    if s != [] && IsSpace(s[|s| - 1]) then TrimEnd(s[..|s| - 1]) else s
  }

  /** `s.trim()`. */
  function Trim(s: string): (r: string)
    ensures |r| <= |s|
    ensures r == [] || (!IsSpace(r[0]) && !IsSpace(r[|r| - 1]))
  {
    TrimStart(TrimEnd(s))
  }

  /** A string `trim` leaves unchanged. */
  predicate IsTrimmed(s: string) {
    s == [] || (!IsSpace(s[0]) && !IsSpace(s[|s| - 1]))
  }

  lemma TrimOfTrimmed(s: string)
    requires IsTrimmed(s)
    ensures Trim(s) == s
  {
  }

  /** `s.trim()` is empty exactly when every character of `s` is white space. */
  lemma TrimEmptyIffBlank(s: string)
    ensures Trim(s) == [] <==> forall i :: 0 <= i < |s| ==> IsSpace(s[i])
  {
    var e := TrimEnd(s);
    if Trim(s) == [] {
      assert forall i :: 0 <= i < |e| ==> IsSpace(e[i]);
      forall i | 0 <= i < |s| ensures IsSpace(s[i]) {
        if i < |e| { assert s[i] == e[i]; }
      }
    }
  }

  /** ASCII lower-casing of one character. */
  function LowerChar(c: char): char {
    if 'A' <= c <= 'Z' then (c as int + 32) as char else c
  }

  /** `s.toLowerCase()`, on the ASCII letters. */
  function ToLower(s: string): (r: string)
    ensures |r| == |s|
    ensures forall i :: 0 <= i < |s| ==> r[i] == LowerChar(s[i])
  {
    seq(|s|, i requires 0 <= i < |s| => LowerChar(s[i]))
  }

  lemma LowerCharFixes(c: char)
    ensures LowerChar(LowerChar(c)) == LowerChar(c)
    ensures IsSpace(LowerChar(c)) <==> IsSpace(c)
    ensures LowerChar(c) == '@' <==> c == '@'
  {
  }

  predicate StartsWith(s: string, prefix: string) {
    |prefix| <= |s| && s[..|prefix|] == prefix
  }

  predicate EndsWith(s: string, suffix: string) {
    |suffix| <= |s| && s[|s| - |suffix|..] == suffix
  }

  /** `part` occurs in `s` starting at index `i`. */
  predicate OccursAt(s: string, part: string, i: int) {
    0 <= i <= |s| - |part| && s[i..i + |part|] == part
  }

  /** `s.includes(part)`. */
  predicate Contains(s: string, part: string) {
    exists i | 0 <= i <= |s| - |part| :: OccursAt(s, part, i)
  }

  /** The index of the first `c` in `s`, which must occur. */
  function IndexOfChar(s: string, c: char): (i: nat)
    requires c in s
    ensures i < |s| && s[i] == c && c !in s[..i]
  {
    if s[0] == c then 0 else 1 + IndexOfChar(s[1..], c)
  }

  /** `s.split(sep)` for a one-character separator. */
  function Split(s: string, sep: char): (r: seq<string>)
    ensures |r| >= 1
    ensures forall k :: 0 <= k < |r| ==> sep !in r[k]
    decreases |s|
  {
    if sep !in s then [s]
    else
      var i := IndexOfChar(s, sep);
      [s[..i]] + Split(s[i + 1..], sep)
  }

  /** `parts.join(sep)`. */
  function Join(parts: seq<string>, sep: string): string {
    if parts == [] then []
    else if |parts| == 1 then parts[0]
    else parts[0] + sep + Join(parts[1..], sep)
  }

  /** Splitting on a character and joining with that character gives the
      original string back. */
  lemma {:induction false} JoinSplit(s: string, sep: char)
    ensures Join(Split(s, sep), [sep]) == s
    decreases |s|
  {
    if sep in s {
      var i := IndexOfChar(s, sep);
      var head, tail := s[..i], s[i + 1..];
      var rest := Split(tail, sep);
      JoinSplit(tail, sep);
      assert Split(s, sep) == [head] + rest;
      JoinCons(head, rest, [sep]);
      assert s == head + [sep] + tail;
    }
  }

  lemma JoinCons(first: string, rest: seq<string>, sep: string)
    requires rest != []
    ensures Join([first] + rest, sep) == first + sep + Join(rest, sep)
  {
    assert ([first] + rest)[1..] == rest;
  }

  /** Joining parts that do not contain the separator and splitting again
      gives the parts back. */
  lemma {:induction false} SplitJoin(parts: seq<string>, sep: char)
    requires |parts| >= 1
    requires forall k :: 0 <= k < |parts| ==> sep !in parts[k]
    ensures Split(Join(parts, [sep]), sep) == parts
  {
    if |parts| > 1 {
      var rest := parts[1..];
      assert parts == [parts[0]] + rest;
      JoinCons(parts[0], rest, [sep]);
      var tail := Join(rest, [sep]);
      var s := parts[0] + [sep] + tail;
      SplitJoin(rest, sep);
      var i := |parts[0]|;
      assert s[i] == sep && s[..i] == parts[0];
      assert IndexOfChar(s, sep) == i;
      assert s[i + 1..] == tail;
    }
  }

  /** The first `c` of `s` is the one at `i` when none comes before it. */
  lemma {:induction false} IndexOfCharIs(s: string, c: char, i: nat)
    requires i < |s| && s[i] == c && c !in s[..i]
    ensures c in s && IndexOfChar(s, c) == i
  {
    if i > 0 {
      assert s[1..][i - 1] == c && s[1..][..i - 1] == s[1..i];
      assert c !in s[1..i] by { assert s[..i] == [s[0]] + s[1..i]; }
      IndexOfCharIs(s[1..], c, i - 1);
    }
  }

  /** `Split` cuts at a separator with none before it. */
  lemma SplitAt(s: string, sep: char, i: nat)
    requires i < |s| && s[i] == sep && sep !in s[..i]
    ensures Split(s, sep) == [s[..i]] + Split(s[i + 1..], sep)
  {
    IndexOfCharIs(s, sep, i);
  }

  lemma {:induction false} SplitAppend(a: string, sep: char, b: string)
    ensures Split(a + [sep] + b, sep) == Split(a, sep) + Split(b, sep)
    decreases |a|
  {
    if sep !in a {
      SplitAppendWhole(a, sep, b);
    } else {
      var i := IndexOfChar(a, sep);
      SplitAppendCut(a, sep, b, i);
      SplitAppend(a[i + 1..], sep, b);
      ConsAppendAssoc(a[..i], Split(a[i + 1..], sep), Split(b, sep));
    }
  }

  lemma ConsAppendAssoc<T>(x: T, p: seq<T>, q: seq<T>)
    ensures [x] + (p + q) == ([x] + p) + q
  {
  }

  /** With no separator in `a`, the added one is the first cut. */
  lemma SplitAppendWhole(a: string, sep: char, b: string)
    requires sep !in a
    ensures Split(a + [sep] + b, sep) == [a] + Split(b, sep)
    ensures Split(a, sep) == [a]
  {
    var s := a + [sep] + b;
    SlicesAround(a, sep, b, |a|);
    SplitAt(s, sep, |a|);
    assert s[..|a|] == a && s[|a| + 1..] == b;
  }

  /** The first separator of `a` is the first cut of `a + [sep] + b` too. */
  lemma SplitAppendCut(a: string, sep: char, b: string, i: nat)
    requires i < |a| && a[i] == sep && sep !in a[..i]
    ensures Split(a + [sep] + b, sep) == [a[..i]] + Split(a[i + 1..] + [sep] + b, sep)
    ensures Split(a, sep) == [a[..i]] + Split(a[i + 1..], sep)
  {
    SlicesAround(a, sep, b, i);
    SplitAt(a + [sep] + b, sep, i);
    SplitAt(a, sep, i);
  }

  /** The two sides of a cut at index `i` of `a + [sep] + b`, for `i` in `a`
      or at the added separator. */
  lemma SlicesAround(a: string, sep: char, b: string, i: nat)
    requires i <= |a|
    ensures (a + [sep] + b)[..i] == a[..i]
    ensures (a + [sep] + b)[i] == if i < |a| then a[i] else sep
    ensures i < |a| ==> (a + [sep] + b)[i + 1..] == a[i + 1..] + [sep] + b
    ensures i == |a| ==> (a + [sep] + b)[i + 1..] == b
  {
    var s := a + [sep] + b;
    assert s[..i] == a[..i];
    if i < |a| {
      assert s[i + 1..] == a[i + 1..] + [sep] + b;
    } else {
      assert s[i + 1..] == b;
    }
  }

  /** The decimal digit for `d`. */
  function DigitChar(d: nat): char
    requires d < 10
  {
    ('0' as int + d) as char
  }

  predicate IsDigit(c: char) {
    '0' <= c <= '9'
  }

  function DigitValue(c: char): nat
    requires IsDigit(c)
  {
    c as int - '0' as int
  }

  /** `String(n)` for a non-negative integer: its decimal digits, no leading zero. */
  function NatToString(n: nat): (r: string)
    ensures |r| >= 1
    ensures forall i :: 0 <= i < |r| ==> IsDigit(r[i])
    ensures n < 10 <==> |r| == 1
  {
    if n < 10 then [DigitChar(n)] else NatToString(n / 10) + [DigitChar(n % 10)]
  }

  /** The number a string of decimal digits denotes. */
  function DecimalValue(s: string): nat
    requires forall i :: 0 <= i < |s| ==> IsDigit(s[i])
  {
    if s == [] then 0 else 10 * DecimalValue(s[..|s| - 1]) + DigitValue(s[|s| - 1])
  }

  lemma {:induction false} DecimalOfNatToString(n: nat)
    ensures DecimalValue(NatToString(n)) == n
  {
    if n >= 10 {
      var r := NatToString(n);
      assert r[..|r| - 1] == NatToString(n / 10);
      DecimalOfNatToString(n / 10);
    }
  }

  /** `s.padStart(width, c)`. */
  function PadStart(s: string, width: nat, c: char): (r: string)
    ensures |r| == if |s| >= width then |s| else width
    ensures r[|r| - |s|..] == s
    ensures forall i :: 0 <= i < |r| - |s| ==> r[i] == c
  {
    if |s| >= width then s else seq(width - |s|, _ => c) + s
  }

  /** A leading zero does not change the value of a digit string. */
  lemma {:induction false} DecimalLeadingZeros(z: nat, s: string)
    requires forall i :: 0 <= i < |s| ==> IsDigit(s[i])
    ensures var p := seq(z, _ => '0') + s;
      (forall i :: 0 <= i < |p| ==> IsDigit(p[i])) && DecimalValue(p) == DecimalValue(s)
    decreases |s|
  {
    var p := seq(z, _ => '0') + s;
    if s == [] {
      assert p == seq(z, _ => '0');
      ZerosValue(z);
    } else {
      DecimalLeadingZeros(z, s[..|s| - 1]);
      assert p[..|p| - 1] == seq(z, _ => '0') + s[..|s| - 1];
    }
  }

  lemma {:induction false} ZerosValue(z: nat)
    ensures var p := seq(z, _ => '0');
      (forall i :: 0 <= i < |p| ==> IsDigit(p[i])) && DecimalValue(p) == 0
  {
    if z > 0 {
      ZerosValue(z - 1);
      assert seq(z, _ => '0')[..z - 1] == seq(z - 1, _ => '0');
    }
  }
}

=== FILE: usernames.dfy ===
/** Username normalisation, shared by the app shell and the mate store
    (both define the same `normalizeUsername`). */
module Usernames {
  import opened Text

  /** Removes a single leading '@': the regular expression `^@` replaced once. */
  function StripOneAt(s: string): (r: string)
    ensures if StartsWith(s, "@") then r == s[1..] else r == s
  {
    if s != [] && s[0] == '@' then s[1..] else s
  }

  predicate NoUpperAscii(s: string) {
    forall i :: 0 <= i < |s| ==> !('A' <= s[i] <= 'Z')
  }

  /** `normalizeUsername`: trim, drop at most one leading '@', lower-case. */
  function Normalize(input: string): (r: string)
    ensures NoUpperAscii(r)
    ensures |r| + (if StartsWith(Trim(input), "@") then 1 else 0) == |Trim(input)|
    ensures r == [] <==> Trim(input) == [] || Trim(input) == "@"
    ensures StartsWith(Trim(input), "@") ==> forall i :: 0 <= i < |r| ==> r[i] == LowerChar(Trim(input)[i + 1])
    ensures !StartsWith(Trim(input), "@") ==> forall i :: 0 <= i < |r| ==> r[i] == LowerChar(Trim(input)[i])
  {
    StripThenLower(Trim(input));
    ToLower(StripOneAt(Trim(input)))
  }

  /** What dropping one leading '@' and lower-casing does to a string `t`. */
  lemma StripThenLower(t: string)
    ensures var r := ToLower(StripOneAt(t));
      && NoUpperAscii(r)
      && |r| + (if StartsWith(t, "@") then 1 else 0) == |t|
      && (r == [] <==> t == [] || t == "@")
      && (StartsWith(t, "@") ==> forall i :: 0 <= i < |r| ==> r[i] == LowerChar(t[i + 1]))
      && (!StartsWith(t, "@") ==> forall i :: 0 <= i < |r| ==> r[i] == LowerChar(t[i]))
  {
    var r := ToLower(StripOneAt(t));
    if StartsWith(t, "@") {
      assert t == "@" + t[1..];
      assert forall i :: 0 <= i < |r| ==> t[1..][i] == t[i + 1];
    }
  }

  lemma ToLowerOfLower(s: string)
    requires NoUpperAscii(s)
    ensures ToLower(s) == s
  {
  }

  /** Normalising a second time changes nothing exactly when the first result
      is already trimmed and does not start with '@'. */
  lemma NormalizeIdempotentIff(s: string)
    ensures Normalize(Normalize(s)) == Normalize(s)
        <==> IsTrimmed(Normalize(s)) && !StartsWith(Normalize(s), "@")
  {
    var n := Normalize(s);
    if IsTrimmed(n) && !StartsWith(n, "@") {
      TrimOfTrimmed(n);
      ToLowerOfLower(n);
    } else if !IsTrimmed(n) {
      TrimShortensUntrimmed(n);
    }
  }

  lemma TrimShortensUntrimmed(s: string)
    requires !IsTrimmed(s)
    ensures |Trim(s)| < |s|
  {
    var e := TrimEnd(s);
    if |e| == |s| {
      assert e == s[..|s|] == s;
      assert IsSpace(s[0]);
    }
  }

  /** Normalisation is not idempotent: "@@Foo" needs two passes to lose both '@'. */
  lemma NotIdempotentWitness()
    ensures Normalize("@@Foo") == "@foo"
    ensures Normalize(Normalize("@@Foo")) == "foo"
  {
    assert !IsSpace('@') && !IsSpace('o');
    assert Trim("@@Foo") == "@@Foo" by { TrimOfTrimmed("@@Foo"); }
    assert StripOneAt("@@Foo") == "@Foo";
    LowerExample("@Foo", "@foo");
    assert Trim("@foo") == "@foo" by { TrimOfTrimmed("@foo"); }
    assert StripOneAt("@foo") == "foo";
    LowerExample("foo", "foo");
  }

  lemma LowerExample(s: string, t: string)
    requires |s| == |t| && forall i :: 0 <= i < |s| ==> LowerChar(s[i]) == t[i]
    ensures ToLower(s) == t
  {
  }

  /** The example of the design notes: "@Foo " and "foo" normalise alike. */
  lemma NormalizeExample()
    ensures Normalize("@Foo ") == Normalize("foo") == "foo"
  {
    NormalizeDecorated();
    NormalizePlain();
  }

  lemma NormalizeDecorated()
    ensures Normalize("@Foo ") == "foo"
  {
    TrimExample();
    var t := Trim("@Foo ");
    assert StripOneAt(t) == "Foo";
    LowerExample("Foo", "foo");
  }

  lemma NormalizePlain()
    ensures Normalize("foo") == "foo"
  {
    assert !IsSpace('o') && !IsSpace('f');
    TrimOfTrimmed("foo");
    assert StripOneAt("foo") == "foo";
    LowerExample("foo", "foo");
  }

  lemma TrimExample()
    ensures Trim("@Foo ") == "@Foo"
  {
    assert !IsSpace('@') && !IsSpace('o') && IsSpace(' ');
    assert TrimEnd("@Foo ") == TrimEnd("@Foo") == "@Foo";
    TrimOfTrimmed("@Foo");
  }
}

=== FILE: wrappers.dfy ===
/** Option and Result types shared by every module of the model. */
module Wrappers {

  /** A value that may be absent (the source's `undefined`/`null`). */
  datatype Option<+T> = None | Some(value: T) {
    function GetOr(default: T): T {
      match this
      case Some(v) => v
      case None => default
    }
  }

  /** The outcome of an operation that either produces a value or fails
      with an error (the source's thrown errors and rejected promises). */
  datatype Result<+T, +E> = Ok(value: T) | Err(error: E)
}
